=== FILE: README.md ===
# Qanoon Assist, modelled in Dafny

Qanoon Assist is a legal-services platform. Citizens register, browse
verified lawyers and send them case requests. Lawyers accept, reject,
start and complete those requests, and schedule hearings and post
progress updates on the cases they open. Both sides exchange messages
per request. Administrators verify or reject lawyer registrations and
watch platform statistics. A public knowledge base of legal articles can
be searched by anyone.

This project models the core of the system as pure functions over
immutable data. Two halves are modelled:

- **The server.** A Django REST backend is modelled as functions from a
  `Store` (one sequence per database table) and an `Actor` (the
  authenticated user with the id of their profile) to a `Handled` value:
  the HTTP reply together with the store after the call.
- **The client.** The React front end is modelled as state-transition
  functions:
  - the HTTP client's token interceptors;
  - the authentication context;
  - the route guard and the dashboard router;
  - the pages' form handling and list filters.

Clocks, random numbers, UUIDs, new primary keys and server replies are
parameters.

Modules follow the repository's files:

| module | file of the system |
|---|---|
| `Domain` | the records of `backend/*/models.py`, shared reply types and lookups |
| `UserModels` | `backend/users/models.py` |
| `UserSerializers` | `backend/users/serializers.py` and the registration views |
| `LawyerViews` | `backend/users/views.py` |
| `AdminViews` | `backend/users/admin_views.py` |
| `CaseModels` | `backend/cases/models.py` |
| `CaseViews`, `CaseRecords` | `backend/cases/views.py` |
| `CaseSerializers` | `backend/cases/serializers.py` |
| `MessagingViews` | `backend/messaging/views.py` |
| `KnowledgeBase` | `backend/knowledge_base/views.py` |
| `Session` | `frontend/src/services/api.js` |
| `AuthContext` | `frontend/src/contexts/AuthContext.js` |
| `Guards` | `ProtectedRoute.jsx`, `DashboardPage.jsx` |
| `RegisterPage`, `Cnic` | `frontend/src/pages/auth/RegisterPage.jsx` |
| `RequestList`, `CitizenDashboard`, `LawyerDashboard` | the two dashboard components |
| `LawyersPage`, `CaseDetails`, `MessageBox` | the pages of the same names |
| `Seqs`, `Sorting`, `Text` | helpers: filtering and counting, insertion sort, ASCII case mapping, Python's `str.strip` and its decimal digits |

The database returns rows in an unspecified order unless a query orders
them. Where the source orders results (an `ORDER BY` or a model's
`Meta.ordering`), the model sorts with a total preorder and proves the
result sorted. Elsewhere it keeps the table order.

## Model

| member | source | states |
|---|---|---|
| Domain.ParseUserType | backend/users/models.py:6-11 | a stored user type is one of the three codes exactly when it parses to a listed type; any other text is kept as unlisted |
| Domain.UserTypeRoundTrip | backend/users/models.py:6-11 | codes and user types determine each other: parsing then printing gives the stored text back, and printing then parsing gives the type back |
| Domain.ParseStatus | backend/cases/models.py:6-12 | exactly the five status codes parse to a request status |
| Domain.StatusRoundTrip | backend/cases/models.py:6-12 | status codes and statuses determine each other in both directions |
| UserModels.AssignEmployeeId | backend/users/models.py:116-119 | an administrator profile without an employee id gets `ADMIN` followed by the upper-cased first eight characters of a UUID; an existing id is kept |
| UserModels.EmployeeIdStable | backend/users/models.py:116-119 | saving a profile a second time never changes the employee id the first save assigned |
| UserModels.ForgetVerifier | backend/users/models.py:81-88 | deleting a user clears `verified_by` on exactly the profiles that user verified and changes nothing else in them |
| UserModels.DetachCases | backend/cases/models.py:56 | cases of deleted requests survive with `case_request` cleared; every other field is unchanged |
| UserModels.DeleteUser | backend/users/models.py:24-109 | deleting a user cascades to their profiles, links, requests, cases, hearings, updates and messages. Every table keeps exactly the rows not tied to the user, in both directions of membership. Surviving lawyer profiles lose `verified_by` when it named the user, and surviving cases lose `case_request` when it named a deleted request; both tables keep one row per surviving row |
| UserModels.DeleteUserLeavesNoReference | backend/users/models.py:24-109 | after a deletion no remaining user, request, link, message or update refers to the deleted user or one of their profiles |
| UserSerializers.RegisterCitizen | backend/users/serializers.py:31-76 | missing or weak fields and mismatching passwords give 400. A missing email or a citizen CNIC already stored gives 500. Every other submission succeeds, appending a new user and citizen profile; no other reply occurs |
| UserSerializers.SaveLawyer | backend/users/serializers.py:124-167 | a missing email or a taken bar number fails with a 500; otherwise the user, an unverified profile and one link per chosen existing specialty are appended |
| UserSerializers.RegisterLawyer | backend/users/serializers.py:78-167 | field errors give 400 first, then a badly formed CNIC, then mismatching passwords, then a CNIC already used by a lawyer; otherwise the call behaves as the save step |
| UserSerializers.Chosen | backend/users/serializers.py:162-165 | the specialties linked are exactly the stored ones whose id was submitted |
| UserSerializers.LinksFor | backend/users/serializers.py:162-165 | one link from the new profile per chosen specialty, in order |
| UserSerializers.RegisteredLawyerUnverified | backend/users/serializers.py:159 | a lawyer who has just registered is stored unverified and reported with `is_verified` false |
| UserSerializers.FormattedCnicPassesValidation | backend/users/serializers.py:107-112 | any input with at least thirteen digits, once run through the registration form's formatter, passes the server's CNIC check |
| UserSerializers.CnicValid | backend/users/serializers.py:107-112 | the lawyer serializer's check: the stripped value matches the anchored pattern |
| UserSerializers.CnicValidIsStrict | backend/users/serializers.py:107-112 | after stripping, the server's CNIC pattern accepts exactly five, seven and one decimal digits joined by dashes, where a digit is any Unicode decimal digit as Python's `\d` matches it on text |
| UserSerializers.ArabicIndicCnicValid | backend/users/serializers.py:107-112 | a CNIC written in Arabic-Indic digits passes the lawyer serializer's check |
| UserSerializers.CitizenCnicUnchecked | backend/users/serializers.py:31-48 | a citizen CNIC of any shape is accepted and stored as typed (stripped) |
| UserSerializers.RegisterCitizenKeepsCnicsUnique | backend/users/models.py:27 | citizen registration never stores two profiles with the same CNIC |
| UserSerializers.RegisterLawyerKeepsProfilesUnique | backend/users/models.py:53-68 | lawyer registration keeps bar numbers unique, and CNICs unique among the profiles that have one |
| UserSerializers.RegisterLawyerKeepsLinksUnique | backend/users/models.py:102 | lawyer registration never creates a duplicate lawyer and specialty pair |
| UserSerializers.GetProfile | backend/users/serializers.py:21-28 | a user's profile is the one of their own type belonging to them; there is none for an unlisted type or a missing profile |
| UserSerializers.RegisteredCitizenProfile | backend/users/serializers.py:21-28 | after a citizen registers, reading their profile back gives the profile just stored |
| UserSerializers.ProfilePictureUrl | backend/users/serializers.py:204-210 | no picture gives no URL; otherwise the media path, prefixed by the request's origin when there is a request |
| LawyerViews.List | backend/users/views.py:100-129 | the public list holds exactly the verified lawyers that match the city (ignoring case) and the specialty when those are given; a non-numeric specialty fails |
| LawyerViews.ListIgnoresCase | backend/users/views.py:100-129 | city terms that differ only in letter case select the same lawyers |
| LawyerViews.Unverified | backend/users/views.py:131-156 | only administrators get the list; it holds the unverified profiles in table order, each exactly as often as it occurs in the table, and no verified one |
| LawyerViews.SetVerified | backend/users/views.py:158-192 | the update marks every row with that id verified, at that time and by that administrator, and leaves every other row alone |
| LawyerViews.Verify | backend/users/views.py:158-192 | a non-administrator gets 403 and an unknown id 404, both storing nothing. An administrator naming a stored profile gets 200 exactly when its user row exists, with the profile returned as the stored one marked verified at that time by that administrator; a profile without a user row gives 500 after the update |
| LawyerViews.VerifiedIsListed | backend/users/views.py:100-192 | a lawyer just verified appears in the unfiltered public list and no longer in the unverified list |
| LawyerViews.Reject | backend/users/views.py:194-217 | a non-administrator gets 403 and an unknown id 404. A stored profile whose user row is missing fails on reading its user, a 500 with nothing deleted. Otherwise the lawyer's whole account is deleted and the reply quotes the reason, or "Not specified"; the four replies are exhaustive |
| LawyerViews.RejectedIsGone | backend/users/views.py:158-217 | after a rejection the profile is gone, so verifying or rejecting it again gives 404 |
| LawyerViews.CityCountsBounded | backend/users/views.py:219-243 | the three city counts together never exceed the number of verified lawyers |
| LawyerViews.Stats | backend/users/views.py:219-243 | the verified total is the length of the unfiltered public list, and each city figure is the number of rows of that list in the city; the city figures stay within the total, and verified plus unverified lawyers make up the table |
| LawyerViews.UnfilteredListIsVerified | backend/users/views.py:100-129 | with no city and no specialty the public list is exactly the verified profiles, in table order |
| LawyerViews.CityCountIsListed | backend/users/views.py:219-243 | a city count equals the number of rows of the unfiltered public list in that city |
| AdminViews.Dashboard | backend/users/admin_views.py:15-128 | non-administrators get 403. Each figure is the number of rows of its table meeting its condition: citizens among users, verified and unverified lawyers, requests per status, active cases, hearings dated now or later, unread messages; the totals are the table sizes |
| AdminViews.DashboardMatchesLists | backend/users/admin_views.py:15-128 | for an administrator the dashboard agrees with the other endpoints: verified lawyers is the public list's length, the status figures count the administrator's request list, active cases count the case list and unread messages count the message list |
| AdminViews.AdminSeesAllRequests | backend/cases/views.py:19-58 | counting a status over an administrator's request list counts it over the whole table |
| AdminViews.PendingLawyers | backend/users/admin_views.py:130-141 | only administrators get the list, and it holds exactly the unverified profiles, in table order |
| AdminViews.PendingCountMatchesList | backend/users/admin_views.py:36-65 | the dashboard's pending-verification figure is the length of the pending list |
| AdminViews.RequestRows | backend/users/admin_views.py:156-171 | a row is listed exactly when it comes from a request whose citizen and lawyer both join to a user |
| AdminViews.CaseRows | backend/users/admin_views.py:186-202 | a row is listed exactly when it comes from a case whose citizen and lawyer both join to a user |
| AdminViews.RequestRowsCount | backend/users/admin_views.py:156-171 | there are exactly as many rows as requests whose citizen and lawyer both join to a user: none is repeated or dropped |
| AdminViews.CaseRowsCount | backend/users/admin_views.py:186-202 | there are exactly as many rows as cases whose citizen and lawyer both join to a user |
| AdminViews.NewestFirst | backend/users/admin_views.py:156-171 | ordering by date descending is a total, transitive order |
| AdminViews.Latest | backend/users/admin_views.py:156-171 | exactly ten rows, or all of them when there are fewer; newest first, each input row listed at most as often as it occurs, and no row left out is newer than a listed one |
| AdminViews.RecentActivity | backend/users/admin_views.py:143-222 | administrators get the ten newest joinable requests and the ten newest joinable cases, or all of them when fewer; each list newest first, and each a sub-multiset of the joined rows, so no row is repeated beyond the table |
| AdminViews.RecentRequestsAreLatest | backend/users/admin_views.py:156-171 | with at most ten joinable requests every one is listed; otherwise a joinable request missing from the list is no newer than any listed one |
| AdminViews.RecentCasesAreLatest | backend/users/admin_views.py:186-202 | with at most ten joinable cases every one is listed; otherwise a joinable case missing from the list was filed no later than any listed one |
| CaseModels.AssignCaseNumber | backend/cases/models.py:71-76 | a case without a number gets `QA-<year>-<n>` from the four-digit draw; an existing number is kept |
| CaseModels.CaseNumberRoundTrip | backend/cases/models.py:71-76 | a generated case number can be read back into the year and the draw it was made from |
| CaseViews.VisibleRequests | backend/cases/views.py:19-58 | a citizen sees their own requests, a lawyer the ones sent to them, an administrator all of them, newest first |
| CaseViews.GetObject | backend/cases/views.py:19-58 | a request is found by id exactly when it is in the caller's list |
| CaseViews.Respond | backend/cases/views.py:86-136 | a request the caller cannot see is a 404 that stores nothing; otherwise the status, response time and message are written, and no other request or table changes |
| CaseViews.Accept | backend/cases/views.py:86-110 | an accepted request is stored accepted, with the given message or "Request accepted" |
| CaseViews.Reject | backend/cases/views.py:112-136 | a rejected request is stored rejected, with the given message or "Request rejected" |
| CaseViews.Complete | backend/cases/views.py:163-174 | a visible request becomes completed and nothing else changes; an invisible one is a 404 |
| CaseViews.StartProgress | backend/cases/views.py:138-161 | a request the caller cannot see is a 404 that stores nothing. A visible request without a case and with a free case number succeeds: it is saved in progress and a case is opened for it. One that already has a case, or whose number is taken, gives 500 with the status change kept |
| CaseViews.StartProgressKeepsCaseConstraints | backend/cases/models.py:56-60 | starting progress keeps at most one case per request and unique case numbers |
| CaseViews.RespondIgnoresLifecycle | backend/cases/views.py:86-136 | accepting or rejecting succeeds for any visible request, whatever its current status |
| CaseViews.CompleteIgnoresLifecycle | backend/cases/views.py:163-174 | completing succeeds for any visible request, whatever its current status |
| CaseViews.MarkViewed | backend/cases/views.py:176-195 | an invisible request is a 404 and a non-citizen gets 403, both storing nothing. A citizen's visible request always succeeds, getting its last-viewed time set with nothing else changed |
| CaseViews.MarkViewedOwnOnly | backend/cases/views.py:176-195 | only a citizen can mark a request viewed, and only one they sent |
| CaseViews.ParseUrgency | backend/cases/models.py:14-19 | exactly the four urgency codes are accepted, each mapping back to its code |
| CaseViews.Create | backend/cases/views.py:60-84 | non-citizens get 403. Invalid fields or a repeated requester, lawyer and title give 400. Every other citizen request succeeds and is appended with every field fixed: the given id, the caller as requester, the chosen lawyer, the stripped title, type and description, medium urgency by default, pending status, the request time, no response date, and the submitted response message and last-viewed time |
| CaseViews.CreateKeepsUniqueTriples | backend/cases/models.py:41 | the stored requests never repeat a requester, lawyer and title; a new request appears in both the citizen's and the lawyer's lists |
| CaseViews.Stats | backend/cases/views.py:197-255 | citizens and lawyers get counts over their own requests, anyone else 403. The total and each of the five status figures is the number of request rows the caller takes part in that have that status |
| CaseViews.MineWithStatus | backend/cases/views.py:204-251 | counting a status among the caller's requests is counting the table rows that are the caller's and have that status |
| CaseViews.StatusCountsPartition | backend/cases/views.py:204-251 | the five status counts add up to the number of requests |
| CaseViews.StatsPartition | backend/cases/views.py:197-255 | the five status figures of the statistics add up to the total |
| CaseRecords.VisibleCases | backend/cases/views.py:262-298 | each role sees exactly its own cases (an administrator all of them), each as often as it occurs in the table, most recently filed first |
| CaseRecords.VisibleHearings | backend/cases/views.py:307-317 | hearings are visible exactly when their case is the caller's, each as often as it occurs in the table; latest hearing date first |
| CaseRecords.VisibleUpdates | backend/cases/views.py:330-340 | updates are visible exactly when their case is the caller's, each as often as it occurs in the table; newest first |
| CaseRecords.RecordsFollowCase | backend/cases/views.py:262-340 | a hearing or update is visible to a caller exactly when its case is |
| CaseRecords.CreateHearingAsWritten | backend/cases/views.py:319-323 | invalid data gives 400; valid data from a non-lawyer raises a plain exception, a 500; a lawyer's valid hearing always succeeds and is appended; no other reply occurs |
| CaseRecords.CreateHearing | backend/cases/views.py:319-323 | as intended: invalid data gives 400, a non-lawyer is refused with 403, and a lawyer's valid hearing always succeeds and is appended; no other reply occurs |
| CaseRecords.HearingRefusalDiffers | backend/cases/views.py:319-323 | a citizen's valid hearing gets a 500 as written and a 403 as intended |
| CaseRecords.CreateHearingAgrees | backend/cases/views.py:319-323 | for a lawyer, and for invalid data, the two versions give the same reply and store |
| CaseRecords.AnyLawyerMaySchedule | backend/cases/views.py:303-323 | any lawyer can add a hearing to any case, and the parties of that case then see it |
| CaseRecords.CreateUpdateAsWritten | backend/cases/views.py:342-346 | invalid data gives 400; valid data from a non-lawyer is a 500; a lawyer's valid update always succeeds and is appended with the lawyer as author; no other reply occurs |
| CaseRecords.CreateUpdate | backend/cases/views.py:342-346 | as intended: invalid data gives 400, a non-lawyer is refused with 403, and a lawyer's valid update always succeeds; no other reply occurs |
| CaseRecords.UpdateRefusalDiffers | backend/cases/views.py:342-346 | a citizen's valid update gets a 500 as written and a 403 as intended |
| CaseRecords.CreateUpdateAgrees | backend/cases/views.py:342-346 | for a lawyer, and for invalid data, the two versions agree |
| CaseSerializers.UnreadCount | backend/cases/serializers.py:25-37 | without a request user the count is 0; otherwise it is the number of the request's messages that are unread and were sent by someone other than the viewer |
| CaseSerializers.CaseId | backend/cases/serializers.py:39-45 | the id of a case linked to the request, and none exactly when no case is linked |
| CaseSerializers.HasNewUpdatesIff | backend/cases/serializers.py:47-88 | the badge shows exactly for a citizen viewer whose linked case has a hearing or update created after the last view (any one, if never viewed) |
| CaseSerializers.HasNewUpdates | backend/cases/serializers.py:47-88 | the badge computed branch by branch: never for a viewer who is not a citizen, any record of the case for a request never viewed, a record created after the view otherwise |
| CaseSerializers.NothingLaterNoBadge | backend/cases/serializers.py:47-88 | a request viewed at a time no hearing or update is later than shows no badge |
| CaseSerializers.MarkViewedClearsBadge | backend/cases/serializers.py:47-88 | marking a request viewed no earlier than every hearing and update clears its badge |
| MessagingViews.VisibleMessages | backend/messaging/views.py:16-57 | a caller sees exactly the messages of requests they take part in, each as often as it occurs in the table, oldest first |
| MessagingViews.Create | backend/messaging/views.py:59-91 | a non-numeric request id is a 500; an absent or unknown one a 404; a non-participant gets 403; blank content a 400; all of these store nothing. Every other message succeeds and is appended with every field fixed: the given id, the caller as sender, the given request, the stripped content, the attachment as sent, the time and the read flag as sent |
| MessagingViews.PostedMessageIsUnreadForOthers | backend/messaging/views.py:59-91 | posting an unread message raises every other user's unread count on that request by one |
| MessagingViews.MarkRead | backend/messaging/views.py:134-142 | exactly the messages of the request not sent by the caller become read; nothing else changes |
| MessagingViews.ByCase | backend/messaging/views.py:93-148 | a missing id is 400, a non-numeric one 500, an unknown one 404, a non-participant 403; otherwise the request's messages, each as often as it occurs in the store, oldest first, with the others' messages marked read |
| MessagingViews.ByCaseMarksExactly | backend/messaging/views.py:134-142 | after reading, the caller has no unread messages left on that request, and other requests' messages are untouched |
| MessagingViews.ByCaseIdempotent | backend/messaging/views.py:93-148 | reading the same conversation twice leaves the store as the first read did |
| MessagingViews.UnreadCount | backend/messaging/views.py:150-184 | only citizens and lawyers have unread messages; for them the count is the number of messages they can see that are unread and sent by someone else |
| MessagingViews.ByCaseNeverRaisesUnread | backend/messaging/views.py:93-184 | reading a conversation never raises anyone's unread count |
| MessagingViews.MarkReadNoNewUnread | backend/messaging/views.py:134-142 | marking a conversation read never raises the number of messages any user counts as unread |
| MessagingViews.UnreadOnlyFalls | backend/messaging/views.py:134-142 | a message that only gained its read flag is unread for a user afterwards only if it was before |
| MessagingViews.Stats | backend/messaging/views.py:186-243 | citizens and lawyers get figures over the messages they can see, anyone else zeros. The total, unread, sent and received figures are the numbers of those messages overall, unread from others, sent by the caller and sent by others |
| MessagingViews.VisibleCount | backend/messaging/views.py:16-57 | any count over the caller's message list equals that count over the table rows the caller may see |
| MessagingViews.StatsUnreadIsCounter | backend/messaging/views.py:150-243 | the statistics' unread figure equals the unread counter |
| MessagingViews.StatsIdentities | backend/messaging/views.py:186-243 | sent plus received is the total, and unread is at most received |
| KnowledgeBase.InOrder | backend/knowledge_base/models.py:26-27 | articles are put in article-number order, losing and adding nothing |
| KnowledgeBase.Query | backend/knowledge_base/views.py:29-47 | exactly the articles that match the term and the category, each as often as it occurs in the table, in article-number order |
| KnowledgeBase.List | backend/knowledge_base/views.py:29-47 | a non-numeric category fails; otherwise the matching articles, each as often as it occurs in the table, in article-number order |
| KnowledgeBase.Search | backend/knowledge_base/views.py:49-72 | the count equals the number of results and the number of matching articles in the table, and the results are exactly the matching articles, each as often as it occurs |
| KnowledgeBase.SearchAgreesWithList | backend/knowledge_base/views.py:29-72 | the search endpoint returns what the list endpoint returns for the same term and category |
| KnowledgeBase.NoFilterReturnsAll | backend/knowledge_base/views.py:29-47 | with no term and no category every article comes back, as often as it is stored |
| KnowledgeBase.SearchIgnoresCase | backend/knowledge_base/views.py:35-40 | terms that differ only in letter case give the same list |
| KnowledgeBase.CategoryNarrows | backend/knowledge_base/views.py:42-45 | adding a category keeps only results of that category that the term alone also found |
| Session.AttachToken | frontend/src/services/api.js:13-28 | with a stored access token, the request carries it as a bearer header and is otherwise unchanged; without one the request is untouched |
| Session.Call | frontend/src/services/api.js:5-80 | the application's client: every call goes through both interceptors with no path exempt from the refresh path |
| Session.AttachTokenIdempotent | frontend/src/services/api.js:13-28 | attaching the token twice equals attaching it once |
| Session.Intercepted | frontend/src/services/api.js:31-80 | a call sends one or two requests and refreshes at most once; a refresh or a redirect happens only after a first 401 on a request not yet retried; a redirect always comes with cleared storage and a failed call |
| Session.SuccessPassesThrough | frontend/src/services/api.js:13-34 | a first 2xx reply reaches the caller as it is: one request sent, no refresh, storage and location untouched |
| Session.BearerAttached | frontend/src/services/api.js:13-28 | the first request of every call carries the stored access token |
| Session.NoRefreshTokenLogsOut | frontend/src/services/api.js:45-54 | a 401 with no refresh token stored clears storage, redirects to the login page and fails the call, with no refresh attempt |
| Session.RefreshReplaysOnce | frontend/src/services/api.js:57-67 | after a successful refresh the new access token is stored and the request is replayed once, flagged and carrying it |
| Session.FailedRefreshLogsOut | frontend/src/services/api.js:68-75 | a failed refresh clears storage, redirects to the login page and fails the call with the refresh error |
| Session.OtherErrorsPropagate | frontend/src/services/api.js:45-78 | any other error reaches the caller unchanged, with no refresh and storage untouched |
| Session.AlwaysUnauthorisedTerminates | frontend/src/services/api.js:45-75 | even a server that always answers 401 causes at most one refresh and two requests |
| Session.RegisterEndpoint | frontend/src/services/api.js:87-90 | the citizen endpoint exactly for the type "citizen", the lawyer endpoint otherwise |
| Session.EncodeMessage | frontend/src/services/api.js:147-163 | a message is sent multipart exactly when it has an attachment, with the request, the content and the file in that order |
| AuthContext.CheckAuth | frontend/src/contexts/AuthContext.js:18-39 | loading always ends; without a token nothing else changes; otherwise a successful probe sets the user and a failed one clears the user and both tokens |
| AuthContext.CheckAuthSendsStoredToken | frontend/src/contexts/AuthContext.js:18-39 | the identity probe sends the stored access token and refreshes it at most once |
| AuthContext.LoginErrorText | frontend/src/contexts/AuthContext.js:85-91 | the error shown is the server's detail, else the error message, else "Login failed" |
| AuthContext.Login | frontend/src/contexts/AuthContext.js:45-92 | as intended, with the login call exempt from refreshing: a successful login never reports an error; a failed one reports one, with no warning and the user unchanged |
| AuthContext.LoginAsWritten | frontend/src/contexts/AuthContext.js:45-92 | the program's login, through the shared client: a success carries no error; a failure carries an error and no warning, and leaves the user unchanged |
| AuthContext.LoginAsWrittenAgrees | frontend/src/contexts/AuthContext.js:45-92 | unless the login endpoint answers 401, the login as written and the corrected one give the same state and result, so the token lemmas below hold for the program as written |
| AuthContext.LoginNeedsBothTokens | frontend/src/contexts/AuthContext.js:51-55 | a token response missing either token fails with "Invalid token response" and stores nothing |
| AuthContext.LoginStoresTokensFirst | frontend/src/contexts/AuthContext.js:57-83 | both tokens are stored before the identity fetch, which sends the new access token; a failed fetch still logs in, with a warning |
| AuthContext.LoginReportsCredentialRejection | frontend/src/contexts/AuthContext.js:85-91 | with the login call exempt from refreshing, a 401 for wrong credentials is reported with the server's detail and leaves storage and location alone |
| AuthContext.LoginAsWrittenHidesCredentialRejection | frontend/src/contexts/AuthContext.js:45-92 | as written, wrong credentials with no refresh token are reported as "No refresh token", clear storage and redirect to the login page |
| AuthContext.LoginAsWrittenCounterexample | frontend/src/contexts/AuthContext.js:45-92 | a fresh browser and a wrong password: the version as written shows "No refresh token" and redirects; the corrected one shows the server's rejection |
| AuthContext.RegisterRequest | frontend/src/contexts/AuthContext.js:94-111 | registration posts to the role's endpoint, with the multipart header exactly when the payload is a form |
| AuthContext.RegisterError | frontend/src/contexts/AuthContext.js:115-120 | a failure with a response reports the response body; one without reports "Registration failed" |
| AuthContext.Register | frontend/src/contexts/AuthContext.js:94-122 | registration succeeds exactly when the call does, returns the server's data, and leaves the user unchanged |
| AuthContext.Logout | frontend/src/contexts/AuthContext.js:124-129 | both tokens and the user are removed; nothing else changes |
| AuthContext.LogoutIdempotent | frontend/src/contexts/AuthContext.js:124-129 | logging out twice equals logging out once, and leaves nobody authenticated |
| AuthContext.RoleFlagsExclusive | frontend/src/contexts/AuthContext.js:138-141 | each role flag implies authentication, and at most one role flag holds |
| Guards.Guard | frontend/src/components/common/ProtectedRoute.jsx:5-21 | loading shows a placeholder, a signed-out user goes to login, a user without a listed role goes to the dashboard, and only the rest see the page |
| Guards.AdminRouteAdmitsOnlyAdmins | frontend/src/App.js:80-82 | the administrator route renders exactly for a signed-in administrator once loading is done |
| Guards.GuardRoleListCases | frontend/src/components/common/ProtectedRoute.jsx:16-18 | a route with no role list admits every signed-in user; an empty list turns every one away |
| Guards.Dashboard | frontend/src/pages/DashboardPage.jsx:10-227 | each screen is shown exactly for its role: login when signed out, the citizen dashboard, the lawyer dashboard only when verified, the pending screen otherwise, the admin redirect, and a welcome for other types |
| Guards.ProfileVerified | frontend/src/pages/DashboardPage.jsx:22-24 | a lawyer counts as verified only with a profile whose flag is true; a missing profile or flag counts as not verified |
| Guards.LawyerDashboardNeedsVerification | frontend/src/pages/DashboardPage.jsx:22-148 | for a lawyer, the verification flag alone chooses between the dashboard and the pending screen |
| RegisterPage.ChooseImage | frontend/src/pages/auth/RegisterPage.jsx:64-88 | no file changes nothing; a non-image or a picture over 5 MB is refused with its message and the form kept; anything else is stored |
| RegisterPage.ChooseImageKeepsInvariant | frontend/src/pages/auth/RegisterPage.jsx:64-88 | the form never holds a picture that is not an image or is over 5 MB |
| RegisterPage.SetField | frontend/src/pages/auth/RegisterPage.jsx:57-62 | a text change sets that field and leaves every other field alone |
| RegisterPage.SetCnic | frontend/src/pages/auth/RegisterPage.jsx:101-107 | the CNIC field holds the formatted value, at most 15 characters |
| RegisterPage.FormData | frontend/src/pages/auth/RegisterPage.jsx:120-134 | the form data has one entry per non-empty text field, one per specialty, and one for a picture if present |
| RegisterPage.FormDataContents | frontend/src/pages/auth/RegisterPage.jsx:120-134 | a text field is sent exactly when it is non-empty, with its value; every specialty id is sent; a file is sent exactly when a picture was chosen |
| RegisterPage.Submit | frontend/src/pages/auth/RegisterPage.jsx:109-118 | mismatching passwords stop the submission with "Passwords do not match"; otherwise the form data is sent for the chosen type |
| RegisterPage.SubmitReachesRoleEndpoint | frontend/src/pages/auth/RegisterPage.jsx:109-136 | a submitted form goes to the role's endpoint as multipart form data |
| RegisterPage.AfterRegister | frontend/src/pages/auth/RegisterPage.jsx:138-143 | success shows the server's message and goes to the login page; failure shows the error body |
| Cnic.Format | frontend/src/pages/auth/RegisterPage.jsx:90-99 | the formatted value's digits are the first thirteen digits typed, and it is at most 15 characters |
| Cnic.FormatIdempotent | frontend/src/pages/auth/RegisterPage.jsx:90-99 | formatting an already formatted value changes nothing |
| Cnic.FormatAcceptedIff | frontend/src/pages/auth/RegisterPage.jsx:90-99 | the formatted value passes the server's pattern exactly when at least thirteen digits were typed, and then has the ASCII shape |
| Cnic.PatternOkTrimmed | backend/users/serializers.py:107-112 | on a value with no trailing white space, the pattern with its end anchor accepts exactly the strict shape of five, seven and one Unicode decimal digits |
| Cnic.FormatFixesFormatted | frontend/src/pages/auth/RegisterPage.jsx:90-99 | a well-formed CNIC in ASCII digits is left exactly as it is by the formatter |
| Cnic.FormattedIsStrict | backend/users/serializers.py:107-112 | the formatter's shape, with ASCII digits, is one the server's pattern accepts |
| Cnic.ArabicIndicCnicAccepted | backend/users/serializers.py:107-112 | the pattern accepts a CNIC in Arabic-Indic digits, in which the form's formatter finds no digit at all |
| RequestList.WithStatus | frontend/src/components/common/dashboard/CitizenDashboard.jsx:68-78 | a status filter keeps exactly the requests with that status, in list order |
| RequestList.Visible | frontend/src/components/common/dashboard/CitizenDashboard.jsx:76-78 | the 'all' tab shows every request; any other tab shows exactly the requests with its status, in order |
| RequestList.Summarize | frontend/src/components/common/dashboard/CitizenDashboard.jsx:68-74 | the summary counts are the list's length and the sizes of the four status filters |
| RequestList.ExactlyOneStatus | backend/cases/models.py:6-12 | any status text is exactly one of the five codes or none of them |
| RequestList.SummaryAccountsForAll | frontend/src/components/common/dashboard/CitizenDashboard.jsx:68-74 | the four counts, the rejected requests and those with an unknown status together make up the total |
| RequestList.TabMatchesCount | frontend/src/components/common/dashboard/CitizenDashboard.jsx:261-265 | each tab lists as many requests as its label's count says |
| RequestList.StatusColor | frontend/src/components/common/dashboard/CitizenDashboard.jsx:46-55 | pending, accepted, rejected and in_progress each get their own colour; completed and any other text get the default |
| RequestList.ReplaceFirstUnderscore | frontend/src/components/common/dashboard/CitizenDashboard.jsx:320 | only the first underscore is replaced by a space; every other character is kept |
| RequestList.StatusLabel | frontend/src/components/common/dashboard/CitizenDashboard.jsx:320 | the status chip label has the same length as the status |
| RequestList.StatusLabelReadable | frontend/src/components/common/dashboard/CitizenDashboard.jsx:320 | a status with at most one underscore, as every defined code, gets a label with no underscore and no lower-case letter |
| RequestList.ShowsUnreadBadge | frontend/src/components/common/dashboard/CitizenDashboard.jsx:415 | the unread badge on the Message button appears exactly when the request has unread messages |
| CitizenDashboard.EveryStatusHasTab | frontend/src/components/common/dashboard/CitizenDashboard.jsx:243-266 | every request with a defined status appears under its own tab and under 'all' |
| CitizenDashboard.StatusTabsPartition | frontend/src/components/common/dashboard/CitizenDashboard.jsx:243-266 | the five status tabs together list every request with a defined status once |
| CitizenDashboard.Buttons | frontend/src/components/common/dashboard/CitizenDashboard.jsx:371-412 | every card links to its details; a message button appears exactly for accepted or in-progress requests |
| CitizenDashboard.LawyerLabel | frontend/src/components/common/dashboard/CitizenDashboard.jsx:362 | the lawyer's name when it is non-empty, "Not assigned" otherwise |
| CitizenDashboard.FirstTabIsInitialFilter | frontend/src/components/common/dashboard/CitizenDashboard.jsx:242-246 | the first tab's filter is the initial filter 'all', and the other tabs are the five status codes, each once |
| LawyerDashboard.Buttons | frontend/src/components/common/dashboard/LawyerDashboard.jsx:426-560 | no buttons outside pending, accepted and in progress; messaging exactly for accepted or in progress; details exactly for in progress |
| LawyerDashboard.ButtonsFollowLifecycle | frontend/src/components/common/dashboard/LawyerDashboard.jsx:426-560 | every action the dashboard offers moves its request one step along the request lifecycle |
| LawyerDashboard.RejectedOnlyUnderAll | frontend/src/components/common/dashboard/LawyerDashboard.jsx:305-326 | rejected requests appear under no tab but 'all' |
| LawyerDashboard.Attempted | frontend/src/components/common/dashboard/LawyerDashboard.jsx:60-77 | the call matches the dialog's request and action; accept and reject send the typed message or their default; a missing request with a known action crashes |
| LawyerDashboard.AttemptMatchesAction | frontend/src/components/common/dashboard/LawyerDashboard.jsx:60-77 | each of the four actions makes its own server call |
| LawyerDashboard.ResponseMessageNeverEmpty | frontend/src/components/common/dashboard/LawyerDashboard.jsx:66-69 | accept and reject always send a non-empty message |
| LawyerDashboard.HandleAction | frontend/src/components/common/dashboard/LawyerDashboard.jsx:60-86 | success refetches and closes the dialog; failure keeps the dialog and the message and shows the failure alert |
| LawyerDashboard.FirstTabIsInitialFilter | frontend/src/components/common/dashboard/LawyerDashboard.jsx:303-307 | the first tab's filter is the initial filter 'pending'; there is a tab for 'all' and none for rejected requests |
| LawyerDashboard.OpenDialog | frontend/src/components/common/dashboard/LawyerDashboard.jsx:50-53 | the dialog opens for the chosen request and action with the message cleared |
| LawyerDashboard.CloseDialog | frontend/src/components/common/dashboard/LawyerDashboard.jsx:55-58 | closing leaves no request, no action and no message, so the dialog then makes no call |
| LawyerDashboard.CloseForgetsDialog | frontend/src/components/common/dashboard/LawyerDashboard.jsx:50-58 | closing an opened dialog gives the dashboard's starting state whatever was open; a dialog opened with a known action calls the server for that request |
| LawyerDashboard.SuccessCloses | frontend/src/components/common/dashboard/LawyerDashboard.jsx:55-80 | after a successful action the dialog and message are exactly what closing the dialog gives |
| LawyersPage.BlankFormUrgencyIsServerDefault | frontend/src/pages/LawyersPage.jsx:25-30 | the request form starts at the urgency the server also defaults to |
| LawyersPage.Open | frontend/src/pages/LawyersPage.jsx:65-70 | the dialog opens for that lawyer with both messages cleared and the typed form kept |
| LawyersPage.Close | frontend/src/pages/LawyersPage.jsx:72-83 | closing resets the dialog to its initial state |
| LawyersPage.CardButtons | frontend/src/pages/LawyersPage.jsx:297-327 | every card offers Email and Call; Request Case, for that lawyer, appears exactly for a signed-in citizen |
| LawyersPage.RequestCaseOnlyForCitizens | frontend/src/pages/LawyersPage.jsx:314-327 | a Request Case button exists exactly for citizens; lawyers, administrators and signed-out visitors never get one |
| LawyersPage.Submit | frontend/src/pages/LawyersPage.jsx:85-99 | a missing title, type or description stops the submission; otherwise the form is sent with the lawyer's id |
| LawyersPage.AfterSubmit | frontend/src/pages/LawyersPage.jsx:85-109 | the missing-fields message, the success message, or the server's error or the fallback; the form and the lawyer are kept |
| LawyersPage.ErrorField | frontend/src/pages/LawyersPage.jsx:102-104 | the `error` field of the failed response's body, when the failure had a response and the body has one |
| LawyersPage.SuccessExcludesError | frontend/src/pages/LawyersPage.jsx:85-109 | a success line and an error line are never shown together |
| CaseDetails.HearingsOf | frontend/src/pages/CaseDetailsPage.jsx:59-61 | exactly the hearings of the request's case, in table order, each as often as it occurs in the table |
| CaseDetails.UpdatesOf | frontend/src/pages/CaseDetailsPage.jsx:64-66 | exactly the updates of the request's case, in table order, each as often as it occurs in the table |
| CaseDetails.Fetch | frontend/src/pages/CaseDetailsPage.jsx:50-84 | a failed load shows the failure alert; otherwise the request is shown, with its case's hearings and updates when it has a case, and non-lawyers mark it viewed once everything has loaded |
| CaseDetails.MarkViewedOnlyForCitizens | frontend/src/pages/CaseDetailsPage.jsx:69-76 | a lawyer never marks a request viewed; anyone else always does on a request without a case |
| CaseDetails.ShowsCaseActions | frontend/src/pages/CaseDetailsPage.jsx:305 | the hearing and update buttons show exactly for a lawyer on a request in progress |
| CaseDetails.HearingToSend | frontend/src/pages/CaseDetailsPage.jsx:91-111 | a hearing is sent exactly when title, date and location are filled and the request has a case, with an empty next date sent as null |
| CaseDetails.AddHearing | frontend/src/pages/CaseDetailsPage.jsx:91-123 | missing fields, then a missing case, keep the dialog with their alert; a successful call closes it and clears the form |
| CaseDetails.UpdateToSend | frontend/src/pages/CaseDetailsPage.jsx:125-142 | an update is sent exactly when title and description are filled and the request has a case |
| CaseDetails.AddUpdate | frontend/src/pages/CaseDetailsPage.jsx:125-155 | missing fields, then a missing case, keep the dialog with their alert; a successful call closes it and clears the form |
| MessageBox.ChooseFile | frontend/src/components/common/messaging/MessageBox.jsx:46-56 | a file over 10 MB is refused with an alert and the earlier choice kept; any other file is chosen |
| MessageBox.ChooseFileKeepsInvariant | frontend/src/components/common/messaging/MessageBox.jsx:46-56 | the composer never holds a file over the limit |
| MessageBox.Compose | frontend/src/components/common/messaging/MessageBox.jsx:65-78 | nothing is sent for blank text without a file; otherwise the trimmed text, or the file-attached note, with the file |
| MessageBox.ComposedMessageWellFormed | frontend/src/components/common/messaging/MessageBox.jsx:65-78 | a sent message is never empty, never starts or ends with white space, and goes multipart exactly when a file within the limit is attached |
| MessageBox.AfterSend | frontend/src/components/common/messaging/MessageBox.jsx:80-93 | success clears the composer; failure keeps it and alerts |
| MessageBox.LastSegment | frontend/src/components/common/messaging/MessageBox.jsx:95-98 | the file name is the longest slash-free suffix of the URL |
| MessageBox.FileNameOfPath | frontend/src/components/common/messaging/MessageBox.jsx:95-98 | a name appended to a directory path is read back unchanged |
| MessageBox.FileName | frontend/src/components/common/messaging/MessageBox.jsx:95-98 | a missing or empty URL has the empty name; otherwise the last path segment |
| MessageBox.AttachmentLink | frontend/src/components/common/messaging/MessageBox.jsx:159 | an absolute URL is opened as it is; a path is opened on the server's origin |
| MessageBox.AttachmentLinkIdempotent | frontend/src/components/common/messaging/MessageBox.jsx:159 | building the link from a link gives the same link |
| MessageBox.IsOwn | frontend/src/components/common/messaging/MessageBox.jsx:128 | a message is drawn as the viewer's own when its sender is the signed-in user |
| MessageBox.OwnForSenderOnly | frontend/src/components/common/messaging/MessageBox.jsx:128 | before the user is known nothing is drawn as own; a message is own for its sender and for nobody else |

## Left out

- Networking, timers, polling, browser rendering, `alert`, `console` output and the three-second alert timeouts are not modelled; server replies and call outcomes are parameters.
- Concurrency: two requests never interleave in the model. Each endpoint is one atomic step, and an exception leaves what was already saved (autocommit), which is why some 500 replies come with a changed store.
- The order of rows the database returns without an `ORDER BY` is unspecified; the model keeps table order there. Ties under an ordering are left in any order.
- SQL `LIKE` wildcards in search terms, and Unicode case folding: case is ignored for ASCII letters only. The set of Unicode decimal digits is that of Unicode 15.0; other versions of the standard add runs.
- Password strength (`validate_password`) is a boolean parameter; email format checks, username character rules and field length limits are left out.
- Phone number, biography, date of birth, experience years and consultation fee are checked where the serializer checks them but are not stored in the model's records.
- Image decoding and file storage: a picture or attachment is a name, a type and a size.
- Pagination, the plain retrieve, update and delete routes of the view sets, and the Django admin registrations.
- Anonymous callers: every authenticated endpoint's 401 for a missing or invalid token is the framework's and is not modelled on the server side.
- Ids in URL paths are numbers in the model. The router's default lookup lets any text without a slash or dot through: `reject` with such an id makes the ORM lookup raise an uncaught `ValueError`, a 500 (backend/users/views.py:199-203); `verify` hands it to raw SQL, whose outcome depends on the database (backend/users/views.py:167-187); the case-request actions look it up through `get_object`, which answers 404. Ids in query strings and request bodies are modelled with `IdParam`.
- Ordering by `article_number` in the knowledge base compares code points; the database compares by its collation, which can order letters and digits differently.
- The wording of the framework's 404 and 400 bodies depends on its version; the model uses fixed texts.
- The `core/` application, the data-loading command, the home, navigation, article detail, messages and administrator pages, and the knowledge base's category endpoints are outside the modelled core.

## Findings

| source | as written | input that shows it | evidently intended | confidence | as-written member | corrected member |
|---|---|---|---|---|---|---|
| frontend/src/contexts/AuthContext.js:48 | the login call goes through the shared client, whose 401 handler takes any 401 for an expired session | a fresh browser with no tokens and a wrong password: the server answers 401 "No active account found with the given credentials", the client reports "No refresh token", clears storage and reloads the login page | wrong credentials are reported with the server's reason and nothing else changes | not executed | AuthContext.LoginAsWrittenCounterexample | AuthContext.LoginReportsCredentialRejection |
| backend/cases/views.py:319-323 | a non-lawyer creating a hearing raises Python's `PermissionError`, which the framework does not translate, so the reply is a 500 | a citizen posting a valid hearing for one of their own cases | a 403 with the refusal text | not executed | CaseRecords.HearingRefusalDiffers | CaseRecords.CreateHearing |
| backend/cases/views.py:342-346 | the same `PermissionError` for a non-lawyer adding a case update | a citizen posting a valid update for one of their own cases | a 403 with the refusal text | not executed | CaseRecords.UpdateRefusalDiffers | CaseRecords.CreateUpdate |

=== FILE: admin_views.dfy ===
/** The administrator dashboard: the platform-wide counts, the lawyers
    awaiting verification, and the most recent requests and cases. Every
    endpoint refuses callers who are not administrators; anonymous callers
    never reach them, the authentication requirement turning them away
    first. */
module AdminViews {
  import opened Domain
  import Seqs
  import Sorting
  import CaseViews
  import CaseRecords
  import LawyerViews
  import MessagingViews

  const AdminOnlyText := "Admin access required"

  datatype DashboardStats = DashboardStats(
    totalUsers: nat, totalCitizens: nat,
    totalLawyers: nat, verifiedLawyers: nat, pendingVerification: nat,
    totalCaseRequests: nat, pendingRequests: nat, acceptedRequests: nat,
    inProgressCases: nat, completedCases: nat, rejectedRequests: nat,
    totalCases: nat, activeCases: nat,
    totalHearings: nat, upcomingHearings: nat, totalCaseUpdates: nat,
    totalMessages: nat, unreadMessages: nat)

  /** `list`: each figure is a count over one table. Lawyers split into
      verified and pending, requests into their five statuses, and the
      upcoming hearings (dated `now` or later), active cases and unread
      messages are parts of their tables. */
  function Dashboard(st: Store, a: Actor, now: int): (r: Reply<DashboardStats>)
    ensures r.Forbidden? <==> a.userType != Admin
    ensures r.Forbidden? ==> r.error == AdminOnlyText
    ensures !r.Forbidden? ==> r.Ok?
    ensures r.Ok? ==> var d := r.value;
      && d.totalUsers == |st.users| && d.totalLawyers == |st.lawyers| && d.totalCaseRequests == |st.requests|
      && d.totalCases == |st.cases| && d.totalHearings == |st.hearings| && d.totalMessages == |st.messages|
      && d.totalCaseUpdates == |st.updates|
      && d.totalCitizens == Seqs.Count(st.users, (u: User) => u.userType == Citizen)
      && d.verifiedLawyers == Seqs.Count(st.lawyers, (l: LawyerProfile) => l.isVerified)
      && d.pendingVerification == Seqs.Count(st.lawyers, (l: LawyerProfile) => !l.isVerified)
      && d.pendingRequests == Seqs.Count(st.requests, (q: CaseRequest) => q.status == Pending)
      && d.acceptedRequests == Seqs.Count(st.requests, (q: CaseRequest) => q.status == Accepted)
      && d.inProgressCases == Seqs.Count(st.requests, (q: CaseRequest) => q.status == InProgress)
      && d.completedCases == Seqs.Count(st.requests, (q: CaseRequest) => q.status == Completed)
      && d.rejectedRequests == Seqs.Count(st.requests, (q: CaseRequest) => q.status == Rejected)
      && d.activeCases == Seqs.Count(st.cases, (c: Case) => c.status == Active)
      && d.upcomingHearings == Seqs.Count(st.hearings, (h: Hearing) => h.hearingDate >= now)
      && d.unreadMessages == Seqs.Count(st.messages, (m: Message) => !m.isRead)
    ensures r.Ok? ==> var d := r.value;
      && d.totalCitizens <= d.totalUsers
      && d.verifiedLawyers + d.pendingVerification == d.totalLawyers
      && d.pendingRequests + d.acceptedRequests + d.inProgressCases + d.completedCases + d.rejectedRequests == d.totalCaseRequests
      && d.activeCases <= d.totalCases
      && d.upcomingHearings <= d.totalHearings
      && d.unreadMessages <= d.totalMessages
  {
    if a.userType != Admin then Forbidden(AdminOnlyText)
    else
      var rs := st.requests;
      Seqs.CountComplement(st.lawyers, (l: LawyerProfile) => l.isVerified, (l: LawyerProfile) => !l.isVerified);
      CaseViews.StatusCountsPartition(rs);
      Ok(DashboardStats(
        |st.users|, Seqs.Count(st.users, (u: User) => u.userType == Citizen),
        |st.lawyers|, Seqs.Count(st.lawyers, (l: LawyerProfile) => l.isVerified),
        Seqs.Count(st.lawyers, (l: LawyerProfile) => !l.isVerified),
        |rs|, CaseViews.CountStatus(rs, Pending), CaseViews.CountStatus(rs, Accepted),
        CaseViews.CountStatus(rs, InProgress), CaseViews.CountStatus(rs, Completed), CaseViews.CountStatus(rs, Rejected),
        |st.cases|, Seqs.Count(st.cases, (c: Case) => c.status == Active),
        |st.hearings|, Seqs.Count(st.hearings, (h: Hearing) => h.hearingDate >= now), |st.updates|,
        |st.messages|, Seqs.Count(st.messages, (m: Message) => !m.isRead)))
  }

  /** The dashboard agrees with the lists an administrator can open: the
      verified figure is the length of the public directory, each request
      figure counts the administrator's request list by status, the active
      figure counts the case list, and the unread figure counts the message
      list. */
  lemma DashboardMatchesLists(st: Store, a: Actor, now: int)
    requires a.userType == Admin
    ensures var d := Dashboard(st, a, now).value;
      && d.verifiedLawyers == |LawyerViews.List(st, "", Missing).value|
      && d.pendingRequests == Seqs.Count(CaseViews.VisibleRequests(st, a), (q: CaseRequest) => q.status == Pending)
      && d.acceptedRequests == Seqs.Count(CaseViews.VisibleRequests(st, a), (q: CaseRequest) => q.status == Accepted)
      && d.inProgressCases == Seqs.Count(CaseViews.VisibleRequests(st, a), (q: CaseRequest) => q.status == InProgress)
      && d.completedCases == Seqs.Count(CaseViews.VisibleRequests(st, a), (q: CaseRequest) => q.status == Completed)
      && d.rejectedRequests == Seqs.Count(CaseViews.VisibleRequests(st, a), (q: CaseRequest) => q.status == Rejected)
      && d.activeCases == Seqs.Count(CaseRecords.VisibleCases(st, a), (c: Case) => c.status == Active)
      && d.unreadMessages == Seqs.Count(MessagingViews.VisibleMessages(st, a), (m: Message) => !m.isRead)
  {
    Seqs.FilterCongruent(st.lawyers, (l: LawyerProfile) => LawyerViews.Listed(st, l, "", Missing), (l: LawyerProfile) => l.isVerified);
    AdminSeesAllRequests(st, a, Pending);
    AdminSeesAllRequests(st, a, Accepted);
    AdminSeesAllRequests(st, a, InProgress);
    AdminSeesAllRequests(st, a, Completed);
    AdminSeesAllRequests(st, a, Rejected);
    AdminSeesAllCases(st, a);
    AdminSeesAllMessages(st, a);
  }

  /** An administrator's case list holds every case, so its active count is
      the table's. */
  lemma AdminSeesAllCases(st: Store, a: Actor)
    requires a.userType == Admin
    ensures Seqs.Count(CaseRecords.VisibleCases(st, a), (c: Case) => c.status == Active)
      == Seqs.Count(st.cases, (c: Case) => c.status == Active)
  {
    var cs := Seqs.Filter(st.cases, (c: Case) => CaseRecords.CanSeeCase(a, c));
    Seqs.FilterAll(st.cases, (c: Case) => CaseRecords.CanSeeCase(a, c));
    Seqs.CountPermutation(CaseRecords.VisibleCases(st, a), cs, (c: Case) => c.status == Active);
  }

  /** An administrator's message list holds every message, so its unread
      count is the table's. */
  lemma AdminSeesAllMessages(st: Store, a: Actor)
    requires a.userType == Admin
    ensures Seqs.Count(MessagingViews.VisibleMessages(st, a), (m: Message) => !m.isRead)
      == Seqs.Count(st.messages, (m: Message) => !m.isRead)
  {
    Seqs.FilterAll(st.messages, (m: Message) => MessagingViews.CanSeeMessage(st, a, m));
    MessagingViews.VisibleCount(st, a, (m: Message) => !m.isRead);
  }

  /** An administrator's request list holds every request, so any count over
      it is the count over the table. */
  lemma AdminSeesAllRequests(st: Store, a: Actor, s: RequestStatus)
    requires a.userType == Admin
    ensures Seqs.Count(CaseViews.VisibleRequests(st, a), (q: CaseRequest) => q.status == s)
      == Seqs.Count(st.requests, (q: CaseRequest) => q.status == s)
  {
    Seqs.FilterAll(st.requests, (x: CaseRequest) => CaseViews.CanSee(a, x));
    Seqs.CountPermutation(CaseViews.VisibleRequests(st, a), CaseViews.Mine(st, a), (q: CaseRequest) => q.status == s);
  }

  /** `pending_lawyers`: exactly the unverified profiles, in table order. */
  function PendingLawyers(st: Store, a: Actor): (r: Reply<seq<LawyerProfile>>)
    ensures r.Forbidden? <==> a.userType != Admin
    ensures r.Forbidden? ==> r.error == AdminOnlyText
    ensures !r.Forbidden? ==> r.Ok?
    ensures r.Ok? ==> forall l :: l in r.value <==> l in st.lawyers && !l.isVerified
    ensures r.Ok? ==> Seqs.IsSubsequence(r.value, st.lawyers)
  {
    if a.userType != Admin then Forbidden(AdminOnlyText)
    else Ok(Seqs.Filter(st.lawyers, (l: LawyerProfile) => !l.isVerified))
  }

  /** The dashboard's pending count is the length of the pending list. */
  lemma PendingCountMatchesList(st: Store, a: Actor, now: int)
    requires a.userType == Admin
    ensures Dashboard(st, a, now).value.pendingVerification == |PendingLawyers(st, a).value|
  {
  }

  /** One row of `recent_activity`: names are first and last name joined by
      a space, as the query's `||` concatenation builds them. */
  datatype RecentRequest = RecentRequest(id: nat, title: string, citizen: string, lawyer: string, status: RequestStatus, date: int)
  datatype RecentCase = RecentCase(id: nat, caseNumber: string, title: string, citizen: string, lawyer: string, status: CaseStatus, date: int)
  datatype Activity = Activity(recentRequests: seq<RecentRequest>, recentCases: seq<RecentCase>)

  function Name(u: User): string {
    u.firstName + " " + u.lastName
  }

  /** The inner joins from a citizen profile id to its user's name. */
  function CitizenName(st: Store, profileId: nat): Option<string> {
    match FindCitizen(st.citizens, profileId)
    case None => None
    case Some(p) => (match FindUser(st.users, p.userId) case None => None case Some(u) => Some(Name(u)))
  }

  function LawyerName(st: Store, profileId: nat): Option<string> {
    match FindLawyer(st.lawyers, profileId)
    case None => None
    case Some(p) => (match FindUser(st.users, p.userId) case None => None case Some(u) => Some(Name(u)))
  }

  /** A request's row, when both joins find their users. */
  function RequestRow(st: Store, q: CaseRequest): Option<RecentRequest> {
    var c := CitizenName(st, q.requester);
    var l := LawyerName(st, q.lawyer);
    if c.Some? && l.Some? then Some(RecentRequest(q.id, q.caseTitle, c.value, l.value, q.status, q.requestDate)) else None
  }

  function CaseRow(st: Store, k: Case): Option<RecentCase> {
    var c := CitizenName(st, k.citizen);
    var l := LawyerName(st, k.lawyer);
    if c.Some? && l.Some? then Some(RecentCase(k.id, k.caseNumber, k.title, c.value, l.value, k.status, k.filingDate)) else None
  }

  function RequestRows(st: Store, qs: seq<CaseRequest>): (r: seq<RecentRequest>)
    ensures forall x :: x in r <==> exists q :: q in qs && RequestRow(st, q) == Some(x)
  {
    if |qs| == 0 then []
    else
      var rest := RequestRows(st, qs[1..]);
      assert forall q :: q in qs <==> q == qs[0] || q in qs[1..];
      match RequestRow(st, qs[0])
      case Some(x) => [x] + rest
      case None => rest
  }

  function CaseRows(st: Store, ks: seq<Case>): (r: seq<RecentCase>)
    ensures forall x :: x in r <==> exists k :: k in ks && CaseRow(st, k) == Some(x)
  {
    if |ks| == 0 then []
    else
      var rest := CaseRows(st, ks[1..]);
      assert forall k :: k in ks <==> k == ks[0] || k in ks[1..];
      match CaseRow(st, ks[0])
      case Some(x) => [x] + rest
      case None => rest
  }

  /** One row per request whose joins succeed: none is repeated or dropped. */
  lemma {:induction false} RequestRowsCount(st: Store, qs: seq<CaseRequest>)
    ensures |RequestRows(st, qs)| == Seqs.Count(qs, (q: CaseRequest) => RequestRow(st, q).Some?)
  {
    if |qs| > 0 {
      RequestRowsCount(st, qs[1..]);
    }
  }

  /** One row per case whose joins succeed. */
  lemma {:induction false} CaseRowsCount(st: Store, ks: seq<Case>)
    ensures |CaseRows(st, ks)| == Seqs.Count(ks, (k: Case) => CaseRow(st, k).Some?)
  {
    if |ks| > 0 {
      CaseRowsCount(st, ks[1..]);
    }
  }

  /** `ORDER BY date DESC`. */
  function NewestFirst<T(!new)>(date: T -> int): (le: (T, T) -> bool)
    ensures Sorting.Total(le) && Sorting.Transitive(le)
  {
    (a: T, b: T) => date(a) >= date(b)
  }

  /** `ORDER BY date DESC LIMIT 10`: ten rows, or all of them when there
      are fewer, newest first, and every row left out is no newer than any
      row kept. */
  function Latest<T(!new, ==)>(rows: seq<T>, date: T -> int): (r: seq<T>)
    ensures |r| == if |rows| < 10 then |rows| else 10
    ensures |rows| <= 10 ==> forall x :: x in rows ==> x in r
    ensures Sorting.Sorted(r, NewestFirst(date))
    ensures forall x :: x in r ==> x in rows
    ensures multiset(r) <= multiset(rows)
    ensures forall x :: x in rows ==> x in r || forall i :: 0 <= i < |r| ==> date(x) <= date(r[i])
  {
    var le := NewestFirst(date);
    var s := Sorting.Sort(rows, le);
    var r := Seqs.Take(s, 10);
    assert forall x :: x in s <==> x in rows by {
      forall x ensures x in s <==> x in rows { Sorting.SortSameElements(rows, le, x); }
    }
    assert Sorting.Sorted(r, le) by {
      forall i | 0 < i < |r| ensures le(r[i - 1], r[i]) { assert r[i - 1] == s[i - 1] && r[i] == s[i]; }
    }
    assert forall x :: x in rows ==> x in r || forall i :: 0 <= i < |r| ==> date(x) <= date(r[i]) by {
      forall x | x in rows && x !in r ensures forall i :: 0 <= i < |r| ==> date(x) <= date(r[i]) {
        var k :| 0 <= k < |s| && s[k] == x;
        assert k >= |r|;
        forall i | 0 <= i < |r| ensures date(x) <= date(r[i]) {
          Sorting.SortedPairwise(s, le, i, k);
        }
      }
    }
    r
  }

  /** `recent_activity`: the ten latest requests by request date and the ten
      latest cases by filing date, each joined with both parties' names. */
  function RecentActivity(st: Store, a: Actor): (r: Reply<Activity>)
    ensures r.Forbidden? <==> a.userType != Admin
    ensures r.Forbidden? ==> r.error == AdminOnlyText
    ensures !r.Forbidden? ==> r.Ok?
    ensures r.Ok? ==>
      var n := |RequestRows(st, st.requests)|;
      |r.value.recentRequests| == if n < 10 then n else 10
    ensures r.Ok? ==>
      var n := |CaseRows(st, st.cases)|;
      |r.value.recentCases| == if n < 10 then n else 10
    ensures r.Ok? ==> forall i :: 0 < i < |r.value.recentRequests| ==> r.value.recentRequests[i - 1].date >= r.value.recentRequests[i].date
    ensures r.Ok? ==> forall i :: 0 < i < |r.value.recentCases| ==> r.value.recentCases[i - 1].date >= r.value.recentCases[i].date
    ensures r.Ok? ==> forall x :: x in r.value.recentRequests ==> exists q :: q in st.requests && RequestRow(st, q) == Some(x)
    ensures r.Ok? ==> forall x :: x in r.value.recentCases ==> exists k :: k in st.cases && CaseRow(st, k) == Some(x)
    ensures r.Ok? ==> multiset(r.value.recentRequests) <= multiset(RequestRows(st, st.requests))
    ensures r.Ok? ==> multiset(r.value.recentCases) <= multiset(CaseRows(st, st.cases))
  {
    if a.userType != Admin then Forbidden(AdminOnlyText)
    else
      var rq := Latest(RequestRows(st, st.requests), (x: RecentRequest) => x.date);
      var rc := Latest(CaseRows(st, st.cases), (x: RecentCase) => x.date);
      Ok(Activity(rq, rc))
  }

  /** Every joined request is listed when there are at most ten of them; a
      request left out is no newer than any listed one. */
  lemma RecentRequestsAreLatest(st: Store, a: Actor, q: CaseRequest)
    requires a.userType == Admin
    requires q in st.requests && RequestRow(st, q).Some?
    ensures var rs := RecentActivity(st, a).value.recentRequests;
      |RequestRows(st, st.requests)| <= 10 ==> RequestRow(st, q).value in rs
    ensures var rs := RecentActivity(st, a).value.recentRequests;
      RequestRow(st, q).value in rs || forall i :: 0 <= i < |rs| ==> q.requestDate <= rs[i].date
  {
  }

  /** The same for cases, by filing date. */
  lemma RecentCasesAreLatest(st: Store, a: Actor, k: Case)
    requires a.userType == Admin
    requires k in st.cases && CaseRow(st, k).Some?
    ensures var cs := RecentActivity(st, a).value.recentCases;
      |CaseRows(st, st.cases)| <= 10 ==> CaseRow(st, k).value in cs
    ensures var cs := RecentActivity(st, a).value.recentCases;
      CaseRow(st, k).value in cs || forall i :: 0 <= i < |cs| ==> k.filingDate <= cs[i].date
  {
  }
}

=== FILE: auth_context.dfy ===
/** The authentication context of the client: the start-up identity probe
    (`checkAuth`), `login`, `register`, `logout`, and the role flags derived
    from the current user. Every server call goes through the session layer's
    interceptors (`Session.Call`). */
module AuthContext {
  import opened Domain
  import opened Session
  import Text

  /** The profile part of the identity record: lawyers carry `is_verified`. */
  datatype Profile = Profile(isVerified: Option<bool>)

  /** The identity record returned by `/auth/me/`. */
  datatype UserInfo = UserInfo(id: nat, userType: UserType, profile: Option<Profile>)

  /** The context's state: browser storage, the current user, the loading
      flag, and the location the browser was sent to, if any. */
  datatype AuthState = AuthState(storage: Storage, user: Option<UserInfo>, loading: bool, location: Option<string>)

  /** The state at start-up: no user yet, still loading. */
  function Initial(storage: Storage): AuthState {
    AuthState(storage, None, true, None)
  }

  const MePath := "/auth/me/"
  const LoginPath := "/auth/login/"

  /** The identity request with the token attached explicitly. */
  function MeRequest(token: string): Request {
    Request(MePath, map[AuthHeader := Bearer(token)], false)
  }

  function LoginRequest(): Request {
    Request(LoginPath, map[], false)
  }

  /** The browser location after a call that may have forced a navigation. */
  function After(location: Option<string>, redirect: Option<string>): Option<string> {
    if redirect.Some? then redirect else location
  }

  /** `checkAuth`. */
  function CheckAuth(s: AuthState, me: Request -> HttpReply<UserInfo>, refresher: string -> RefreshReply): (r: AuthState)
    ensures !r.loading
    ensures !Truthy(s.storage.access) ==> r == s.(loading := false)
    ensures Truthy(s.storage.access) ==>
      var c := Call(s.storage, MeRequest(s.storage.access.value), me, refresher);
      (c.outcome.Fulfilled? ==> r.user == Some(c.outcome.data) && r.storage == c.storage)
      && (c.outcome.Failed? ==> r.user.None? && r.storage == Cleared)
  {
    if Truthy(s.storage.access) then
      var c := Call(s.storage, MeRequest(s.storage.access.value), me, refresher);
      match c.outcome
      case Fulfilled(_, u) => AuthState(c.storage, Some(u), false, After(s.location, c.redirect))
      case Failed(_) => AuthState(Cleared, None, false, After(s.location, c.redirect))
    else s.(loading := false)
  }

  /** The identity probe sends the stored access token, and an expired one is
      refreshed once through the interceptor before the probe gives up. */
  lemma CheckAuthSendsStoredToken(s: AuthState, me: Request -> HttpReply<UserInfo>, refresher: string -> RefreshReply)
    requires Truthy(s.storage.access)
    ensures var c := Call(s.storage, MeRequest(s.storage.access.value), me, refresher);
      c.sent[0].url == MePath && c.sent[0].headers[AuthHeader] == Bearer(s.storage.access.value)
      && |c.refreshes| <= 1
  {
  }

  datatype LoginResult = LoginResult(success: bool, warning: Option<string>, error: Option<string>)

  const MissingUserWarning := "Login successful but could not load user details. Please refresh."
  const InvalidTokenResponse := "Invalid token response"

  /** The message of an axios error. */
  function AxiosMessage<D>(reply: HttpReply<D>): string {
    match reply
    case Response(status, _) => "Request failed with status code " + Text.NatToDec(status)
    case NetworkFailure => "Network Error"
  }

  /** `data.detail` of an error response, when there is one. */
  function Detail(reply: HttpReply<Json>): Option<string> {
    if reply.Response? && "detail" in reply.data then Some(reply.data["detail"]) else None
  }

  /** `error.response?.data?.detail || error.message || 'Login failed'`. */
  function LoginErrorText(detail: Option<string>, message: string): (t: string)
    ensures Truthy(detail) ==> t == detail.value
    ensures !Truthy(detail) && message != "" ==> t == message
    ensures !Truthy(detail) && message == "" ==> t == "Login failed"
  {
    if Truthy(detail) then detail.value else if message != "" then message else "Login failed"
  }

  /** The text `login` reports for a rejected login call. */
  function LoginFailureText(f: Failure<Json>): string {
    match f
    case HttpError(reply) => LoginErrorText(Detail(reply), AxiosMessage(reply))
    case NoRefreshToken => LoginErrorText(None, "No refresh token")
    case RefreshFailed(e) => LoginErrorText(Detail(e), AxiosMessage(e))
  }

  /** Field `k` of a JSON object. */
  function Field(data: Json, k: string): Option<string> {
    if k in data then Some(data[k]) else None
  }

  /** `login`, with the login call's refresh exemptions as a parameter. */
  function LoginWith(
    s: AuthState, exempt: set<string>,
    loginServer: Request -> HttpReply<Json>, me: Request -> HttpReply<UserInfo>,
    refresher: string -> RefreshReply): (AuthState, LoginResult)
  {
    var post := Intercepted(s.storage, LoginRequest(), loginServer, refresher, exempt);
    var s1 := s.(storage := post.storage, location := After(s.location, post.redirect));
    match post.outcome
    case Failed(f) => (s1, LoginResult(false, None, Some(LoginFailureText(f))))
    case Fulfilled(_, data) =>
      var access := Field(data, "access");
      var refresh := Field(data, "refresh");
      if !Truthy(access) || !Truthy(refresh) then
        (s1, LoginResult(false, None, Some(InvalidTokenResponse)))
      else
        var c := Call(Storage(access, refresh), MeRequest(access.value), me, refresher);
        var s2 := s1.(storage := c.storage, location := After(s1.location, c.redirect));
        match c.outcome
        case Fulfilled(_, u) => (s2.(user := Some(u)), LoginResult(true, None, None))
        case Failed(_) => (s2, LoginResult(true, Some(MissingUserWarning), None))
  }

  /** `login` as the source wires it: the login call goes through the same
      interceptor as every other call, so a 401 for wrong credentials is
      taken for an expired session. */
  function LoginAsWritten(
    s: AuthState, loginServer: Request -> HttpReply<Json>, me: Request -> HttpReply<UserInfo>,
    refresher: string -> RefreshReply): (r: (AuthState, LoginResult))
    ensures r.1.success ==> r.1.error.None?
    ensures !r.1.success ==> r.1.error.Some? && r.1.warning.None? && r.0.user == s.user
  {
    LoginWith(s, {}, loginServer, me, refresher)
  }

  /** `login` with the login call exempt from the refresh path, so that a
      credential rejection reaches the login form as the server described it. */
  function Login(
    s: AuthState, loginServer: Request -> HttpReply<Json>, me: Request -> HttpReply<UserInfo>,
    refresher: string -> RefreshReply): (r: (AuthState, LoginResult))
    ensures r.1.success ==> r.1.error.None?
    ensures !r.1.success ==> r.1.error.Some? && r.1.warning.None? && r.0.user == s.user
  {
    LoginWith(s, {LoginPath}, loginServer, me, refresher)
  }

  /** Unless the login endpoint answers 401, the exemption changes nothing:
      the program's login and the corrected one agree, so what is proved of
      `Login` for such replies holds of the program. */
  lemma LoginAsWrittenAgrees(
    s: AuthState, loginServer: Request -> HttpReply<Json>, me: Request -> HttpReply<UserInfo>,
    refresher: string -> RefreshReply)
    requires var reply := loginServer(AttachToken(s.storage, LoginRequest()));
      !(reply.Response? && reply.status == 401)
    ensures LoginAsWritten(s, loginServer, me, refresher) == Login(s, loginServer, me, refresher)
  {
    assert Intercepted(s.storage, LoginRequest(), loginServer, refresher, {})
      == Intercepted(s.storage, LoginRequest(), loginServer, refresher, {LoginPath});
  }

  /** A token response without both tokens fails and stores nothing. */
  lemma LoginNeedsBothTokens(
    s: AuthState, loginServer: Request -> HttpReply<Json>, me: Request -> HttpReply<UserInfo>,
    refresher: string -> RefreshReply)
    requires var reply := loginServer(AttachToken(s.storage, LoginRequest()));
      reply.Response? && IsSuccess(reply.status)
      && (!Truthy(Field(reply.data, "access")) || !Truthy(Field(reply.data, "refresh")))
    ensures var (s', r) := Login(s, loginServer, me, refresher);
      !r.success && r.error == Some(InvalidTokenResponse) && s'.storage == s.storage && s'.user == s.user
  {
  }

  /** Issued tokens are stored before the identity fetch, and the fetch sends
      the new access token. A failed fetch still counts as a successful login,
      with a warning; unless the fetch itself was refused with a 401, both
      tokens stay stored. */
  lemma {:induction false} LoginStoresTokensFirst(
    s: AuthState, loginServer: Request -> HttpReply<Json>, me: Request -> HttpReply<UserInfo>,
    refresher: string -> RefreshReply)
    requires var reply := loginServer(AttachToken(s.storage, LoginRequest()));
      reply.Response? && IsSuccess(reply.status)
      && Truthy(Field(reply.data, "access")) && Truthy(Field(reply.data, "refresh"))
    ensures var data := loginServer(AttachToken(s.storage, LoginRequest())).data;
      var tokens := Storage(Some(data["access"]), Some(data["refresh"]));
      var c := Call(tokens, MeRequest(data["access"]), me, refresher);
      var (s', r) := Login(s, loginServer, me, refresher);
      && r.success && s'.storage == c.storage
      && c.sent[0].headers[AuthHeader] == Bearer(data["access"])
      && (c.outcome.Fulfilled? ==> s'.user == Some(c.outcome.data) && r.warning.None?)
      && (c.outcome.Failed? ==> r.warning == Some(MissingUserWarning) && s'.user == s.user)
      && (!(me(c.sent[0]).Response? && me(c.sent[0]).status == 401) ==> c.storage == tokens)
  {
    var out := AttachToken(s.storage, LoginRequest());
    var reply := loginServer(out);
    var post := Intercepted(s.storage, LoginRequest(), loginServer, refresher, {LoginPath});
    assert post == CallResult(s.storage, Fulfilled(reply.status, reply.data), [out], [], None);
    var data := reply.data;
    var tokens := Storage(Some(data["access"]), Some(data["refresh"]));
    var c := Call(tokens, MeRequest(data["access"]), me, refresher);
    assert AttachToken(tokens, MeRequest(data["access"])) == MeRequest(data["access"]);
    assert Field(data, "access") == Some(data["access"]) && Field(data, "refresh") == Some(data["refresh"]);
    if !(me(c.sent[0]).Response? && me(c.sent[0]).status == 401) {
      var first := me(MeRequest(data["access"]));
      if !(first.Response? && IsSuccess(first.status)) {
        OtherErrorsPropagate(tokens, MeRequest(data["access"]), me, refresher);
      }
    }
  }

  /** The corrected flow: wrong credentials (a 401 from the login endpoint)
      are reported with the server's `detail`, and neither storage nor the
      location changes. */
  lemma LoginReportsCredentialRejection(
    s: AuthState, loginServer: Request -> HttpReply<Json>, me: Request -> HttpReply<UserInfo>,
    refresher: string -> RefreshReply)
    requires var reply := loginServer(AttachToken(s.storage, LoginRequest()));
      reply.Response? && reply.status == 401 && Truthy(Field(reply.data, "detail"))
    ensures var (s', r) := Login(s, loginServer, me, refresher);
      var reply := loginServer(AttachToken(s.storage, LoginRequest()));
      !r.success && r.error == Some(reply.data["detail"])
      && s'.storage == s.storage && s'.location == s.location
  {
  }

  /** As written, the same credential rejection with no refresh token stored
      is reported as "No refresh token", clears storage and sends the browser
      to the login page (reloading it), so the server's reason never shows. */
  lemma {:induction false} LoginAsWrittenHidesCredentialRejection(
    s: AuthState, loginServer: Request -> HttpReply<Json>, me: Request -> HttpReply<UserInfo>,
    refresher: string -> RefreshReply)
    requires !Truthy(s.storage.refresh)
    requires var reply := loginServer(AttachToken(s.storage, LoginRequest()));
      reply.Response? && reply.status == 401 && Truthy(Field(reply.data, "detail"))
    ensures var (s', r) := LoginAsWritten(s, loginServer, me, refresher);
      var reply := loginServer(AttachToken(s.storage, LoginRequest()));
      !r.success && r.error == Some("No refresh token")
      && (reply.data["detail"] != "No refresh token" ==> r.error != Some(reply.data["detail"]))
    ensures LoginAsWritten(s, loginServer, me, refresher).0.location == Some(LoginPage)
    ensures LoginAsWritten(s, loginServer, me, refresher).0.storage == Cleared
  {
    NoRefreshTokenLogsOut(s.storage, LoginRequest(), loginServer, refresher);
  }

  /** A concrete instance: a fresh browser, a wrong password, the server's
      standard rejection. */
  lemma LoginAsWrittenCounterexample()
    ensures var s := Initial(Storage(None, None));
      var reject := "No active account found with the given credentials";
      var loginServer := (_: Request) => Response(401, map["detail" := reject]);
      var me := (_: Request) => NetworkFailure;
      var refresher := (_: string) => Issued("unused");
      var (asWritten, r1) := LoginAsWritten(s, loginServer, me, refresher);
      var (corrected, r2) := Login(s, loginServer, me, refresher);
      r1.error == Some("No refresh token") && asWritten.location == Some(LoginPage)
      && r2.error == Some(reject) && corrected.location.None?
  {
    var s := Initial(Storage(None, None));
    var reject := "No active account found with the given credentials";
    var loginServer: Request -> HttpReply<Json> := (_: Request) => Response(401, map["detail" := reject]);
    var me: Request -> HttpReply<UserInfo> := (_: Request) => NetworkFailure;
    var refresher := (_: string) => Issued("unused");
    LoginAsWrittenHidesCredentialRejection(s, loginServer, me, refresher);
    LoginReportsCredentialRejection(s, loginServer, me, refresher);
  }

  /** The registration payload: a multipart form, or a plain JSON object. */
  datatype Payload = FormPayload(parts: seq<Part>) | JsonPayload(data: Json)

  datatype ErrorBody = ServerBody(data: Json) | ErrorText(text: string)

  datatype RegisterResult = Registered(data: Json) | RegisterFailed(error: ErrorBody)

  /** The request `register` posts: the role's endpoint, and the multipart
      content type exactly when the payload is a form. */
  function RegisterRequest(payload: Payload, userType: string): (r: Request)
    ensures r.url == RegisterEndpoint(userType) && !r.retry
    ensures "Content-Type" in r.headers <==> payload.FormPayload?
    ensures "Content-Type" in r.headers ==> r.headers["Content-Type"] == "multipart/form-data"
  {
    var headers := if payload.FormPayload? then map["Content-Type" := "multipart/form-data"] else map[];
    Request(RegisterEndpoint(userType), headers, false)
  }

  /** `error.response?.data || 'Registration failed'`. */
  function RegisterError(f: Failure<Json>): (e: ErrorBody)
    ensures (f.HttpError? && f.reply.Response?) ==> e == ServerBody(f.reply.data)
    ensures (f.RefreshFailed? && f.refreshReply.Response?) ==> e == ServerBody(f.refreshReply.data)
    ensures (f.NoRefreshToken? || (f.HttpError? && f.reply.NetworkFailure?)
             || (f.RefreshFailed? && f.refreshReply.NetworkFailure?)) ==> e == ErrorText("Registration failed")
  {
    match f
    case HttpError(Response(_, data)) => ServerBody(data)
    case RefreshFailed(Response(_, data)) => ServerBody(data)
    case _ => ErrorText("Registration failed")
  }

  /** `register`: the server's payload on success, its error body on failure. */
  function Register(
    s: AuthState, payload: Payload, userType: string,
    server: Request -> HttpReply<Json>, refresher: string -> RefreshReply): (r: (AuthState, RegisterResult))
    ensures var c := Call(s.storage, RegisterRequest(payload, userType), server, refresher);
      && (c.outcome.Fulfilled? <==> r.1.Registered?)
      && (c.outcome.Fulfilled? ==> r.1.data == c.outcome.data)
      && r.0.user == s.user && r.0.storage == c.storage
  {
    var c := Call(s.storage, RegisterRequest(payload, userType), server, refresher);
    var s1 := s.(storage := c.storage, location := After(s.location, c.redirect));
    match c.outcome
    case Fulfilled(_, data) => (s1, Registered(data))
    case Failed(f) => (s1, RegisterFailed(RegisterError(f)))
  }

  /** `logout`: both tokens and the user are gone. */
  function Logout(s: AuthState): (r: AuthState)
    ensures r.storage == Cleared && r.user.None?
    ensures r.loading == s.loading && r.location == s.location
  {
    s.(storage := Cleared, user := None)
  }

  lemma LogoutIdempotent(s: AuthState)
    ensures Logout(Logout(s)) == Logout(s)
    ensures !IsAuthenticated(Logout(s))
  {
  }

  predicate IsAuthenticated(s: AuthState) {
    s.user.Some?
  }

  predicate IsCitizen(s: AuthState) {
    s.user.Some? && s.user.value.userType == Citizen
  }

  predicate IsLawyer(s: AuthState) {
    s.user.Some? && s.user.value.userType == Lawyer
  }

  predicate IsAdmin(s: AuthState) {
    s.user.Some? && s.user.value.userType == Admin
  }

  /** Each role flag implies authentication, and at most one holds. */
  lemma RoleFlagsExclusive(s: AuthState)
    ensures IsCitizen(s) || IsLawyer(s) || IsAdmin(s) ==> IsAuthenticated(s)
    ensures !(IsCitizen(s) && IsLawyer(s)) && !(IsCitizen(s) && IsAdmin(s)) && !(IsLawyer(s) && IsAdmin(s))
    ensures IsAuthenticated(s) <==> s.user != None
  {
  }
}

=== FILE: case_details.dfy ===
/** The case details page: loading a request with its case's hearings and
    updates, marking it viewed for citizens, and the two dialogs in which the
    lawyer schedules a hearing or posts an update. */
module CaseDetails {
  import opened Domain
  import Seqs

  /** The request as the page receives it; `caseId` is the linked case,
      if any. */
  datatype DetailView = DetailView(id: nat, status: string, caseId: Option<nat>)

  datatype HearingView = HearingView(id: nat, caseId: nat, title: string)
  datatype UpdateView = UpdateView(id: nat, caseId: nat, title: string)

  datatype Alert = Alert(message: string, severity: string)

  datatype PageState = PageState(
    request: Option<DetailView>,
    hearings: seq<HearingView>,
    updates: seq<UpdateView>,
    alert: Option<Alert>,
    loading: bool)

  /** JavaScript truthiness of `case_id`: present and not 0. */
  predicate HasCase(d: DetailView) {
    d.caseId.Some? && d.caseId.value != 0
  }

  function HearingsOf(all: seq<HearingView>, caseId: nat): (r: seq<HearingView>)
    ensures forall i :: 0 <= i < |r| ==> r[i].caseId == caseId
    ensures forall i :: 0 <= i < |all| && all[i].caseId == caseId ==> all[i] in r
    ensures Seqs.IsSubsequence(r, all)
    ensures forall h :: multiset(r)[h] == if h.caseId == caseId then multiset(all)[h] else 0
  {
    var p := (h: HearingView) => h.caseId == caseId;
    Seqs.FilterMultiplicity(all, p);
    Seqs.Filter(all, p)
  }

  function UpdatesOf(all: seq<UpdateView>, caseId: nat): (r: seq<UpdateView>)
    ensures forall i :: 0 <= i < |r| ==> r[i].caseId == caseId
    ensures forall i :: 0 <= i < |all| && all[i].caseId == caseId ==> all[i] in r
    ensures Seqs.IsSubsequence(r, all)
    ensures forall u :: multiset(r)[u] == if u.caseId == caseId then multiset(all)[u] else 0
  {
    var p := (u: UpdateView) => u.caseId == caseId;
    Seqs.FilterMultiplicity(all, p);
    Seqs.Filter(all, p)
  }

  const LoadFailed := Alert("Failed to load case details", "error")

  /** The page after `fetchCaseDetails`, and whether the mark-viewed call was
      sent. Each fetch is `None` when it fails. Any failure ends the fetch
      there: what was already set stays, the alert shows, and the request is
      not marked viewed. */
  function Fetch(
    s: PageState, fetched: Option<DetailView>,
    allHearings: Option<seq<HearingView>>, allUpdates: Option<seq<UpdateView>>,
    isLawyer: bool): (r: (PageState, bool))
    ensures !r.0.loading
    ensures fetched.None? ==> r.0 == s.(loading := false, alert := Some(LoadFailed)) && !r.1
    ensures fetched.Some? ==> r.0.request == fetched
    ensures var complete := fetched.Some? && (!HasCase(fetched.value) || (allHearings.Some? && allUpdates.Some?));
      && (r.1 <==> complete && !isLawyer)
      && (!complete ==> r.0.alert == Some(LoadFailed))
      && (complete ==> r.0.alert == s.alert)
    ensures fetched.Some? && HasCase(fetched.value) && allHearings.Some? ==>
      r.0.hearings == HearingsOf(allHearings.value, fetched.value.caseId.value)
    ensures fetched.Some? && HasCase(fetched.value) && allHearings.Some? && allUpdates.Some? ==>
      r.0.updates == UpdatesOf(allUpdates.value, fetched.value.caseId.value)
    ensures fetched.Some? && !HasCase(fetched.value) ==> r.0.hearings == s.hearings && r.0.updates == s.updates
  {
    match fetched
    case None => (s.(loading := false, alert := Some(LoadFailed)), false)
    case Some(d) =>
      var s1 := s.(request := fetched);
      if HasCase(d) then
        match allHearings
        case None => (s1.(loading := false, alert := Some(LoadFailed)), false)
        case Some(hs) =>
          var s2 := s1.(hearings := HearingsOf(hs, d.caseId.value));
          match allUpdates
          case None => (s2.(loading := false, alert := Some(LoadFailed)), false)
          case Some(us) => (s2.(updates := UpdatesOf(us, d.caseId.value), loading := false), !isLawyer)
      else (s1.(loading := false), !isLawyer)
  }

  /** A citizen who opens the page of a request without a case always marks
      it viewed; a lawyer never does. */
  lemma MarkViewedOnlyForCitizens(s: PageState, d: DetailView, hs: Option<seq<HearingView>>, us: Option<seq<UpdateView>>)
    ensures !Fetch(s, Some(d), hs, us, true).1
    ensures !HasCase(d) ==> Fetch(s, Some(d), hs, us, false).1
  {
  }

  /** The two case-management buttons appear for a lawyer on a request in
      progress only. */
  predicate ShowsCaseActions(d: DetailView, isLawyer: bool) {
    d.status == "in_progress" && isLawyer
  }

  datatype HearingForm = HearingForm(title: string, hearingDate: string, location: string, notes: string, nextDate: string)

  const BlankHearing: HearingForm := HearingForm("", "", "", "", "")

  /** The create-hearing body; an empty next date is sent as null. */
  datatype HearingPayload = HearingPayload(caseId: nat, title: string, hearingDate: string, location: string, notes: string, nextDate: Option<string>)

  /** A dialog's state after a submit attempt. */
  datatype DialogResult<F> = DialogResult(open: bool, form: F, alert: Alert, refetch: bool)

  const MissingFields := Alert("Please fill in all required fields", "error")
  const NoCaseAlert := Alert("Case not found. Please contact support.", "error")

  /** The hearing the dialog would create, when its fields and case are in order. */
  function HearingToSend(form: HearingForm, d: DetailView): (p: Option<HearingPayload>)
    ensures p.Some? <==> form.title != "" && form.hearingDate != "" && form.location != "" && HasCase(d)
    ensures p.Some? ==> p.value == HearingPayload(d.caseId.value, form.title, form.hearingDate, form.location, form.notes,
                                                  if form.nextDate != "" then Some(form.nextDate) else None)
  {
    if form.title == "" || form.hearingDate == "" || form.location == "" || !HasCase(d) then None
    else Some(HearingPayload(d.caseId.value, form.title, form.hearingDate, form.location, form.notes,
                             if form.nextDate != "" then Some(form.nextDate) else None))
  }

  /** `handleAddHearing`: missing fields, then a missing case, stop it with
      an alert; a successful call closes and resets the dialog and reloads;
      a failed call keeps the dialog as it was. */
  function AddHearing(form: HearingForm, d: DetailView, succeeds: bool): (r: DialogResult<HearingForm>)
    ensures form.title == "" || form.hearingDate == "" || form.location == "" ==> r == DialogResult(true, form, MissingFields, false)
    ensures form.title != "" && form.hearingDate != "" && form.location != "" && !HasCase(d) ==> r == DialogResult(true, form, NoCaseAlert, false)
    ensures r.refetch <==> HearingToSend(form, d).Some? && succeeds
    ensures r.refetch ==> !r.open && r.form == BlankHearing
    ensures !r.refetch ==> r.open && r.form == form
  {
    if form.title == "" || form.hearingDate == "" || form.location == "" then DialogResult(true, form, MissingFields, false)
    else if !HasCase(d) then DialogResult(true, form, NoCaseAlert, false)
    else if succeeds then DialogResult(false, BlankHearing, Alert("Hearing scheduled successfully!", "success"), true)
    else DialogResult(true, form, Alert("Failed to schedule hearing", "error"), false)
  }

  datatype UpdateForm = UpdateForm(title: string, description: string)

  const BlankUpdate: UpdateForm := UpdateForm("", "")

  datatype UpdatePayload = UpdatePayload(caseId: nat, title: string, description: string)

  function UpdateToSend(form: UpdateForm, d: DetailView): (p: Option<UpdatePayload>)
    ensures p.Some? <==> form.title != "" && form.description != "" && HasCase(d)
    ensures p.Some? ==> p.value == UpdatePayload(d.caseId.value, form.title, form.description)
  {
    if form.title == "" || form.description == "" || !HasCase(d) then None
    else Some(UpdatePayload(d.caseId.value, form.title, form.description))
  }

  /** `handleAddUpdate`, with the same shape as `handleAddHearing`. */
  function AddUpdate(form: UpdateForm, d: DetailView, succeeds: bool): (r: DialogResult<UpdateForm>)
    ensures form.title == "" || form.description == "" ==> r == DialogResult(true, form, MissingFields, false)
    ensures form.title != "" && form.description != "" && !HasCase(d) ==> r == DialogResult(true, form, NoCaseAlert, false)
    ensures r.refetch <==> UpdateToSend(form, d).Some? && succeeds
    ensures r.refetch ==> !r.open && r.form == BlankUpdate
    ensures !r.refetch ==> r.open && r.form == form
  {
    if form.title == "" || form.description == "" then DialogResult(true, form, MissingFields, false)
    else if !HasCase(d) then DialogResult(true, form, NoCaseAlert, false)
    else if succeeds then DialogResult(false, BlankUpdate, Alert("Case update added successfully!", "success"), true)
    else DialogResult(true, form, Alert("Failed to add update", "error"), false)
  }
}

=== FILE: case_models.dfy ===
/** The rules the case models declare for themselves: the number `Case.save`
    gives a new case, and the uniqueness constraints of the request and case
    tables. */
module CaseModels {
  import opened Domain
  import opened Text

  /** `Case.save`: a case without a number gets `QA-<year>-<n>`, where `n` is
      the random four-digit number drawn for it; a case that has a number
      keeps it. */
  function AssignCaseNumber(current: string, year: nat, n: nat): (r: string)
    requires 1000 <= n <= 9999
    ensures r != ""
    ensures current != "" ==> r == current
    ensures current == "" ==> |r| == |NatToDec(year)| + 8
  {
    NatToDecFourDigits(n);
    if current != "" then current else "QA-" + NatToDec(year) + "-" + NatToDec(n)
  }

  /** Reads a generated case number back into its year and number. */
  function ParseCaseNumber(s: string): (r: Option<(nat, nat)>)
  {
    if |s| >= 9 && s[..3] == "QA-" && s[|s| - 5] == '-'
       && AllDigits(s[3..|s| - 5]) && AllDigits(s[|s| - 4..])
    then Some((DecValue(s[3..|s| - 5]), DecValue(s[|s| - 4..])))
    else None
  }

  /** A generated number carries its year and its random part recoverably,
      so two generated numbers collide only for the same year and draw. */
  lemma {:induction false} CaseNumberRoundTrip(year: nat, n: nat)
    requires 1000 <= n <= 9999
    ensures ParseCaseNumber(AssignCaseNumber("", year, n)) == Some((year, n))
  {
    var y, d := NatToDec(year), NatToDec(n);
    NatToDecFourDigits(n);
    var s := "QA-" + y + "-" + d;
    assert s == AssignCaseNumber("", year, n);
    assert s[..3] == "QA-";
    assert s[3..|s| - 5] == y;
    assert s[|s| - 5] == '-';
    assert s[|s| - 4..] == d;
    DecRoundTrip(year);
    DecRoundTrip(n);
  }

  /** Two requests agree on `(requester, lawyer, case_title)`. */
  predicate SameTriple(x: CaseRequest, y: CaseRequest) {
    x.requester == y.requester && x.lawyer == y.lawyer && x.caseTitle == y.caseTitle
  }

  /** `unique_together = [['requester', 'lawyer', 'case_title']]`. */
  predicate UniqueTriples(rs: seq<CaseRequest>) {
    forall i, j :: 0 <= i < j < |rs| ==> !SameTriple(rs[i], rs[j])
  }

  /** Primary keys of the request table. */
  predicate DistinctRequestIds(rs: seq<CaseRequest>) {
    forall i, j :: 0 <= i < j < |rs| ==> rs[i].id != rs[j].id
  }

  /** `case_number` is `unique=True`. */
  predicate UniqueCaseNumbers(cs: seq<Case>) {
    forall i, j :: 0 <= i < j < |cs| ==> cs[i].caseNumber != cs[j].caseNumber
  }

  /** `case_request` is a one-to-one link: no request has two cases. */
  predicate OneCasePerRequest(cs: seq<Case>) {
    forall i, j :: 0 <= i < j < |cs| && cs[i].caseRequest.Some? ==> cs[i].caseRequest != cs[j].caseRequest
  }

  /** A stored case already has this number. */
  predicate NumberTaken(cs: seq<Case>, number: string) {
    exists i :: 0 <= i < |cs| && cs[i].caseNumber == number
  }
}

=== FILE: case_records.dfy ===
/** The case, hearing and case-update endpoints: which records each caller
    sees, and how lawyers add hearings and progress updates to a case. */
module CaseRecords {
  import opened Domain
  import Seqs
  import Sorting
  import Text

  /** The case is in the caller's case list: the citizen's or the lawyer's
      own cases, every case for an administrator, none for other accounts. */
  predicate CanSeeCase(a: Actor, c: Case) {
    match a.userType
    case Citizen => c.citizen == a.profileId
    case Lawyer => c.lawyer == a.profileId
    case Admin => true
    case Unlisted(_) => false
  }

  /** The model ordering `-filing_date`. */
  predicate FiledLaterFirst(x: Case, y: Case) {
    x.filingDate >= y.filingDate
  }

  /** The case list: the caller's cases, most recently filed first. */
  function VisibleCases(st: Store, a: Actor): (r: seq<Case>)
    ensures forall c :: c in r <==> c in st.cases && CanSeeCase(a, c)
    ensures forall c :: multiset(r)[c] == if CanSeeCase(a, c) then multiset(st.cases)[c] else 0
    ensures Sorting.Sorted(r, FiledLaterFirst)
  {
    var p := (c: Case) => CanSeeCase(a, c);
    var m := Seqs.Filter(st.cases, p);
    Seqs.FilterMultiplicity(st.cases, p);
    var r := Sorting.Sort(m, FiledLaterFirst);
    assert forall c :: c in r <==> c in m by {
      forall c ensures c in r <==> c in m {
        Sorting.SortSameElements(m, FiledLaterFirst, c);
      }
    }
    r
  }

  /** The case with this primary key. */
  function CaseById(cs: seq<Case>, id: nat): (r: Option<Case>)
    ensures r.Some? ==> r.value in cs && r.value.id == id
    ensures r.None? ==> forall i :: 0 <= i < |cs| ==> cs[i].id != id
  {
    FindFirst(cs, (c: Case) => c.id == id)
  }

  /** A record hanging off case `caseId` is visible when its case is: an
      administrator sees all, citizens and lawyers see those of their own
      cases (`case__citizen`, `case__lawyer`). */
  predicate OfVisibleCase(st: Store, a: Actor, caseId: nat) {
    a.userType.Admin?
    || (CaseById(st.cases, caseId).Some? && CanSeeCase(a, CaseById(st.cases, caseId).value))
  }

  /** The model ordering `-hearing_date`. */
  predicate LaterHearingFirst(x: Hearing, y: Hearing) {
    x.hearingDate >= y.hearingDate
  }

  function VisibleHearings(st: Store, a: Actor): (r: seq<Hearing>)
    ensures forall h :: h in r <==> h in st.hearings && OfVisibleCase(st, a, h.caseId)
    ensures forall h :: multiset(r)[h] == if OfVisibleCase(st, a, h.caseId) then multiset(st.hearings)[h] else 0
    ensures Sorting.Sorted(r, LaterHearingFirst)
  {
    var p := (h: Hearing) => OfVisibleCase(st, a, h.caseId);
    var m := Seqs.Filter(st.hearings, p);
    Seqs.FilterMultiplicity(st.hearings, p);
    var r := Sorting.Sort(m, LaterHearingFirst);
    assert forall h :: h in r <==> h in m by {
      forall h ensures h in r <==> h in m {
        Sorting.SortSameElements(m, LaterHearingFirst, h);
      }
    }
    r
  }

  /** The model ordering `-created_at`. */
  predicate NewerUpdateFirst(x: CaseUpdate, y: CaseUpdate) {
    x.createdAt >= y.createdAt
  }

  function VisibleUpdates(st: Store, a: Actor): (r: seq<CaseUpdate>)
    ensures forall u :: u in r <==> u in st.updates && OfVisibleCase(st, a, u.caseId)
    ensures forall u :: multiset(r)[u] == if OfVisibleCase(st, a, u.caseId) then multiset(st.updates)[u] else 0
    ensures Sorting.Sorted(r, NewerUpdateFirst)
  {
    var p := (u: CaseUpdate) => OfVisibleCase(st, a, u.caseId);
    var m := Seqs.Filter(st.updates, p);
    Seqs.FilterMultiplicity(st.updates, p);
    var r := Sorting.Sort(m, NewerUpdateFirst);
    assert forall u :: u in r <==> u in m by {
      forall u ensures u in r <==> u in m {
        Sorting.SortSameElements(m, NewerUpdateFirst, u);
      }
    }
    r
  }

  /** Whoever may see a case sees its hearings and updates, and nobody
      else among citizens and lawyers does. */
  lemma RecordsFollowCase(st: Store, a: Actor, h: Hearing, u: CaseUpdate)
    requires h in st.hearings && u in st.updates
    requires CaseById(st.cases, h.caseId).Some? && CaseById(st.cases, u.caseId).Some?
    ensures h in VisibleHearings(st, a) <==> CaseById(st.cases, h.caseId).value in VisibleCases(st, a)
    ensures u in VisibleUpdates(st, a) <==> CaseById(st.cases, u.caseId).value in VisibleCases(st, a)
  {
  }

  /** What a lawyer submits for a hearing; `title` and `hearingDate` are
      `None` when left out. */
  datatype HearingInput = HearingInput(
    caseId: nat,
    title: Option<string>,
    hearingDate: Option<int>,
    location: string,
    notes: string,
    nextDate: Option<int>)

  /** The hearing serializer's validation: an existing case (any case), a
      non-blank title when one is sent, a date, a non-blank location. */
  predicate ValidHearing(st: Store, input: HearingInput) {
    && CaseById(st.cases, input.caseId).Some?
    && (input.title.Some? ==> Text.Strip(input.title.value) != "")
    && input.hearingDate.Some?
    && Text.Strip(input.location) != ""
  }

  /** The hearing a valid submission stores; the title defaults to
      'Court Hearing'. */
  function NewHearing(input: HearingInput, id: nat, now: int): Hearing
    requires input.hearingDate.Some?
  {
    Hearing(id, input.caseId,
      if input.title.Some? then Text.Strip(input.title.value) else "Court Hearing",
      input.hearingDate.value, Text.Strip(input.location), Text.Strip(input.notes), input.nextDate, now)
  }

  /** Hearing creation as written: the data is validated first; then a
      caller who is not a lawyer makes `perform_create` raise Python's
      `PermissionError`, which the framework does not translate, so the
      reply is a server error. */
  function CreateHearingAsWritten(st: Store, a: Actor, input: HearingInput, id: nat, now: int): (h: Handled<Hearing>)
    ensures h.reply.BadRequest? <==> !ValidHearing(st, input)
    ensures h.reply.ServerError? <==> ValidHearing(st, input) && a.userType != Lawyer
    ensures h.reply.Ok? <==> ValidHearing(st, input) && a.userType == Lawyer
    ensures h.reply.Ok? || h.reply.BadRequest? || h.reply.ServerError?
    ensures !h.reply.Ok? ==> h.store == st
    ensures h.reply.Ok? ==>
      && h.reply.value == NewHearing(input, id, now)
      && h.store == st.(hearings := st.hearings + [h.reply.value])
  {
    if !ValidHearing(st, input) then Handled(BadRequest(InvalidFieldText), st)
    else if a.userType != Lawyer then Handled(ServerError, st)
    else
      var hr := NewHearing(input, id, now);
      Handled(Ok(hr), st.(hearings := st.hearings + [hr]))
  }

  const HearingRefusal := "Only lawyers can schedule hearings"

  /** Hearing creation as evidently intended: a non-lawyer is refused
      with a 403 carrying the message the role test names. */
  function CreateHearing(st: Store, a: Actor, input: HearingInput, id: nat, now: int): (h: Handled<Hearing>)
    ensures h.reply.BadRequest? <==> !ValidHearing(st, input)
    ensures h.reply.Forbidden? <==> ValidHearing(st, input) && a.userType != Lawyer
    ensures h.reply.Forbidden? ==> h.reply.error == HearingRefusal
    ensures h.reply.Ok? <==> ValidHearing(st, input) && a.userType == Lawyer
    ensures h.reply.Ok? || h.reply.BadRequest? || h.reply.Forbidden?
    ensures !h.reply.Ok? ==> h.store == st
    ensures h.reply.Ok? ==>
      && a.userType == Lawyer
      && h.reply.value.caseId == input.caseId
      && h.reply.value.title == (if input.title.None? then "Court Hearing" else Text.Strip(input.title.value))
      && h.reply.value.createdAt == now
      && h.store == st.(hearings := st.hearings + [h.reply.value])
  {
    if !ValidHearing(st, input) then Handled(BadRequest(InvalidFieldText), st)
    else if a.userType != Lawyer then Handled(Forbidden(HearingRefusal), st)
    else
      var hr := NewHearing(input, id, now);
      Handled(Ok(hr), st.(hearings := st.hearings + [hr]))
  }

  /** The two versions agree except where the written one crashes: a valid
      hearing from a citizen is a server error as written and a 403 as
      intended. */
  lemma HearingRefusalDiffers(st: Store, a: Actor, input: HearingInput, id: nat, now: int)
    requires ValidHearing(st, input) && a.userType == Citizen
    ensures CreateHearingAsWritten(st, a, input, id, now).reply == ServerError
    ensures CreateHearing(st, a, input, id, now).reply == Forbidden(HearingRefusal)
  {
  }

  /** For a lawyer, and for invalid data, the corrected version is the
      written one. */
  lemma CreateHearingAgrees(st: Store, a: Actor, input: HearingInput, id: nat, now: int)
    requires a.userType == Lawyer || !ValidHearing(st, input)
    ensures CreateHearing(st, a, input, id, now) == CreateHearingAsWritten(st, a, input, id, now)
  {
  }

  /** Neither version checks that the lawyer handles the case: any lawyer
      can add a hearing to any case, and it then shows in the lists of the
      case's own citizen and lawyer. */
  lemma {:induction false} AnyLawyerMaySchedule(st: Store, a: Actor, input: HearingInput, id: nat, now: int, party: Actor)
    requires ValidHearing(st, input) && a.userType == Lawyer
    requires party.userType.Citizen? || party.userType.Lawyer?
    requires CanSeeCase(party, CaseById(st.cases, input.caseId).value)
    ensures var h := CreateHearing(st, a, input, id, now);
      h.reply.Ok? && h.reply.value in VisibleHearings(h.store, party)
  {
    var h := CreateHearing(st, a, input, id, now);
    assert h.store.hearings[|st.hearings|] == h.reply.value;
    assert h.store.cases == st.cases;
  }

  /** What a lawyer submits for a progress update. */
  datatype UpdateInput = UpdateInput(caseId: nat, title: string, description: string)

  predicate ValidUpdate(st: Store, input: UpdateInput) {
    && CaseById(st.cases, input.caseId).Some?
    && Text.Strip(input.title) != ""
    && Text.Strip(input.description) != ""
  }

  function NewUpdate(a: Actor, input: UpdateInput, id: nat, now: int): CaseUpdate {
    CaseUpdate(id, input.caseId, Text.Strip(input.title), Text.Strip(input.description), a.userId, now)
  }

  /** Update creation as written: as for hearings, a non-lawyer's valid
      update ends in an untranslated `PermissionError`. */
  function CreateUpdateAsWritten(st: Store, a: Actor, input: UpdateInput, id: nat, now: int): (h: Handled<CaseUpdate>)
    ensures h.reply.BadRequest? <==> !ValidUpdate(st, input)
    ensures h.reply.ServerError? <==> ValidUpdate(st, input) && a.userType != Lawyer
    ensures h.reply.Ok? <==> ValidUpdate(st, input) && a.userType == Lawyer
    ensures h.reply.Ok? || h.reply.BadRequest? || h.reply.ServerError?
    ensures !h.reply.Ok? ==> h.store == st
    ensures h.reply.Ok? ==>
      && h.reply.value == NewUpdate(a, input, id, now)
      && h.store == st.(updates := st.updates + [h.reply.value])
  {
    if !ValidUpdate(st, input) then Handled(BadRequest(InvalidFieldText), st)
    else if a.userType != Lawyer then Handled(ServerError, st)
    else
      var u := NewUpdate(a, input, id, now);
      Handled(Ok(u), st.(updates := st.updates + [u]))
  }

  const UpdateRefusal := "Only lawyers can add case updates"

  /** Update creation as evidently intended: a 403 for non-lawyers; the
      author is always the calling user. */
  function CreateUpdate(st: Store, a: Actor, input: UpdateInput, id: nat, now: int): (h: Handled<CaseUpdate>)
    ensures h.reply.BadRequest? <==> !ValidUpdate(st, input)
    ensures h.reply.Forbidden? <==> ValidUpdate(st, input) && a.userType != Lawyer
    ensures h.reply.Forbidden? ==> h.reply.error == UpdateRefusal
    ensures h.reply.Ok? <==> ValidUpdate(st, input) && a.userType == Lawyer
    ensures h.reply.Ok? || h.reply.BadRequest? || h.reply.Forbidden?
    ensures !h.reply.Ok? ==> h.store == st
    ensures h.reply.Ok? ==>
      && a.userType == Lawyer
      && h.reply.value.createdBy == a.userId
      && h.reply.value.caseId == input.caseId
      && h.store == st.(updates := st.updates + [h.reply.value])
  {
    if !ValidUpdate(st, input) then Handled(BadRequest(InvalidFieldText), st)
    else if a.userType != Lawyer then Handled(Forbidden(UpdateRefusal), st)
    else
      var u := NewUpdate(a, input, id, now);
      Handled(Ok(u), st.(updates := st.updates + [u]))
  }

  lemma UpdateRefusalDiffers(st: Store, a: Actor, input: UpdateInput, id: nat, now: int)
    requires ValidUpdate(st, input) && a.userType == Citizen
    ensures CreateUpdateAsWritten(st, a, input, id, now).reply == ServerError
    ensures CreateUpdate(st, a, input, id, now).reply == Forbidden(UpdateRefusal)
  {
  }

  lemma CreateUpdateAgrees(st: Store, a: Actor, input: UpdateInput, id: nat, now: int)
    requires a.userType == Lawyer || !ValidUpdate(st, input)
    ensures CreateUpdate(st, a, input, id, now) == CreateUpdateAsWritten(st, a, input, id, now)
  {
  }
}

=== FILE: case_serializers.dfy ===
/** The fields the request serializer computes for each request it renders:
    the viewer's unread message count, the id of the linked case, and the
    "new updates" badge a citizen sees. */
module CaseSerializers {
  import opened Domain
  import Seqs
  import CaseViews

  /** A message of request `id` the viewer has not read and did not send. */
  predicate UnreadFor(m: Message, id: nat, viewer: nat) {
    m.caseRequest == id && !m.isRead && m.sender != viewer
  }

  /** `unread_messages_count`: `viewer` is the user of the serializer's
      request context, `None` when it has none. */
  function UnreadCount(st: Store, viewer: Option<nat>, r: CaseRequest): (n: nat)
    ensures viewer.None? ==> n == 0
    ensures n <= |st.messages|
    ensures viewer.Some? ==> (n == 0 <==> forall i :: 0 <= i < |st.messages| ==> !UnreadFor(st.messages[i], r.id, viewer.value))
    ensures viewer.Some? ==> n == |set i | 0 <= i < |st.messages| && UnreadFor(st.messages[i], r.id, viewer.value)|
  {
    match viewer
    case None => 0
    case Some(u) =>
      var p := (m: Message) => UnreadFor(m, r.id, u);
      var ms := Seqs.Filter(st.messages, p);
      Seqs.CountIsPositions(st.messages, p);
      assert Seqs.Positions(st.messages, p) == set i | 0 <= i < |st.messages| && UnreadFor(st.messages[i], r.id, u);
      |ms|
  }

  /** `case_id`: the id of the first case linked to the request. */
  function CaseId(st: Store, r: CaseRequest): (id: Option<nat>)
    ensures id.None? <==> forall i :: 0 <= i < |st.cases| ==> st.cases[i].caseRequest != Some(r.id)
    ensures id.Some? ==> exists i :: 0 <= i < |st.cases| && st.cases[i].caseRequest == Some(r.id) && st.cases[i].id == id.value
  {
    match FindCaseOf(st.cases, r.id)
    case None => None
    case Some(c) => Some(c.id)
  }

  predicate HasHearing(st: Store, caseId: nat) {
    exists i :: 0 <= i < |st.hearings| && st.hearings[i].caseId == caseId
  }

  predicate HasUpdate(st: Store, caseId: nat) {
    exists i :: 0 <= i < |st.updates| && st.updates[i].caseId == caseId
  }

  predicate HearingAfter(st: Store, caseId: nat, t: int) {
    exists i :: 0 <= i < |st.hearings| && st.hearings[i].caseId == caseId && st.hearings[i].createdAt > t
  }

  predicate UpdateAfter(st: Store, caseId: nat, t: int) {
    exists i :: 0 <= i < |st.updates| && st.updates[i].caseId == caseId && st.updates[i].createdAt > t
  }

  /** `has_new_updates`, branch by branch: only a citizen viewer gets it;
      a never-viewed request shows it when its case has any hearing or
      update, a viewed one when one was created after the view. */
  function HasNewUpdates(st: Store, viewer: Option<Actor>, r: CaseRequest): bool {
    if viewer.None? || viewer.value.userType != Citizen then false
    else if r.lastViewedAt.None? then
      match FindCaseOf(st.cases, r.id)
      case Some(c) => HasHearing(st, c.id) || HasUpdate(st, c.id)
      case None => false
    else
      match FindCaseOf(st.cases, r.id)
      case Some(c) => HearingAfter(st, c.id, r.lastViewedAt.value) || UpdateAfter(st, c.id, r.lastViewedAt.value)
      case None => false
  }

  /** A record created at `t` is news to a viewer who last looked at
      `viewed` (never, when `None`). */
  predicate NewSince(viewed: Option<int>, t: int) {
    viewed.None? || t > viewed.value
  }

  /** The badge in one statement: a citizen viewer, a linked case, and a
      hearing or update of that case that is news since the last view. */
  lemma HasNewUpdatesIff(st: Store, viewer: Option<Actor>, r: CaseRequest)
    ensures HasNewUpdates(st, viewer, r) <==>
      && viewer.Some? && viewer.value.userType == Citizen
      && FindCaseOf(st.cases, r.id).Some?
      && var c := FindCaseOf(st.cases, r.id).value;
         || (exists i :: 0 <= i < |st.hearings| && st.hearings[i].caseId == c.id && NewSince(r.lastViewedAt, st.hearings[i].createdAt))
         || (exists i :: 0 <= i < |st.updates| && st.updates[i].caseId == c.id && NewSince(r.lastViewedAt, st.updates[i].createdAt))
  {
  }

  /** Marking a request viewed at a time no hearing or update is later
      than clears its badge. */
  lemma {:induction false} MarkViewedClearsBadge(st: Store, a: Actor, id: nat, now: int)
    requires CaseViews.MarkViewed(st, a, id, now).reply.Ok?
    requires forall i :: 0 <= i < |st.hearings| ==> st.hearings[i].createdAt <= now
    requires forall i :: 0 <= i < |st.updates| ==> st.updates[i].createdAt <= now
    ensures var st' := CaseViews.MarkViewed(st, a, id, now).store;
      !HasNewUpdates(st', Some(a), CaseViews.GetObject(st', a, id).value)
  {
    var st' := CaseViews.MarkViewed(st, a, id, now).store;
    var r := CaseViews.GetObject(st', a, id).value;
    assert r.lastViewedAt == Some(now);
    assert st'.hearings == st.hearings && st'.updates == st.updates;
    NothingLaterNoBadge(st', a, r, now);
  }

  /** A request viewed at `now` shows no badge while nothing is later. */
  lemma NothingLaterNoBadge(st: Store, a: Actor, r: CaseRequest, now: int)
    requires r.lastViewedAt == Some(now)
    requires forall i :: 0 <= i < |st.hearings| ==> st.hearings[i].createdAt <= now
    requires forall i :: 0 <= i < |st.updates| ==> st.updates[i].createdAt <= now
    ensures !HasNewUpdates(st, Some(a), r)
  {
    if FindCaseOf(st.cases, r.id).Some? {
      var c := FindCaseOf(st.cases, r.id).value;
      assert !HearingAfter(st, c.id, now) && !UpdateAfter(st, c.id, now);
    }
  }
}

=== FILE: case_views.dfy ===
/** The case-request endpoints: who sees which requests, creating a request,
    the four status actions, marking a request viewed, and the per-user
    counts. Each endpoint maps the store and the caller to a reply and the
    new store. */
module CaseViews {
  import opened Domain
  import opened CaseModels
  import Seqs
  import Sorting
  import Text

  /** The request is in the caller's `get_queryset`: a citizen's own
      requests, a lawyer's received requests, everything for an
      administrator, nothing for any other account type. */
  predicate CanSee(a: Actor, r: CaseRequest) {
    match a.userType
    case Citizen => r.requester == a.profileId
    case Lawyer => r.lawyer == a.profileId
    case Admin => true
    case Unlisted(_) => false
  }

  /** The model ordering `-request_date`: newest first. */
  predicate NewerFirst(x: CaseRequest, y: CaseRequest) {
    x.requestDate >= y.requestDate
  }

  function Mine(st: Store, a: Actor): seq<CaseRequest> {
    Seqs.Filter(st.requests, (x: CaseRequest) => CanSee(a, x))
  }

  /** The request list: every request the caller may see, newest first. */
  function VisibleRequests(st: Store, a: Actor): (r: seq<CaseRequest>)
    ensures forall x :: x in r <==> x in st.requests && CanSee(a, x)
    ensures Sorting.Sorted(r, NewerFirst)
    ensures |r| == |Mine(st, a)|
  {
    var m := Mine(st, a);
    var r := Sorting.Sort(m, NewerFirst);
    assert forall x :: x in r <==> x in m by {
      forall x ensures x in r <==> x in m {
        Sorting.SortSameElements(m, NewerFirst, x);
      }
    }
    r
  }

  /** `get_object`: the request with this id among those the caller sees. */
  function GetObject(st: Store, a: Actor, id: nat): (r: Option<CaseRequest>)
    ensures r.Some? ==> r.value in st.requests && r.value.id == id && CanSee(a, r.value)
    ensures r.None? <==> forall i :: 0 <= i < |st.requests| && st.requests[i].id == id ==> !CanSee(a, st.requests[i])
  {
    FindRequest(Mine(st, a), id)
  }

  /** The store's requests with every row whose id is `r.id` overwritten by
      `r`, as an `UPDATE ... WHERE id = ...` or a model `save()`. */
  function Replace(rs: seq<CaseRequest>, r: CaseRequest): (out: seq<CaseRequest>)
    ensures |out| == |rs|
    ensures forall i :: 0 <= i < |rs| ==> out[i] == (if rs[i].id == r.id then r else rs[i])
  {
    if |rs| == 0 then []
    else [if rs[0].id == r.id then r else rs[0]] + Replace(rs[1..], r)
  }

  /** Reading a request back after it was written gives what was written. */
  lemma FindOnly(rs: seq<CaseRequest>, x: CaseRequest)
    requires x in rs
    requires forall i :: 0 <= i < |rs| && rs[i].id == x.id ==> rs[i] == x
    ensures FindRequest(rs, x.id) == Some(x)
  {
    assert exists i :: 0 <= i < |rs| && rs[i].id == x.id;
  }

  /** After a visible request is overwritten by a record with the same
      requester and lawyer, `get_object` returns the new record. */
  lemma {:induction false} ReadBack(st: Store, a: Actor, old_: CaseRequest, r: CaseRequest)
    requires old_ in st.requests && CanSee(a, old_)
    requires r.id == old_.id && r.requester == old_.requester && r.lawyer == old_.lawyer
    ensures GetObject(st.(requests := Replace(st.requests, r)), a, r.id) == Some(r)
  {
    var rs := Replace(st.requests, r);
    var k :| 0 <= k < |st.requests| && st.requests[k] == old_;
    assert rs[k] == r;
    var m := Seqs.Filter(rs, (x: CaseRequest) => CanSee(a, x));
    assert r in m;
    forall i | 0 <= i < |m| && m[i].id == r.id
      ensures m[i] == r
    {
      var j :| 0 <= j < |rs| && rs[j] == m[i];
    }
    FindOnly(m, r);
  }

  /** Only the rewritten request changes; every other table stays. */
  predicate OnlyRequestChanged(st: Store, st': Store, id: nat) {
    && st' == st.(requests := st'.requests)
    && |st'.requests| == |st.requests|
    && forall i :: 0 <= i < |st.requests| && st.requests[i].id != id ==> st'.requests[i] == st.requests[i]
  }

  /** `request.data.get('message', fallback)`. */
  function MessageOr(message: Option<string>, fallback: string): string {
    match message
    case Some(m) => m
    case None => fallback
  }

  /** `accept` and `reject`: the visible request takes the new status, the
      response time and the caller's message or the default one. The
      current status is not consulted. */
  function Respond(st: Store, a: Actor, id: nat, to: RequestStatus, message: Option<string>, fallback: string, now: int): (h: Handled<CaseRequest>)
    ensures h.reply.NotFound? <==> GetObject(st, a, id).None?
    ensures h.reply.NotFound? ==> h.store == st
    ensures h.reply.Ok? || h.reply.NotFound?
    ensures h.reply.Ok? ==>
      && h.reply.value.status == to
      && h.reply.value.responseDate == Some(now)
      && h.reply.value.responseMessage == MessageOr(message, fallback)
      && h.reply.value.(status := GetObject(st, a, id).value.status,
                        responseDate := GetObject(st, a, id).value.responseDate,
                        responseMessage := GetObject(st, a, id).value.responseMessage) == GetObject(st, a, id).value
      && OnlyRequestChanged(st, h.store, id)
      && GetObject(h.store, a, id) == Some(h.reply.value)
  {
    match GetObject(st, a, id)
    case None => Handled(NotFound(NotFoundText), st)
    case Some(r) =>
      var r' := r.(status := to, responseDate := Some(now), responseMessage := MessageOr(message, fallback));
      ReadBack(st, a, r, r');
      Handled(Ok(r'), st.(requests := Replace(st.requests, r')))
  }

  function Accept(st: Store, a: Actor, id: nat, message: Option<string>, now: int): (h: Handled<CaseRequest>)
    ensures h.reply.Ok? ==> h.reply.value.status == Accepted && h.reply.value.responseMessage == MessageOr(message, "Request accepted")
  {
    Respond(st, a, id, Accepted, message, "Request accepted", now)
  }

  function Reject(st: Store, a: Actor, id: nat, message: Option<string>, now: int): (h: Handled<CaseRequest>)
    ensures h.reply.Ok? ==> h.reply.value.status == Rejected && h.reply.value.responseMessage == MessageOr(message, "Request rejected")
  {
    Respond(st, a, id, Rejected, message, "Request rejected", now)
  }

  /** `complete`: only the status changes. */
  function Complete(st: Store, a: Actor, id: nat): (h: Handled<CaseRequest>)
    ensures h.reply.NotFound? <==> GetObject(st, a, id).None?
    ensures h.reply.Ok? || h.reply.NotFound?
    ensures h.reply.NotFound? ==> h.store == st
    ensures h.reply.Ok? ==>
      && h.reply.value == GetObject(st, a, id).value.(status := Completed)
      && OnlyRequestChanged(st, h.store, id)
      && GetObject(h.store, a, id) == Some(h.reply.value)
  {
    match GetObject(st, a, id)
    case None => Handled(NotFound(NotFoundText), st)
    case Some(r) =>
      var r' := r.(status := Completed);
      ReadBack(st, a, r, r');
      Handled(Ok(r'), st.(requests := Replace(st.requests, r')))
  }

  /** The case `start_progress` opens for a request. */
  function OpenedCase(r: CaseRequest, caseId: nat, number: string, now: int): Case {
    Case(caseId, r.requester, r.lawyer, Some(r.id), r.caseTitle, r.description, number, now, Active)
  }

  /** `start_progress`: the status is saved first; then a case is opened
      when the request has none. A request that already has a case fails
      with a server error (the guard reads an attribute requests do not
      have), as does a generated case number that is already taken; in
      both failures the status change stays saved. `year` and `draw` are
      the clock's year and the random four-digit number. */
  function StartProgress(st: Store, a: Actor, id: nat, caseId: nat, year: nat, draw: nat, now: int): (h: Handled<CaseRequest>)
    requires 1000 <= draw <= 9999
    ensures h.reply.NotFound? <==> GetObject(st, a, id).None?
    ensures h.reply.NotFound? ==> h.store == st
    ensures h.reply.Ok? <==>
      GetObject(st, a, id).Some? && FindCaseOf(st.cases, id).None? && !NumberTaken(st.cases, AssignCaseNumber("", year, draw))
    ensures h.reply.Ok? || h.reply.NotFound? || h.reply.ServerError?
    ensures h.reply.ServerError? <==>
      GetObject(st, a, id).Some?
      && (FindCaseOf(st.cases, id).Some? || NumberTaken(st.cases, AssignCaseNumber("", year, draw)))
    ensures h.reply.Ok? ==>
      && h.reply.value == GetObject(st, a, id).value.(status := InProgress)
      && h.store.cases == st.cases + [OpenedCase(h.reply.value, caseId, AssignCaseNumber("", year, draw), now)]
      && OnlyRequestChanged(st, h.store.(cases := st.cases), id)
    ensures h.reply.ServerError? ==>
      && OnlyRequestChanged(st, h.store, id)
      && GetObject(h.store, a, id) == Some(GetObject(st, a, id).value.(status := InProgress))
  {
    match GetObject(st, a, id)
    case None => Handled(NotFound(NotFoundText), st)
    case Some(r) =>
      var r' := r.(status := InProgress);
      ReadBack(st, a, r, r');
      var saved := st.(requests := Replace(st.requests, r'));
      assert OnlyRequestChanged(st, saved, id);
      var number := AssignCaseNumber("", year, draw);
      var taken := FindCaseOf(st.cases, id).Some? || NumberTaken(st.cases, number);
      if taken then Handled(ServerError, saved)
      else Handled(Ok(r'), saved.(cases := st.cases + [OpenedCase(r', caseId, number, now)]))
  }

  /** Opening a case keeps the case table's constraints: one case per
      request and unique case numbers. */
  lemma {:induction false} StartProgressKeepsCaseConstraints(st: Store, a: Actor, id: nat, caseId: nat, year: nat, draw: nat, now: int)
    requires 1000 <= draw <= 9999
    requires OneCasePerRequest(st.cases) && UniqueCaseNumbers(st.cases)
    ensures var h := StartProgress(st, a, id, caseId, year, draw, now);
      OneCasePerRequest(h.store.cases) && UniqueCaseNumbers(h.store.cases)
  {
    var h := StartProgress(st, a, id, caseId, year, draw, now);
    if h.reply.Ok? {
      var cs := h.store.cases;
      var n := |st.cases|;
      assert cs[..n] == st.cases;
      forall i, j | 0 <= i < j < |cs|
        ensures cs[i].caseNumber != cs[j].caseNumber
        ensures cs[i].caseRequest.Some? ==> cs[i].caseRequest != cs[j].caseRequest
      {
        if j == n {
          assert cs[i] == st.cases[i];
        }
      }
    }
  }

  /** Neither answering action looks at the current status: any request the
      caller can see, even a completed one, can be accepted or rejected,
      moves the lifecycle does not contain. */
  lemma RespondIgnoresLifecycle(st: Store, a: Actor, r: CaseRequest, message: Option<string>, now: int)
    requires r in st.requests && CanSee(a, r)
    ensures Accept(st, a, r.id, message, now).reply.Ok?
    ensures Reject(st, a, r.id, message, now).reply.Ok?
  {
    VisibleIsFound(st, a, r);
  }

  /** `complete` does not look at the current status either: a pending or
      rejected request the caller can see is completed as well. */
  lemma CompleteIgnoresLifecycle(st: Store, a: Actor, r: CaseRequest)
    requires r in st.requests && CanSee(a, r)
    ensures Complete(st, a, r.id).reply.Ok?
  {
    VisibleIsFound(st, a, r);
  }

  lemma VisibleIsFound(st: Store, a: Actor, r: CaseRequest)
    requires r in st.requests && CanSee(a, r)
    ensures GetObject(st, a, r.id).Some?
  {
    var k :| 0 <= k < |st.requests| && st.requests[k] == r;
  }

  /** `mark_viewed`: an invisible request is a 404 before the role is
      checked; a visible one is refused to anyone but a citizen; a
      citizen's request records the view time. */
  function MarkViewed(st: Store, a: Actor, id: nat, now: int): (h: Handled<int>)
    ensures h.reply.NotFound? <==> GetObject(st, a, id).None?
    ensures h.reply.Forbidden? <==> GetObject(st, a, id).Some? && a.userType != Citizen
    ensures h.reply.Forbidden? ==> h.reply.error == "Only citizens can mark cases as viewed"
    ensures h.reply.Ok? <==> GetObject(st, a, id).Some? && a.userType == Citizen
    ensures h.reply.Ok? || h.reply.NotFound? || h.reply.Forbidden?
    ensures !h.reply.Ok? ==> h.store == st
    ensures h.reply.Ok? ==>
      && h.reply.value == now
      && OnlyRequestChanged(st, h.store, id)
      && GetObject(h.store, a, id) == Some(GetObject(st, a, id).value.(lastViewedAt := Some(now)))
  {
    match GetObject(st, a, id)
    case None => Handled(NotFound(NotFoundText), st)
    case Some(r) =>
      if a.userType != Citizen then Handled(Forbidden("Only citizens can mark cases as viewed"), st)
      else
        var r' := r.(lastViewedAt := Some(now));
        ReadBack(st, a, r, r');
        Handled(Ok(now), st.(requests := Replace(st.requests, r')))
  }

  /** A citizen marks only their own requests. */
  lemma MarkViewedOwnOnly(st: Store, a: Actor, id: nat, now: int)
    requires MarkViewed(st, a, id, now).reply.Ok?
    ensures a.userType == Citizen
    ensures exists i :: 0 <= i < |st.requests| && st.requests[i].id == id && st.requests[i].requester == a.profileId
  {
    var r := GetObject(st, a, id).value;
    var k :| 0 <= k < |st.requests| && st.requests[k] == r;
  }

  /** What a citizen submits to create a request. `urgency` is the code
      sent, or `None` when the field is left out; `response_message` and
      `last_viewed_at` are writable fields of the serializer, so a client may
      send them too (the time already parsed). */
  datatype RequestInput = RequestInput(lawyer: nat, caseTitle: string, caseType: string, description: string,
    urgency: Option<string>, responseMessage: Option<string>, lastViewedAt: Option<int>)

  function ParseUrgency(code: string): (u: Option<Urgency>)
    ensures u.Some? ==> UrgencyCode(u.value) == code
    ensures u.None? ==> code !in {"low", "medium", "high", "urgent"}
  {
    if code == "low" then Some(Low)
    else if code == "medium" then Some(Medium)
    else if code == "high" then Some(High)
    else if code == "urgent" then Some(Urgent)
    else None
  }

  /** The field validation of the request serializer: the lawyer exists,
      the three text fields are not blank, the urgency is a listed code. */
  predicate ValidInput(st: Store, input: RequestInput) {
    && FindLawyer(st.lawyers, input.lawyer).Some?
    && Text.Strip(input.caseTitle) != ""
    && Text.Strip(input.caseType) != ""
    && Text.Strip(input.description) != ""
    && (input.urgency.Some? ==> ParseUrgency(input.urgency.value).Some?)
  }

  const DuplicateText := "You have already sent a request for this case to this lawyer"

  /** The request a valid submission stores: the caller's profile as the
      requester, the stripped text, the default urgency when none was sent,
      a pending status and no response date; the response message and the
      view time are what the client sent, blank and unset by default. */
  function NewRequest(a: Actor, input: RequestInput, id: nat, now: int): CaseRequest
    requires input.urgency.Some? ==> ParseUrgency(input.urgency.value).Some?
  {
    CaseRequest(id, a.profileId, input.lawyer, Text.Strip(input.caseTitle), Text.Strip(input.caseType),
      Text.Strip(input.description),
      if input.urgency.Some? then ParseUrgency(input.urgency.value).value else DefaultUrgency,
      DefaultRequestStatus, now, if input.responseMessage.Some? then Text.Strip(input.responseMessage.value) else "",
      None, input.lastViewedAt)
  }

  /** A stored request already has this triple. */
  predicate TripleTaken(rs: seq<CaseRequest>, r: CaseRequest) {
    exists i :: 0 <= i < |rs| && SameTriple(rs[i], r)
  }

  /** `create`: only citizens; invalid fields are a 400; a request repeating
      the requester, lawyer and title of a stored one violates the table's
      unique constraint, which the view reports as a 400; otherwise the new
      request is stored. */
  function Create(st: Store, a: Actor, input: RequestInput, id: nat, now: int): (h: Handled<CaseRequest>)
    ensures h.reply.Forbidden? <==> a.userType != Citizen
    ensures h.reply.Forbidden? ==> h.reply.error == "Only citizens can create case requests"
    ensures h.reply.BadRequest? <==> a.userType == Citizen && (!ValidInput(st, input) || TripleTaken(st.requests, NewRequest(a, input, id, now)))
    ensures h.reply.BadRequest? && ValidInput(st, input) ==> h.reply.error == DuplicateText
    ensures h.reply.Ok? <==> a.userType == Citizen && ValidInput(st, input) && !TripleTaken(st.requests, NewRequest(a, input, id, now))
    ensures h.reply.Ok? || h.reply.Forbidden? || h.reply.BadRequest?
    ensures !h.reply.Ok? ==> h.store == st
    ensures h.reply.Ok? ==>
      && h.reply.value.id == id
      && h.reply.value.requester == a.profileId
      && h.reply.value.lawyer == input.lawyer
      && h.reply.value.caseTitle == Text.Strip(input.caseTitle)
      && h.reply.value.caseType == Text.Strip(input.caseType)
      && h.reply.value.description == Text.Strip(input.description)
      && h.reply.value.requestDate == now
      && h.reply.value.status == Pending
      && h.reply.value.urgency == (if input.urgency.None? then Medium else ParseUrgency(input.urgency.value).value)
      && h.reply.value.responseDate.None?
      && h.reply.value.responseMessage == (if input.responseMessage.None? then "" else Text.Strip(input.responseMessage.value))
      && h.reply.value.lastViewedAt == input.lastViewedAt
      && h.store == st.(requests := st.requests + [h.reply.value])
  {
    if a.userType != Citizen then Handled(Forbidden("Only citizens can create case requests"), st)
    else if !ValidInput(st, input) then Handled(BadRequest(InvalidFieldText), st)
    else
      var r := NewRequest(a, input, id, now);
      if TripleTaken(st.requests, r) then Handled(BadRequest(DuplicateText), st)
      else Handled(Ok(r), st.(requests := st.requests + [r]))
  }

  /** Creating requests keeps the table's unique constraint, and the new
      request appears in the lists of both the citizen who sent it and the
      lawyer it was sent to. */
  lemma {:induction false} CreateKeepsUniqueTriples(st: Store, a: Actor, input: RequestInput, id: nat, now: int, lawyer: Actor)
    requires UniqueTriples(st.requests)
    requires lawyer.userType == Lawyer && lawyer.profileId == input.lawyer
    ensures var h := Create(st, a, input, id, now);
      && UniqueTriples(h.store.requests)
      && (h.reply.Ok? ==> h.reply.value in VisibleRequests(h.store, a) && h.reply.value in VisibleRequests(h.store, lawyer))
  {
    var h := Create(st, a, input, id, now);
    if h.reply.Ok? {
      var r := h.reply.value;
      assert r == NewRequest(a, input, id, now);
      AppendKeepsUniqueTriples(st.requests, r);
      var rs := h.store.requests;
      assert rs == st.requests + [r];
      assert r in rs by {
        assert rs[|st.requests|] == r;
      }
      assert CanSee(a, r) && CanSee(lawyer, r);
    }
  }

  lemma AppendKeepsUniqueTriples(rs: seq<CaseRequest>, r: CaseRequest)
    requires UniqueTriples(rs) && !TripleTaken(rs, r)
    ensures UniqueTriples(rs + [r])
  {
    var rs' := rs + [r];
    forall i, j | 0 <= i < j < |rs'|
      ensures !SameTriple(rs'[i], rs'[j])
    {
      if j == |rs| {
        assert rs'[i] == rs[i];
      }
    }
  }

  /** The per-user counts of the `stats` endpoint. */
  datatype RequestCounts = RequestCounts(total: nat, pending: nat, accepted: nat, inProgress: nat, completed: nat, rejected: nat)

  function CountStatus(rs: seq<CaseRequest>, s: RequestStatus): nat {
    Seqs.Count(rs, (x: CaseRequest) => x.status == s)
  }

  /** The rows of the request table that the caller takes part in and that
      have status `s`, as the `WHERE ... COUNT(CASE WHEN status = ...)` of
      the statistics query counts them. */
  function VisibleWithStatus(st: Store, a: Actor, s: RequestStatus): nat {
    Seqs.Count(st.requests, (x: CaseRequest) => CanSee(a, x) && x.status == s)
  }

  /** Counting a status among the caller's requests is counting the table
      rows that satisfy both conditions. */
  lemma MineWithStatus(st: Store, a: Actor, s: RequestStatus)
    ensures CountStatus(Mine(st, a), s) == VisibleWithStatus(st, a, s)
  {
    Seqs.FilterFilter(st.requests, (x: CaseRequest) => CanSee(a, x), (x: CaseRequest) => x.status == s,
      (x: CaseRequest) => CanSee(a, x) && x.status == s);
  }

  /** `stats`: a lawyer's received or a citizen's sent requests, counted by
      status; everyone else is refused. */
  function Stats(st: Store, a: Actor): (r: Reply<RequestCounts>)
    ensures r.Forbidden? <==> !(a.userType.Citizen? || a.userType.Lawyer?)
    ensures r.Forbidden? ==> r.error == "Unauthorized"
    ensures r.Ok? || r.Forbidden?
    ensures r.Ok? ==> r.value.total == |VisibleRequests(st, a)|
    ensures r.Ok? ==> r.value.total == Seqs.Count(st.requests, (x: CaseRequest) => CanSee(a, x))
    ensures r.Ok? ==>
      && r.value.pending == VisibleWithStatus(st, a, Pending)
      && r.value.accepted == VisibleWithStatus(st, a, Accepted)
      && r.value.inProgress == VisibleWithStatus(st, a, InProgress)
      && r.value.completed == VisibleWithStatus(st, a, Completed)
      && r.value.rejected == VisibleWithStatus(st, a, Rejected)
  {
    MineWithStatus(st, a, Pending);
    MineWithStatus(st, a, Accepted);
    MineWithStatus(st, a, InProgress);
    MineWithStatus(st, a, Completed);
    MineWithStatus(st, a, Rejected);
    if a.userType.Citizen? || a.userType.Lawyer? then
      var m := Mine(st, a);
      Ok(RequestCounts(|m|, CountStatus(m, Pending), CountStatus(m, Accepted), CountStatus(m, InProgress),
        CountStatus(m, Completed), CountStatus(m, Rejected)))
    else Forbidden("Unauthorized")
  }

  lemma CountStatusStep(rs: seq<CaseRequest>, s: RequestStatus)
    requires |rs| > 0
    ensures CountStatus(rs, s) == CountStatus(rs[1..], s) + (if rs[0].status == s then 1 else 0)
  {
  }

  /** Every request has exactly one of the five statuses, so the five
      counts add up to the total. */
  lemma {:induction false} StatusCountsPartition(rs: seq<CaseRequest>)
    ensures CountStatus(rs, Pending) + CountStatus(rs, Accepted) + CountStatus(rs, InProgress)
      + CountStatus(rs, Completed) + CountStatus(rs, Rejected) == |rs|
  {
    if |rs| > 0 {
      StatusCountsPartition(rs[1..]);
      CountStatusStep(rs, Pending);
      CountStatusStep(rs, Accepted);
      CountStatusStep(rs, InProgress);
      CountStatusStep(rs, Completed);
      CountStatusStep(rs, Rejected);
    }
  }

  lemma StatsPartition(st: Store, a: Actor)
    requires Stats(st, a).Ok?
    ensures var c := Stats(st, a).value;
      c.pending + c.accepted + c.inProgress + c.completed + c.rejected == c.total
  {
    StatusCountsPartition(Mine(st, a));
  }
}

=== FILE: citizen_dashboard.dfy ===
/** The citizen's dashboard: every status has its own tab, each request has a
    Details button and, once a lawyer has taken it on, a Message button. */
module CitizenDashboard {
  import opened Domain
  import opened RequestList
  import Text

  const InitialFilter := "all"

  /** The filter behind each tab, by tab index. */
  const Tabs: seq<string> := ["all", "pending", "accepted", "in_progress", "completed", "rejected"]

  /** The dashboard opens on the first tab, and that tab's filter is the
      initial one; the other tabs are the five status codes, each once. */
  lemma FirstTabIsInitialFilter()
    ensures Tabs[0] == InitialFilter
    ensures forall t :: 1 <= t < |Tabs| ==> Tabs[t] in StatusCodes
    ensures forall c :: c in StatusCodes ==> exists t :: 1 <= t < |Tabs| && Tabs[t] == c
  {
    assert Tabs[1] == "pending" && Tabs[2] == "accepted" && Tabs[3] == "in_progress" && Tabs[4] == "completed" && Tabs[5] == "rejected";
  }

  /** Every request with a defined status is listed under its own tab as
      well as under 'all'. */
  lemma EveryStatusHasTab(rs: seq<RequestView>, i: nat)
    requires i < |rs| && rs[i].status in StatusCodes
    ensures exists t :: 1 <= t < |Tabs| && Tabs[t] == rs[i].status && rs[i] in Visible(rs, Tabs[t])
    ensures rs[i] in Visible(rs, Tabs[0])
  {
    var code := rs[i].status;
    var t := if code == "pending" then 1 else if code == "accepted" then 2
      else if code == "in_progress" then 3 else if code == "completed" then 4 else 5;
    assert Tabs[t] == code;
  }

  /** The five status tabs together list every request with a defined status
      once: their sizes and the number of unknown-status requests add up to
      the 'all' tab. */
  lemma StatusTabsPartition(rs: seq<RequestView>)
    ensures |Visible(rs, Tabs[1])| + |Visible(rs, Tabs[2])| + |Visible(rs, Tabs[3])|
      + |Visible(rs, Tabs[4])| + |Visible(rs, Tabs[5])| + |UnknownStatus(rs)| == |Visible(rs, Tabs[0])|
  {
    SummaryAccountsForAll(rs);
  }

  datatype Button = DetailsButton(path: string) | MessageButton(path: string)

  /** The buttons under a request. */
  function Buttons(r: RequestView): (bs: seq<Button>)
    ensures |bs| >= 1 && bs[0] == DetailsButton("/case-details/" + Text.NatToDec(r.id))
    ensures MessageButton("/messages/" + Text.NatToDec(r.id)) in bs <==> r.status == "accepted" || r.status == "in_progress"
  {
    var details := [DetailsButton("/case-details/" + Text.NatToDec(r.id))];
    if r.status == "accepted" || r.status == "in_progress" then details + [MessageButton("/messages/" + Text.NatToDec(r.id))]
    else details
  }

  /** The lawyer line of a request card: the lawyer's name when present and
      non-empty. */
  function LawyerLabel(r: RequestView): (l: string)
    ensures r.lawyerName.Some? && r.lawyerName.value != "" ==> l == r.lawyerName.value
    ensures !(r.lawyerName.Some? && r.lawyerName.value != "") ==> l == "Not assigned"
  {
    if r.lawyerName.Some? && r.lawyerName.value != "" then r.lawyerName.value else "Not assigned"
  }
}

=== FILE: cnic.dfy ===
/** The national identity number (CNIC) as the registration form formats it
    while it is typed, and as the lawyer registration serializer validates it
    (`XXXXX-XXXXXXX-X`: five digits, seven digits, one digit). */
module Cnic {
  import opened Text
  import Seqs

  /** The input with every non-digit removed. */
  function Digits(s: string): (r: string)
    ensures AllDigits(r) && |r| <= |s|
  {
    Seqs.Filter(s, IsDigit)
  }

  lemma DigitsOfDigits(s: string)
    requires AllDigits(s)
    ensures Digits(s) == s
  {
    Seqs.FilterAll(s, IsDigit);
  }

  lemma DigitsDash(a: string, b: string)
    ensures Digits(a + "-" + b) == Digits(a) + Digits(b)
  {
    Seqs.FilterAppend(a + "-", b, IsDigit);
    Seqs.FilterAppend(a, "-", IsDigit);
  }

  lemma {:induction false} TwoGroups(d: string)
    requires AllDigits(d) && 5 < |d|
    ensures Digits(d[..5] + "-" + d[5..]) == d
  {
    DigitsDash(d[..5], d[5..]);
    DigitsOfDigits(d[..5]);
    DigitsOfDigits(d[5..]);
    assert d[..5] + d[5..] == d;
  }

  lemma {:induction false} ThreeGroups(d: string)
    requires AllDigits(d) && 13 <= |d|
    ensures Digits(d[..5] + "-" + d[5..12] + "-" + d[12..13]) == d[..13]
  {
    var a, b, c := d[..5], d[5..12], d[12..13];
    var bc := b + "-" + c;
    assert Digits(bc) == b + c by {
      DigitsOfDigits(b);
      DigitsOfDigits(c);
      DigitsDash(b, c);
    }
    assert Digits(a + "-" + bc) == a + (b + c) by {
      DigitsOfDigits(a);
      DigitsDash(a, bc);
    }
    assert a + "-" + b + "-" + c == a + "-" + bc;
    assert a + (b + c) == d[..13];
  }

  /** The form's formatter: digits only, then a dash after the fifth digit
      once there are more than five, and a second one after the twelfth once
      there are more than twelve; a fourteenth digit onwards is dropped. */
  function Format(value: string): (r: string)
    ensures Digits(r) == Seqs.Take(Digits(value), 13)
    ensures |r| <= 15
    ensures |Digits(value)| <= 5 ==> r == Digits(value)
  {
    var d := Digits(value);
    if |d| <= 5 then
      DigitsOfDigits(d);
      d
    else if |d| <= 12 then
      TwoGroups(d);
      d[..5] + "-" + d[5..]
    else
      ThreeGroups(d);
      d[..5] + "-" + d[5..12] + "-" + d[12..13]
  }

  /** The shape the serializer's pattern describes, without its end anchor's
      allowance for a final newline. Its digits are Unicode decimal digits. */
  predicate Strict(s: string) {
    |s| == 15 && s[5] == '-' && s[13] == '-'
    && AllDecimal(s[..5]) && AllDecimal(s[6..13]) && AllDecimal(s[14..])
  }

  /** The same shape with ASCII digits only: what the form's formatter
      produces. */
  predicate Formatted(s: string) {
    |s| == 15 && s[5] == '-' && s[13] == '-'
    && AllDigits(s[..5]) && AllDigits(s[6..13]) && AllDigits(s[14..])
  }

  lemma FormattedIsStrict(s: string)
    requires Formatted(s)
    ensures Strict(s)
  {
    DigitsAreDecimal(s[..5]);
    DigitsAreDecimal(s[6..13]);
    DigitsAreDecimal(s[14..]);
  }

  /** A run of Arabic-Indic digits: decimal digits to the server, no digits
      at all to the form's formatter. */
  lemma ArabicIndicGroup(g: string)
    requires forall i :: 0 <= i < |g| ==> InRun(g[i], 0x660)
    ensures AllDecimal(g) && Digits(g) == ""
  {
  }

  /** `12345-1234567-1` written in Arabic-Indic digits. */
  const ArabicIndicCnic: string :=
    "\U{0661}\U{0662}\U{0663}\U{0664}\U{0665}" + "-" + "\U{0661}\U{0662}\U{0663}\U{0664}\U{0665}\U{0666}\U{0667}" + "-" + "\U{0661}"

  /** Three groups of five, seven and one decimal digits joined by dashes
      have the pattern's shape. */
  lemma StrictOfGroups(a: string, b: string, c: string)
    requires |a| == 5 && |b| == 7 && |c| == 1
    requires AllDecimal(a) && AllDecimal(b) && AllDecimal(c)
    ensures Strict(a + "-" + b + "-" + c)
  {
    var s := a + "-" + b + "-" + c;
    assert s[..5] == a && s[6..13] == b && s[14..] == c;
  }

  /** The pattern accepts a CNIC written in Arabic-Indic digits, which the
      form's formatter would strip to nothing. */
  lemma {:induction false} ArabicIndicCnicAccepted()
    ensures Strict(ArabicIndicCnic) && !Formatted(ArabicIndicCnic) && Digits(ArabicIndicCnic) == ""
  {
    var a, b, c := "\U{0661}\U{0662}\U{0663}\U{0664}\U{0665}", "\U{0661}\U{0662}\U{0663}\U{0664}\U{0665}\U{0666}\U{0667}", "\U{0661}";
    assert ArabicIndicCnic == a + "-" + b + "-" + c;
    ArabicIndicGroup(a);
    ArabicIndicGroup(b);
    ArabicIndicGroup(c);
    StrictOfGroups(a, b, c);
    assert ArabicIndicCnic[0] == a[0];
    DigitsDash(a, b + "-" + c);
    DigitsDash(b, c);
    assert a + "-" + b + "-" + c == a + "-" + (b + "-" + c);
  }

  /** `re.match(r'^\d{5}-\d{7}-\d$', value)`: `$` also matches just before
      a final newline. */
  predicate PatternOk(s: string) {
    Strict(s) || (|s| == 16 && s[15] == '\n' && Strict(s[..15]))
  }

  /** The serializer receives the field already stripped of surrounding
      whitespace, so for what it validates the pattern is the strict shape. */
  lemma PatternOkTrimmed(s: string)
    requires |s| > 0 ==> !PyIsSpace(s[|s| - 1])
    ensures PatternOk(s) <==> Strict(s)
  {
  }

  /** Retyping the formatted value changes nothing. */
  lemma {:induction false} FormatIdempotent(value: string)
    ensures Format(Format(value)) == Format(value)
  {
    var d := Digits(value);
    var r := Format(value);
    assert Digits(r) == Seqs.Take(d, 13);
    if |d| > 13 {
      var e := Digits(r);
      assert e == d[..13];
      assert e[..5] == d[..5] && e[5..12] == d[5..12] && e[12..13] == d[12..13];
    }
  }

  /** The formatted value passes the server's check exactly when at least
      thirteen digits were typed. */
  lemma {:induction false} FormatAcceptedIff(value: string)
    ensures PatternOk(Format(value)) <==> |Digits(value)| >= 13
    ensures |Digits(value)| >= 13 ==> Formatted(Format(value))
  {
    if |Digits(value)| >= 13 {
      FormatFull(value);
      FormattedIsStrict(Format(value));
    } else {
      FormatShort(value);
    }
  }

  /** Thirteen digits or more are formatted into the full shape. */
  lemma {:induction false} FormatFull(value: string)
    requires |Digits(value)| >= 13
    ensures Formatted(Format(value))
  {
    var d := Digits(value);
    var a, b, c := d[..5], d[5..12], d[12..13];
    assert AllDigits(a) && AllDigits(b) && AllDigits(c) by {
      assert forall i :: 0 <= i < |a| ==> a[i] == d[i];
      assert forall i :: 0 <= i < |b| ==> b[i] == d[5 + i];
      assert c[0] == d[12];
    }
    FormattedOfGroups(a, b, c);
  }

  /** Groups of five, seven and one ASCII digits joined by dashes have the
      formatter's shape. */
  lemma FormattedOfGroups(a: string, b: string, c: string)
    requires |a| == 5 && |b| == 7 && |c| == 1
    requires AllDigits(a) && AllDigits(b) && AllDigits(c)
    ensures Formatted(a + "-" + b + "-" + c)
  {
    var s := a + "-" + b + "-" + c;
    assert s[..5] == a && s[6..13] == b && s[14..] == c;
  }

  /** Fewer digits give a value too short for the pattern. */
  lemma {:induction false} FormatShort(value: string)
    requires |Digits(value)| < 13
    ensures |Format(value)| <= 13
  {
    var d := Digits(value);
    if |d| > 5 {
      assert Format(value) == d[..5] + "-" + d[5..];
    }
  }

  /** The digits of a well-formed CNIC are its three groups run together. */
  lemma {:induction false} DigitsOfFormatted(s: string)
    requires Formatted(s)
    ensures Digits(s) == s[..5] + s[6..13] + s[14..]
  {
    var a, b, c := s[..5], s[6..13], s[14..];
    var bc := b + "-" + c;
    assert Digits(bc) == b + c by {
      DigitsOfDigits(b);
      DigitsOfDigits(c);
      DigitsDash(b, c);
    }
    assert Digits(a + "-" + bc) == a + (b + c) by {
      DigitsOfDigits(a);
      DigitsDash(a, bc);
    }
    SplitAtDashes(s);
  }

  /** A value of the CNIC's length with dashes in both places is its three
      groups joined by dashes. */
  lemma SplitAtDashes(s: string)
    requires |s| == 15 && s[5] == '-' && s[13] == '-'
    ensures s == s[..5] + "-" + (s[6..13] + "-" + s[14..])
  {
    var bc := s[6..13] + "-" + s[14..];
    assert s[6..] == bc;
    assert s == s[..5] + [s[5]] + s[6..];
  }

  /** A well-formed CNIC in ASCII digits is left exactly as it is by the
      formatter. */
  lemma {:induction false} FormatFixesFormatted(s: string)
    requires Formatted(s)
    ensures Format(s) == s
  {
    DigitsOfFormatted(s);
    var d := s[..5] + s[6..13] + s[14..];
    assert d[..5] == s[..5] && d[5..12] == s[6..13] && d[12..13] == s[14..];
    assert s == s[..5] + "-" + s[6..13] + "-" + s[14..];
  }
}

=== FILE: domain.dfy ===
/** The records of the server's database, held as immutable sequences, and the
    enumerations the models declare.

    `user_type` is a free `CharField` with choices, which the database does not
    enforce, so `UserType` keeps an `Unlisted` case for any other stored value;
    several views branch on it explicitly. */
module Domain {

  datatype Option<+T> = None | Some(value: T)

  datatype UserType = Citizen | Lawyer | Admin | Unlisted(code: string)

  function UserTypeCode(t: UserType): string {
    match t
    case Citizen => "citizen"
    case Lawyer => "lawyer"
    case Admin => "admin"
    case Unlisted(c) => c
  }

  /** A user type as read from the database: an `Unlisted` value never holds
      one of the three listed codes. */
  predicate Canonical(t: UserType) {
    t.Unlisted? ==> t.code != "citizen" && t.code != "lawyer" && t.code != "admin"
  }

  function ParseUserType(s: string): (t: UserType)
    ensures t.Unlisted? <==> s != "citizen" && s != "lawyer" && s != "admin"
    ensures Canonical(t)
  {
    if s == "citizen" then Citizen
    else if s == "lawyer" then Lawyer
    else if s == "admin" then Admin
    else Unlisted(s)
  }

  /** Stored codes and parsed user types determine each other. */
  lemma UserTypeRoundTrip(s: string, t: UserType)
    ensures UserTypeCode(ParseUserType(s)) == s
    ensures Canonical(t) ==> ParseUserType(UserTypeCode(t)) == t
  {
  }

  /** The five statuses of a case request; `Pending` is the default. */
  datatype RequestStatus = Pending | Accepted | Rejected | InProgress | Completed

  const DefaultRequestStatus: RequestStatus := Pending

  function StatusCode(s: RequestStatus): string {
    match s
    case Pending => "pending"
    case Accepted => "accepted"
    case Rejected => "rejected"
    case InProgress => "in_progress"
    case Completed => "completed"
  }

  function ParseStatus(code: string): (r: Option<RequestStatus>)
    ensures r.Some? <==> code in {"pending", "accepted", "rejected", "in_progress", "completed"}
  {
    if code == "pending" then Some(Pending)
    else if code == "accepted" then Some(Accepted)
    else if code == "rejected" then Some(Rejected)
    else if code == "in_progress" then Some(InProgress)
    else if code == "completed" then Some(Completed)
    else None
  }

  lemma StatusRoundTrip(s: RequestStatus, code: string)
    ensures ParseStatus(StatusCode(s)) == Some(s)
    ensures ParseStatus(code).Some? ==> StatusCode(ParseStatus(code).value) == code
  {
  }

  /** The lifecycle a request is meant to follow: a pending request is
      accepted or rejected, an accepted one is started, a started one is
      completed. */
  predicate Follows(from: RequestStatus, to: RequestStatus) {
    || (from == Pending && (to == Accepted || to == Rejected))
    || (from == Accepted && to == InProgress)
    || (from == InProgress && to == Completed)
  }

  datatype Urgency = Low | Medium | High | Urgent

  const DefaultUrgency: Urgency := Medium

  function UrgencyCode(u: Urgency): string {
    match u
    case Low => "low"
    case Medium => "medium"
    case High => "high"
    case Urgent => "urgent"
  }

  datatype CaseStatus = Active | Closed | PendingCase

  const DefaultCaseStatus: CaseStatus := Active

  datatype User = User(
    id: nat,
    username: string,
    firstName: string,
    lastName: string,
    userType: UserType)

  datatype CitizenProfile = CitizenProfile(
    id: nat,
    userId: nat,
    address: string,
    city: string,
    cnic: string)

  datatype LawyerProfile = LawyerProfile(
    id: nat,
    userId: nat,
    barCouncilNumber: string,
    city: string,
    cnic: Option<string>,
    address: Option<string>,
    isVerified: bool,
    verificationDate: Option<int>,
    verifiedBy: Option<nat>,
    profilePicture: Option<string>)

  datatype AdminProfile = AdminProfile(id: nat, userId: nat, employeeId: string)

  datatype Specialty = Specialty(id: nat, name: string)

  /** One row of the lawyer/specialty link table. */
  datatype SpecialtyLink = SpecialtyLink(lawyer: nat, specialty: nat)

  datatype CaseRequest = CaseRequest(
    id: nat,
    requester: nat,   // citizen profile id
    lawyer: nat,      // lawyer profile id
    caseTitle: string,
    caseType: string,
    description: string,
    urgency: Urgency,
    status: RequestStatus,
    requestDate: int,
    responseMessage: string,
    responseDate: Option<int>,
    lastViewedAt: Option<int>)

  datatype Case = Case(
    id: nat,
    citizen: nat,
    lawyer: nat,
    caseRequest: Option<nat>,
    title: string,
    description: string,
    caseNumber: string,
    filingDate: int,
    status: CaseStatus)

  datatype Hearing = Hearing(
    id: nat,
    caseId: nat,
    title: string,
    hearingDate: int,
    location: string,
    notes: string,
    nextDate: Option<int>,
    createdAt: int)

  datatype CaseUpdate = CaseUpdate(
    id: nat,
    caseId: nat,
    title: string,
    description: string,
    createdBy: nat,
    createdAt: int)

  datatype Message = Message(
    id: nat,
    caseRequest: nat,
    sender: nat,      // user id
    content: string,
    attachment: Option<string>,
    timestamp: int,
    isRead: bool)

  datatype Article = Article(
    id: nat,
    title: string,
    articleNumber: string,
    category: nat,
    content: string,
    keywords: string)

  /** The whole database. */
  datatype Store = Store(
    users: seq<User>,
    citizens: seq<CitizenProfile>,
    lawyers: seq<LawyerProfile>,
    admins: seq<AdminProfile>,
    specialties: seq<Specialty>,
    links: seq<SpecialtyLink>,
    requests: seq<CaseRequest>,
    cases: seq<Case>,
    hearings: seq<Hearing>,
    updates: seq<CaseUpdate>,
    messages: seq<Message>,
    articles: seq<Article>)

  /** The authenticated caller of an endpoint: `request.user` together with the
      id of its profile of the matching type (`user.citizen_profile.id` for a
      citizen, `user.lawyer_profile.id` for a lawyer). */
  datatype Actor = Actor(userId: nat, userType: UserType, profileId: nat)

  /** The server's reply to one endpoint call. */
  datatype Reply<T> =
    | Ok(value: T)
    | BadRequest(error: string)       // 400
    | Forbidden(error: string)        // 403
    | NotFound(error: string)         // 404
    | ServerError                     // 500: an uncaught exception

  /** An id passed as a query parameter: absent or empty, a number, or text
      that is not a number (which the id lookup fails on). */
  datatype IdParam = Missing | Id(n: nat) | Malformed

  /** A reply together with the store after the call. */
  datatype Handled<T> = Handled(reply: Reply<T>, store: Store)

  /** The body of a 404 from a detail route. */
  const NotFoundText := "Not found."

  /** The body of a 400 for a field that fails validation. The framework
      reports each failing field with its own message; the model keeps one. */
  const InvalidFieldText := "Invalid input."

  /** The first element of `s` that satisfies `p`, as `.filter(...).first()`
      and, on a unique column, `objects.get(...)`. */
  function FindFirst<T>(s: seq<T>, p: T -> bool): (r: Option<T>)
    ensures r.Some? ==> exists k :: 0 <= k < |s| && s[k] == r.value && p(s[k]) && forall j :: 0 <= j < k ==> !p(s[j])
    ensures r.None? <==> forall i :: 0 <= i < |s| ==> !p(s[i])
  {
    if |s| == 0 then None
    else if p(s[0]) then Some(s[0])
    else
      var r := FindFirst(s[1..], p);
      assert r.Some? ==> exists k :: 0 <= k < |s| && s[k] == r.value && p(s[k]) && forall j :: 0 <= j < k ==> !p(s[j]) by {
        if r.Some? {
          var k :| 0 <= k < |s[1..]| && s[1..][k] == r.value && p(s[1..][k]) && forall j :: 0 <= j < k ==> !p(s[1..][j]);
          assert forall j :: 0 <= j < k + 1 ==> !p(s[j]) by {
            forall j | 0 <= j < k + 1 ensures !p(s[j]) {
              if j > 0 { assert s[j] == s[1..][j - 1]; }
            }
          }
        }
      }
      r
  }

  /** The stored user with the given id. */
  function FindUser(us: seq<User>, id: nat): (r: Option<User>)
    ensures r.Some? ==> r.value in us && r.value.id == id
    ensures r.None? ==> forall i :: 0 <= i < |us| ==> us[i].id != id
  {
    FindFirst(us, (u: User) => u.id == id)
  }

  /** The first stored request with the given id, as `objects.get(id=...)`. */
  function FindRequest(rs: seq<CaseRequest>, id: nat): (r: Option<CaseRequest>)
    ensures r.Some? ==> r.value in rs && r.value.id == id
    ensures r.None? ==> forall i :: 0 <= i < |rs| ==> rs[i].id != id
  {
    FindFirst(rs, (x: CaseRequest) => x.id == id)
  }

  function FindLawyer(ls: seq<LawyerProfile>, id: nat): (r: Option<LawyerProfile>)
    ensures r.Some? ==> r.value in ls && r.value.id == id
    ensures r.None? ==> forall i :: 0 <= i < |ls| ==> ls[i].id != id
  {
    FindFirst(ls, (l: LawyerProfile) => l.id == id)
  }

  function FindCitizen(cs: seq<CitizenProfile>, id: nat): (r: Option<CitizenProfile>)
    ensures r.Some? ==> r.value in cs && r.value.id == id
    ensures r.None? ==> forall i :: 0 <= i < |cs| ==> cs[i].id != id
  {
    FindFirst(cs, (c: CitizenProfile) => c.id == id)
  }

  /** A user's citizen profile, as the reverse one-to-one accessor
      `user.citizen_profile` finds it: the first row linked to the user. */
  function CitizenOfUser(cs: seq<CitizenProfile>, userId: nat): (r: Option<CitizenProfile>)
    ensures r.Some? ==> exists k :: 0 <= k < |cs| && cs[k] == r.value && r.value.userId == userId && forall j :: 0 <= j < k ==> cs[j].userId != userId
    ensures r.None? <==> forall i :: 0 <= i < |cs| ==> cs[i].userId != userId
  {
    FindFirst(cs, (c: CitizenProfile) => c.userId == userId)
  }

  /** A user's lawyer profile, as `user.lawyer_profile`. */
  function LawyerOfUser(ls: seq<LawyerProfile>, userId: nat): (r: Option<LawyerProfile>)
    ensures r.Some? ==> exists k :: 0 <= k < |ls| && ls[k] == r.value && r.value.userId == userId && forall j :: 0 <= j < k ==> ls[j].userId != userId
    ensures r.None? <==> forall i :: 0 <= i < |ls| ==> ls[i].userId != userId
  {
    FindFirst(ls, (l: LawyerProfile) => l.userId == userId)
  }

  /** A user's administrator profile, as `user.admin_profile`. */
  function AdminOfUser(as_: seq<AdminProfile>, userId: nat): (r: Option<AdminProfile>)
    ensures r.Some? ==> exists k :: 0 <= k < |as_| && as_[k] == r.value && r.value.userId == userId && forall j :: 0 <= j < k ==> as_[j].userId != userId
    ensures r.None? <==> forall i :: 0 <= i < |as_| ==> as_[i].userId != userId
  {
    FindFirst(as_, (p: AdminProfile) => p.userId == userId)
  }

  /** The first case linked to a request, as `Case.objects.filter(case_request=obj).first()`. */
  function FindCaseOf(cs: seq<Case>, requestId: nat): (r: Option<Case>)
    ensures r.Some? ==> r.value in cs && r.value.caseRequest == Some(requestId)
    ensures r.None? ==> forall i :: 0 <= i < |cs| ==> cs[i].caseRequest != Some(requestId)
  {
    FindFirst(cs, (c: Case) => c.caseRequest == Some(requestId))
  }
}

=== FILE: guards.dfy ===
/** Client-side access decisions: the route guard that wraps protected pages,
    and the dashboard page's choice of screen by role. */
module Guards {
  import opened Domain
  import opened AuthContext

  /** What a guarded route shows. */
  datatype View = LoadingPlaceholder | RedirectTo(path: string) | Render

  const DashboardPath := "/dashboard"

  /** The route guard. `allowedRoles` is `None` when the route names no
      roles; a present list, even an empty one, is checked. */
  function Guard(auth: AuthState, allowedRoles: Option<seq<string>>): (v: View)
    ensures v == LoadingPlaceholder <==> auth.loading
    ensures v == Render <==>
      !auth.loading && IsAuthenticated(auth)
      && (allowedRoles.None? || UserTypeCode(auth.user.value.userType) in allowedRoles.value)
    ensures v == RedirectTo("/login") <==> !auth.loading && !IsAuthenticated(auth)
    ensures v.RedirectTo? ==> v.path == "/login" || v.path == DashboardPath
  {
    if auth.loading then LoadingPlaceholder
    else if !IsAuthenticated(auth) then RedirectTo("/login")
    else if allowedRoles.Some? && UserTypeCode(auth.user.value.userType) !in allowedRoles.value then RedirectTo(DashboardPath)
    else Render
  }

  /** The admin-only route admits exactly the settled, signed-in administrators. */
  lemma AdminRouteAdmitsOnlyAdmins(auth: AuthState)
    requires auth.user.Some? ==> Canonical(auth.user.value.userType)
    ensures Guard(auth, Some(["admin"])) == Render <==> !auth.loading && IsAdmin(auth)
  {
  }

  /** A route with no role list only asks for a signed-in user; a route with
      an empty role list turns every signed-in user away to the dashboard. */
  lemma GuardRoleListCases(auth: AuthState)
    requires !auth.loading && IsAuthenticated(auth)
    ensures Guard(auth, None) == Render
    ensures Guard(auth, Some([])) == RedirectTo(DashboardPath)
  {
  }

  /** The screen the dashboard page shows. */
  datatype Screen =
    | ToLogin               // redirect to /login
    | CitizenHome           // the citizen dashboard
    | VerificationPending   // a lawyer whose profile is not verified
    | LawyerHome            // the lawyer dashboard
    | ToAdmin               // redirect to /admin/dashboard
    | Welcome               // any other account

  /** `!user?.profile?.is_verified`: a missing profile or flag counts as not verified. */
  predicate ProfileVerified(u: UserInfo) {
    u.profile.Some? && u.profile.value.isVerified == Some(true)
  }

  function Dashboard(auth: AuthState): (sc: Screen)
    ensures sc == ToLogin <==> !IsAuthenticated(auth)
    ensures sc == CitizenHome <==> IsCitizen(auth)
    ensures sc == LawyerHome <==> IsLawyer(auth) && ProfileVerified(auth.user.value)
    ensures sc == VerificationPending <==> IsLawyer(auth) && !ProfileVerified(auth.user.value)
    ensures sc == ToAdmin <==> IsAdmin(auth)
    ensures sc == Welcome <==> IsAuthenticated(auth) && auth.user.value.userType.Unlisted?
  {
    if !IsAuthenticated(auth) then ToLogin
    else if IsCitizen(auth) then CitizenHome
    else if IsLawyer(auth) then
      if !ProfileVerified(auth.user.value) then VerificationPending else LawyerHome
    else if IsAdmin(auth) then ToAdmin
    else Welcome
  }

  /** The lawyer dashboard is reached only by a verified lawyer; verification
      alone decides between it and the pending screen. */
  lemma LawyerDashboardNeedsVerification(auth: AuthState, p: Profile)
    requires IsLawyer(auth)
    ensures Dashboard(auth.(user := Some(auth.user.value.(profile := Some(p))))) ==
      (if p.isVerified == Some(true) then LawyerHome else VerificationPending)
  {
  }
}

=== FILE: knowledge_base.dfy ===
/** The legal knowledge base's article endpoints: the list with its
    `search` and `category` query parameters, and the `search` action with
    `q` and `category`. Both match the term case-insensitively against an
    article's title, number, keywords and content, keep one category when
    asked to, and return the articles ordered by article number (the model's
    default ordering). */
module KnowledgeBase {
  import opened Domain
  import Seqs
  import Sorting
  import Text

  /** The term occurs, ignoring case, in one of the four searched fields. */
  predicate MatchesTerm(x: Article, term: string) {
    || Text.IContains(x.title, term)
    || Text.IContains(x.articleNumber, term)
    || Text.IContains(x.keywords, term)
    || Text.IContains(x.content, term)
  }

  /** Both filters: an empty term filters nothing, a missing category
      filters nothing. */
  predicate Selected(x: Article, term: string, category: IdParam)
    requires !category.Malformed?
  {
    (term == "" || MatchesTerm(x, term)) && (category.Id? ==> x.category == category.n)
  }

  predicate ByNumber(a: Article, b: Article) {
    Sorting.StrLe(a.articleNumber, b.articleNumber)
  }

  /** `ordering = ['article_number']`. */
  function InOrder(xs: seq<Article>): (r: seq<Article>)
    ensures Sorting.Sorted(r, ByNumber)
    ensures |r| == |xs| && multiset(r) == multiset(xs)
    ensures forall x :: x in r <==> x in xs
  {
    assert Sorting.Total(ByNumber) by {
      forall a: Article, b: Article ensures ByNumber(a, b) || ByNumber(b, a) {
        Sorting.StrLeTotal(a.articleNumber, b.articleNumber);
      }
    }
    var r := Sorting.Sort(xs, ByNumber);
    assert forall x :: x in r <==> x in xs by {
      forall x ensures x in r <==> x in xs { Sorting.SortSameElements(xs, ByNumber, x); }
    }
    r
  }

  /** The selected articles, ordered by number. */
  function Query(st: Store, term: string, category: IdParam): (r: seq<Article>)
    requires !category.Malformed?
    ensures Sorting.Sorted(r, ByNumber)
    ensures forall x :: x in r <==> x in st.articles && Selected(x, term, category)
    ensures forall x :: multiset(r)[x] == if Selected(x, term, category) then multiset(st.articles)[x] else 0
  {
    var p := (x: Article) => Selected(x, term, category);
    Seqs.FilterMultiplicity(st.articles, p);
    InOrder(Seqs.Filter(st.articles, p))
  }

  /** `LegalArticleViewSet.get_queryset`: `search` is the term (empty when
      absent); a category id that is not a number fails the lookup. */
  function List(st: Store, search: string, category: IdParam): (r: Reply<seq<Article>>)
    ensures r.ServerError? <==> category.Malformed?
    ensures !r.ServerError? ==> r.Ok?
    ensures r.Ok? ==> Sorting.Sorted(r.value, ByNumber)
    ensures r.Ok? ==> forall x :: x in r.value <==> x in st.articles && Selected(x, search, category)
    ensures r.Ok? ==> forall x :: multiset(r.value)[x] == if Selected(x, search, category) then multiset(st.articles)[x] else 0
  {
    if category.Malformed? then ServerError else Ok(Query(st, search, category))
  }

  datatype SearchResult = SearchResult(count: nat, results: seq<Article>)

  /** `search`: the same filters under the parameter name `q`, with the
      number of results alongside them. */
  function Search(st: Store, q: string, category: IdParam): (r: Reply<SearchResult>)
    ensures r.ServerError? <==> category.Malformed?
    ensures !r.ServerError? ==> r.Ok?
    ensures r.Ok? ==> r.value.count == |r.value.results|
    ensures r.Ok? ==> forall x :: x in r.value.results <==> x in st.articles && Selected(x, q, category)
    ensures r.Ok? ==> forall x :: multiset(r.value.results)[x] == if Selected(x, q, category) then multiset(st.articles)[x] else 0
    ensures r.Ok? ==> r.value.count == Seqs.Count(st.articles, (x: Article) => Selected(x, q, category))
  {
    if category.Malformed? then ServerError
    else
      var xs := Query(st, q, category);
      Ok(SearchResult(|xs|, xs))
  }

  /** The two endpoints agree: `search` returns what the list returns for
      the same term and category. */
  lemma SearchAgreesWithList(st: Store, term: string, category: IdParam)
    requires !category.Malformed?
    ensures Search(st, term, category).value.results == List(st, term, category).value
  {
  }

  /** Without a term or a category every article is returned, each as often
      as it is stored. */
  lemma {:induction false} NoFilterReturnsAll(st: Store)
    ensures multiset(List(st, "", Missing).value) == multiset(st.articles)
  {
    Seqs.FilterAll(st.articles, (x: Article) => Selected(x, "", Missing));
  }

  /** The term is matched ignoring case: terms that lower-case alike give
      the same results. */
  lemma {:induction false} SearchIgnoresCase(st: Store, term: string, term': string, category: IdParam)
    requires Text.Lower(term) == Text.Lower(term')
    requires !category.Malformed?
    ensures List(st, term, category) == List(st, term', category)
  {
    assert |term| == |Text.Lower(term)| == |term'|;
    Seqs.FilterCongruent(st.articles, (x: Article) => Selected(x, term, category), (x: Article) => Selected(x, term', category));
  }

  /** Adding a category narrows the results of a term search. */
  lemma CategoryNarrows(st: Store, term: string, c: nat)
    ensures forall x :: x in List(st, term, Id(c)).value ==> x in List(st, term, Missing).value && x.category == c
  {
  }
}

=== FILE: lawyer_dashboard.dfy ===
/** The lawyer's dashboard: the tabs (pending first), the buttons each
    request offers, and the dialog that sends an accept, reject, start or
    complete call. */
module LawyerDashboard {
  import opened Domain
  import opened RequestList
  import Text

  const InitialFilter := "pending"

  /** The filter behind each tab, by tab index. */
  const Tabs: seq<string> := ["pending", "accepted", "in_progress", "completed", "all"]

  datatype Button =
    | ActionButton(action: string)   // opens the action dialog
    | MessageButton(path: string)
    | DetailsButton(path: string)

  function MessagesPath(id: nat): string {
    "/messages/" + Text.NatToDec(id)
  }

  function DetailsPath(id: nat): string {
    "/case-details/" + Text.NatToDec(id)
  }

  /** The buttons under a request: accept and reject while pending; start
      and Message once accepted; View Details, complete and Message while in
      progress; nothing otherwise. */
  function Buttons(r: RequestView): (bs: seq<Button>)
    ensures r.status !in {"pending", "accepted", "in_progress"} ==> bs == []
    ensures MessageButton(MessagesPath(r.id)) in bs <==> r.status in {"accepted", "in_progress"}
    ensures DetailsButton(DetailsPath(r.id)) in bs <==> r.status == "in_progress"
  {
    match r.status
    case "pending" => [ActionButton("accept"), ActionButton("reject")]
    case "accepted" => [ActionButton("start_progress"), MessageButton(MessagesPath(r.id))]
    case "in_progress" => [DetailsButton(DetailsPath(r.id)), ActionButton("complete"), MessageButton(MessagesPath(r.id))]
    case _ => []
  }

  /** The status the server stores after each action. */
  function ActionTarget(action: string): Option<RequestStatus> {
    match action
    case "accept" => Some(Accepted)
    case "reject" => Some(Rejected)
    case "start_progress" => Some(InProgress)
    case "complete" => Some(Completed)
    case _ => None
  }

  /** Every action the dashboard offers moves its request one step along the
      lifecycle; the server does not check this itself. */
  lemma ButtonsFollowLifecycle(r: RequestView, b: Button)
    requires b in Buttons(r) && b.ActionButton?
    ensures ParseStatus(r.status).Some? && ActionTarget(b.action).Some?
    ensures Follows(ParseStatus(r.status).value, ActionTarget(b.action).value)
  {
  }

  /** The dashboard opens on the first tab, and that tab's filter is the
      initial one; there is no tab for rejected requests. */
  lemma FirstTabIsInitialFilter()
    ensures Tabs[0] == InitialFilter
    ensures "rejected" !in Tabs && "all" in Tabs
  {
    assert Tabs[4] == "all";
  }

  /** Rejected requests appear under no tab but 'all'. */
  lemma RejectedOnlyUnderAll(rs: seq<RequestView>, tab: nat, i: nat)
    requires tab < |Tabs| && i < |Visible(rs, Tabs[tab])|
    requires Visible(rs, Tabs[tab])[i].status == "rejected"
    ensures Tabs[tab] == "all"
  {
  }

  /** The action dialog: which request and which action it is for. */
  datatype Dialog = Dialog(open: bool, request: Option<RequestView>, action: Option<string>)

  const ClosedDialog: Dialog := Dialog(false, None, None)

  /** The dialog together with the response message typed into it. */
  datatype DialogState = DialogState(dialog: Dialog, responseMessage: string)

  /** `handleOpenDialog`: the dialog opens for that request and action, and
      any message typed before is cleared. */
  function OpenDialog(s: DialogState, r: RequestView, action: string): (o: DialogState)
    ensures o.dialog.open && o.dialog.request == Some(r) && o.dialog.action == Some(action)
    ensures o.responseMessage == ""
  {
    DialogState(Dialog(true, Some(r), Some(action)), "")
  }

  /** `handleCloseDialog`: whatever was open, the dialog is closed with no
      request and no action, and the message is cleared. */
  function CloseDialog(s: DialogState): (c: DialogState)
    ensures !c.dialog.open && c.dialog.request.None? && c.dialog.action.None?
    ensures c.responseMessage == ""
    ensures Attempted(c.dialog, c.responseMessage).NoCall?
  {
    DialogState(ClosedDialog, "")
  }

  /** Closing forgets everything the dialog held: closing an opened dialog
      gives the state the dashboard starts in, and a dialog opened with a
      known action calls the server for the request it was opened for. */
  lemma {:induction false} CloseForgetsDialog(s: DialogState, r: RequestView, action: string, message: string)
    ensures CloseDialog(OpenDialog(s, r, action)) == CloseDialog(s) == DialogState(ClosedDialog, "")
    ensures ActionTarget(action).Some? ==> Attempted(OpenDialog(s, r, action).dialog, message).Calls?
    ensures Attempted(OpenDialog(s, r, action).dialog, message).Calls? ==>
      Attempted(OpenDialog(s, r, action).dialog, message).call.id == r.id
  {
  }

  /** A successful action leaves the dialog exactly as closing it does. */
  lemma {:induction false} SuccessCloses(d: Dialog, responseMessage: string, succeeds: ApiCall -> bool)
    requires HandleAction(d, responseMessage, succeeds).refetched
    ensures var r := HandleAction(d, responseMessage, succeeds);
      DialogState(r.dialog, r.responseMessage) == CloseDialog(DialogState(d, responseMessage))
  {
  }

  /** The four server calls. */
  datatype ApiCall =
    | AcceptCall(id: nat, message: string)
    | RejectCall(id: nat, message: string)
    | StartProgressCall(id: nat)
    | CompleteCall(id: nat)

  /** What `handleAction` attempts for a dialog: a call, no call for an
      unknown action, or a crash when a known action has no request. */
  datatype Attempt = Calls(call: ApiCall) | NoCall | Crash

  function Attempted(d: Dialog, responseMessage: string): (a: Attempt)
    ensures a.Calls? ==> d.request.Some? && d.action.Some? && ActionTarget(d.action.value).Some?
    ensures a.Calls? && a.call.AcceptCall? ==> a.call.message == (if responseMessage != "" then responseMessage else "Request accepted")
    ensures a.Calls? && a.call.RejectCall? ==> a.call.message == (if responseMessage != "" then responseMessage else "Request rejected")
    ensures a.Calls? ==> a.call.id == d.request.value.id
    ensures a.Crash? <==> d.request.None? && d.action.Some? && ActionTarget(d.action.value).Some?
  {
    var known := d.action.Some? && ActionTarget(d.action.value).Some?;
    if !known then NoCall
    else if d.request.None? then Crash
    else
      var id := d.request.value.id;
      match d.action.value
      case "accept" => Calls(AcceptCall(id, if responseMessage != "" then responseMessage else "Request accepted"))
      case "reject" => Calls(RejectCall(id, if responseMessage != "" then responseMessage else "Request rejected"))
      case "start_progress" => Calls(StartProgressCall(id))
      case _ => Calls(CompleteCall(id))
  }

  /** The call matches the dialog's action. */
  lemma AttemptMatchesAction(d: Dialog, responseMessage: string)
    requires d.request.Some? && d.action.Some?
    ensures var a := Attempted(d, responseMessage);
      && (d.action.value == "accept" <==> a.Calls? && a.call.AcceptCall?)
      && (d.action.value == "reject" <==> a.Calls? && a.call.RejectCall?)
      && (d.action.value == "start_progress" <==> a.Calls? && a.call.StartProgressCall?)
      && (d.action.value == "complete" <==> a.Calls? && a.call.CompleteCall?)
  {
  }

  /** Accept and reject always send a non-empty message. */
  lemma ResponseMessageNeverEmpty(d: Dialog, responseMessage: string)
    ensures var a := Attempted(d, responseMessage);
      a.Calls? && (a.call.AcceptCall? || a.call.RejectCall?) ==> a.call.message != ""
  {
  }

  datatype Alert = Alert(message: string, severity: string)

  function SuccessAlert(c: ApiCall): Alert {
    match c
    case AcceptCall(_, _) => Alert("Case request accepted successfully", "success")
    case RejectCall(_, _) => Alert("Case request rejected", "info")
    case StartProgressCall(_) => Alert("Case marked as in progress", "success")
    case CompleteCall(_) => Alert("Case marked as completed", "success")
  }

  const FailureAlert := Alert("Failed to update case request", "error")

  /** The dashboard after `handleAction`. */
  datatype AfterAction = AfterAction(dialog: Dialog, responseMessage: string, alert: Option<Alert>, refetched: bool)

  /** `handleAction`, with `succeeds` the fate of the server call. A call
      that succeeds, and a dialog with no known action, close the dialog and
      reload the list; a failed call or a crash keeps the dialog open and
      shows the failure alert. */
  function HandleAction(d: Dialog, responseMessage: string, succeeds: ApiCall -> bool): (r: AfterAction)
    ensures r.refetched <==> r.dialog == ClosedDialog
    ensures r.refetched ==> r.responseMessage == ""
    ensures !r.refetched ==> r.dialog == d && r.responseMessage == responseMessage && r.alert == Some(FailureAlert)
    ensures var a := Attempted(d, responseMessage);
      r.refetched <==> a.NoCall? || (a.Calls? && succeeds(a.call))
    ensures var a := Attempted(d, responseMessage);
      a.Calls? && succeeds(a.call) ==> r.alert == Some(SuccessAlert(a.call))
  {
    match Attempted(d, responseMessage)
    case NoCall => AfterAction(ClosedDialog, "", None, true)
    case Crash => AfterAction(d, responseMessage, Some(FailureAlert), false)
    case Calls(c) =>
      if succeeds(c) then AfterAction(ClosedDialog, "", Some(SuccessAlert(c)), true)
      else AfterAction(d, responseMessage, Some(FailureAlert), false)
  }
}

=== FILE: lawyer_views.dfy ===
/** The lawyer directory endpoints: the public list of verified lawyers with
    its city and specialty filters, and the administrator's unverified list,
    verification, rejection, and the per-city statistics. Result order is
    left to the database by these queries; the model keeps table order. */
module LawyerViews {
  import opened Domain
  import Seqs
  import Text
  import UserModels

  /** A profile linked to the specialty with id `s`. */
  predicate HasSpecialty(st: Store, l: LawyerProfile, s: nat) {
    SpecialtyLink(l.id, s) in st.links
  }

  /** The public list's condition: verified, in a city whose name contains
      `city` ignoring case when a city was given (non-empty), and linked to
      the given specialty when one was given. */
  predicate Listed(st: Store, l: LawyerProfile, city: string, specialty: IdParam)
    requires !specialty.Malformed?
  {
    && l.isVerified
    && (city == "" || Text.IContains(l.city, city))
    && (specialty.Id? ==> HasSpecialty(st, l, specialty.n))
  }

  /** `LawyerViewSet.get_queryset`: a specialty id that is not a number
      fails the lookup. */
  function List(st: Store, city: string, specialty: IdParam): (r: Reply<seq<LawyerProfile>>)
    ensures r.ServerError? <==> specialty.Malformed?
    ensures !r.ServerError? ==> r.Ok?
    ensures r.Ok? ==> forall l :: l in r.value <==> l in st.lawyers && Listed(st, l, city, specialty)
    ensures r.Ok? ==> Seqs.IsSubsequence(r.value, st.lawyers)
  {
    if specialty.Malformed? then ServerError
    else Ok(Seqs.Filter(st.lawyers, (l: LawyerProfile) => Listed(st, l, city, specialty)))
  }

  /** The city filter ignores case: two terms that lower-case alike select
      the same lawyers. */
  lemma {:induction false} ListIgnoresCase(st: Store, city: string, city': string, specialty: IdParam)
    requires Text.Lower(city) == Text.Lower(city')
    ensures List(st, city, specialty) == List(st, city', specialty)
  {
    if !specialty.Malformed? {
      assert |city| == |Text.Lower(city)| == |city'|;
      forall l ensures Listed(st, l, city, specialty) == Listed(st, l, city', specialty) {
      }
      Seqs.FilterCongruent(st.lawyers, (l: LawyerProfile) => Listed(st, l, city, specialty),
        (l: LawyerProfile) => Listed(st, l, city', specialty));
    }
  }

  const NotAdminText := "Unauthorized"
  const VerifyRefusal := "Only admins can verify lawyers"
  const RejectRefusal := "Only admins can reject lawyers"
  const LawyerNotFoundText := "Lawyer not found"
  const NoReasonText := "Not specified"

  /** `unverified`: administrators only; exactly the unverified profiles. */
  function Unverified(st: Store, a: Actor): (r: Reply<seq<LawyerProfile>>)
    ensures r.Forbidden? <==> a.userType != Admin
    ensures r.Forbidden? ==> r.error == NotAdminText
    ensures !r.Forbidden? ==> r.Ok?
    ensures r.Ok? ==> forall l :: l in r.value <==> l in st.lawyers && !l.isVerified
    ensures r.Ok? ==> Seqs.IsSubsequence(r.value, st.lawyers)
    ensures r.Ok? ==> forall l :: multiset(r.value)[l] == if l.isVerified then 0 else multiset(st.lawyers)[l]
  {
    if a.userType != Admin then Forbidden(NotAdminText)
    else
      var p := (l: LawyerProfile) => !l.isVerified;
      Seqs.FilterMultiplicity(st.lawyers, p);
      Ok(Seqs.Filter(st.lawyers, p))
  }

  /** `User.get_full_name`: first and last name joined by a space, stripped. */
  function FullName(u: User): string {
    Text.Strip(u.firstName + " " + u.lastName)
  }

  /** The `UPDATE` of `verify`: every row with the id becomes verified, at
      `now`, by `verifier`. */
  function SetVerified(ls: seq<LawyerProfile>, pk: nat, verifier: nat, now: int): (r: seq<LawyerProfile>)
    ensures |r| == |ls|
    ensures forall i :: 0 <= i < |ls| && ls[i].id != pk ==> r[i] == ls[i]
    ensures forall i :: 0 <= i < |ls| && ls[i].id == pk ==>
      r[i] == ls[i].(isVerified := true, verificationDate := Some(now), verifiedBy := Some(verifier))
  {
    if |ls| == 0 then []
    else
      var l := ls[0];
      [if l.id == pk then l.(isVerified := true, verificationDate := Some(now), verifiedBy := Some(verifier)) else l]
      + SetVerified(ls[1..], pk, verifier, now)
  }

  /** After the update the row with id `pk` is found again: the same row,
      now verified. */
  lemma {:induction false} VerifiedRowFound(ls: seq<LawyerProfile>, pk: nat, verifier: nat, now: int)
    requires FindLawyer(ls, pk).Some?
    ensures var l := FindLawyer(SetVerified(ls, pk, verifier, now), pk);
      && l.Some? && l.value in SetVerified(ls, pk, verifier, now)
      && l.value == FindLawyer(ls, pk).value.(isVerified := true, verificationDate := Some(now), verifiedBy := Some(verifier))
  {
    var ls' := SetVerified(ls, pk, verifier, now);
    assert |ls| > 0;
    assert ls'[0].id == ls[0].id;
    if ls[0].id != pk {
      assert FindLawyer(ls, pk) == FindLawyer(ls[1..], pk);
      assert ls'[1..] == SetVerified(ls[1..], pk, verifier, now);
      assert FindLawyer(ls', pk) == FindLawyer(ls'[1..], pk);
      VerifiedRowFound(ls[1..], pk, verifier, now);
    }
  }

  datatype Verified = Verified(message: string, lawyer: LawyerProfile)

  /** `verify`: administrators only, 404 for an unknown profile; otherwise
      the profile is marked verified at `now` by the caller and returned
      with a message naming the lawyer. */
  function Verify(st: Store, a: Actor, pk: nat, now: int): (h: Handled<Verified>)
    ensures h.reply.Forbidden? <==> a.userType != Admin
    ensures h.reply.Forbidden? ==> h.reply.error == VerifyRefusal
    ensures h.reply.NotFound? <==> a.userType == Admin && FindLawyer(st.lawyers, pk).None?
    ensures h.reply.NotFound? ==> h.reply.error == LawyerNotFoundText
    ensures h.reply.Ok? <==>
      a.userType == Admin && FindLawyer(st.lawyers, pk).Some? && FindUser(st.users, FindLawyer(st.lawyers, pk).value.userId).Some?
    ensures h.reply.ServerError? <==>
      a.userType == Admin && FindLawyer(st.lawyers, pk).Some? && FindUser(st.users, FindLawyer(st.lawyers, pk).value.userId).None?
    ensures h.reply.Forbidden? || h.reply.NotFound? ==> h.store == st
    ensures !h.reply.Forbidden? && !h.reply.NotFound? ==>
      h.store == st.(lawyers := SetVerified(st.lawyers, pk, a.userId, now))
    ensures h.reply.Ok? ==>
      && h.reply.value.lawyer in h.store.lawyers
      && h.reply.value.lawyer == FindLawyer(st.lawyers, pk).value.(isVerified := true, verificationDate := Some(now), verifiedBy := Some(a.userId))
      && h.reply.value.lawyer.id == pk
      && h.reply.value.lawyer.isVerified
      && h.reply.value.lawyer.verificationDate == Some(now)
      && h.reply.value.lawyer.verifiedBy == Some(a.userId)
    ensures h.reply.Ok? ==>
      exists u :: u in st.users && u.id == h.reply.value.lawyer.userId && h.reply.value.message == "Lawyer " + FullName(u) + " verified successfully"
  {
    if a.userType != Admin then Handled(Forbidden(VerifyRefusal), st)
    else if FindLawyer(st.lawyers, pk).None? then Handled(NotFound(LawyerNotFoundText), st)
    else
      var st' := st.(lawyers := SetVerified(st.lawyers, pk, a.userId, now));
      VerifiedRowFound(st.lawyers, pk, a.userId, now);
      var l' := FindLawyer(st'.lawyers, pk).value;
      match FindUser(st.users, l'.userId)
      case None => Handled(ServerError, st')
      case Some(u) => Handled(Ok(Verified("Lawyer " + FullName(u) + " verified successfully", l')), st')
  }

  /** Once verified, a lawyer is in the public list without filters, and
      no profile with that id is left in the administrator's unverified
      list. */
  lemma {:induction false} VerifiedIsListed(st: Store, a: Actor, pk: nat, now: int)
    requires Verify(st, a, pk, now).reply.Ok?
    ensures var h := Verify(st, a, pk, now);
      && h.reply.value.lawyer in List(h.store, "", Missing).value
      && forall l :: l in Unverified(h.store, a).value ==> l.id != pk
  {
    var h := Verify(st, a, pk, now);
    var l := h.reply.value.lawyer;
    assert l in h.store.lawyers && Listed(h.store, l, "", Missing);
    NoUnverifiedLeft(st.lawyers, pk, a.userId, now);
  }

  /** No row with id `pk` is unverified after the update. */
  lemma NoUnverifiedLeft(ls: seq<LawyerProfile>, pk: nat, verifier: nat, now: int)
    ensures forall l :: l in SetVerified(ls, pk, verifier, now) && !l.isVerified ==> l.id != pk
  {
    var ls' := SetVerified(ls, pk, verifier, now);
    forall l | l in ls' && !l.isVerified ensures l.id != pk {
      var k :| 0 <= k < |ls'| && ls'[k] == l;
    }
  }

  /** `reject`: administrators only, 404 for an unknown profile; a profile
      whose user row is missing fails on `lawyer.user` with a server error
      before anything is deleted; otherwise the lawyer's whole user account
      is deleted, and the reply embeds the given reason. */
  function Reject(st: Store, a: Actor, pk: nat, reason: Option<string>): (h: Handled<string>)
    ensures h.reply.Forbidden? <==> a.userType != Admin
    ensures h.reply.Forbidden? ==> h.reply.error == RejectRefusal
    ensures h.reply.NotFound? <==> a.userType == Admin && FindLawyer(st.lawyers, pk).None?
    ensures h.reply.NotFound? ==> h.reply.error == LawyerNotFoundText
    ensures h.reply.Ok? <==>
      a.userType == Admin && FindLawyer(st.lawyers, pk).Some? && FindUser(st.users, FindLawyer(st.lawyers, pk).value.userId).Some?
    ensures h.reply.ServerError? <==>
      a.userType == Admin && FindLawyer(st.lawyers, pk).Some? && FindUser(st.users, FindLawyer(st.lawyers, pk).value.userId).None?
    ensures h.reply.Ok? || h.reply.Forbidden? || h.reply.NotFound? || h.reply.ServerError?
    ensures !h.reply.Ok? ==> h.store == st
    ensures h.reply.Ok? ==>
      && h.store == UserModels.DeleteUser(st, FindLawyer(st.lawyers, pk).value.userId)
      && h.reply.value == "Lawyer rejected. Reason: " + (if reason.Some? then reason.value else NoReasonText)
  {
    if a.userType != Admin then Handled(Forbidden(RejectRefusal), st)
    else match FindLawyer(st.lawyers, pk)
      case None => Handled(NotFound(LawyerNotFoundText), st)
      case Some(l) =>
        if FindUser(st.users, l.userId).None? then Handled(ServerError, st)
        else
          var why := if reason.Some? then reason.value else NoReasonText;
          Handled(Ok("Lawyer rejected. Reason: " + why), UserModels.DeleteUser(st, l.userId))
  }

  /** After a rejection the lawyer's profile is gone: it is in no list and a
      second verification or rejection of the same id finds nothing. */
  lemma {:induction false} RejectedIsGone(st: Store, a: Actor, pk: nat, reason: Option<string>, now: int)
    requires Reject(st, a, pk, reason).reply.Ok?
    requires forall i, j :: 0 <= i < j < |st.lawyers| ==> st.lawyers[i].id != st.lawyers[j].id
    ensures var st' := Reject(st, a, pk, reason).store;
      && FindLawyer(st'.lawyers, pk).None?
      && Verify(st', a, pk, now).reply.NotFound?
      && Reject(st', a, pk, reason).reply.NotFound?
  {
    var l := FindLawyer(st.lawyers, pk).value;
    var st' := UserModels.DeleteUser(st, l.userId);
    var kept := Seqs.Filter(st.lawyers, (p: LawyerProfile) => p.userId != l.userId);
    assert st'.lawyers == ForgetVerifierOf(kept, l.userId);
    forall i | 0 <= i < |kept| ensures kept[i].id != pk {
      var k :| 0 <= k < |st.lawyers| && st.lawyers[k] == kept[i];
      var m :| 0 <= m < |st.lawyers| && st.lawyers[m] == l;
      assert k != m;
    }
  }

  /** The lawyers left by the deletion, as `UserModels.DeleteUser` keeps
      them: ids are unchanged. */
  function ForgetVerifierOf(ls: seq<LawyerProfile>, u: nat): (r: seq<LawyerProfile>)
    ensures |r| == |ls| && forall i :: 0 <= i < |ls| ==> r[i].id == ls[i].id
  {
    UserModels.ForgetVerifier(ls, u)
  }

  datatype LawyerStats = LawyerStats(totalVerified: nat, karachi: nat, lahore: nat, islamabad: nat)

  /** Verified lawyers whose city is exactly `city`. */
  function CountIn(ls: seq<LawyerProfile>, city: string): nat {
    Seqs.Count(ls, (l: LawyerProfile) => l.isVerified && l.city == city)
  }

  function CountVerified(ls: seq<LawyerProfile>): nat {
    Seqs.Count(ls, (l: LawyerProfile) => l.isVerified)
  }

  /** The three city counts never exceed the verified total. */
  lemma {:induction false} CityCountsBounded(ls: seq<LawyerProfile>)
    ensures CountIn(ls, "Karachi") + CountIn(ls, "Lahore") + CountIn(ls, "Islamabad") <= CountVerified(ls)
  {
    if |ls| > 0 {
      CityCountsBounded(ls[1..]);
    }
  }

  /** With no filter the public list is exactly the verified profiles. */
  lemma UnfilteredListIsVerified(st: Store)
    ensures List(st, "", Missing).value == Seqs.Filter(st.lawyers, (l: LawyerProfile) => l.isVerified)
  {
    Seqs.FilterCongruent(st.lawyers, (l: LawyerProfile) => Listed(st, l, "", Missing), (l: LawyerProfile) => l.isVerified);
  }

  /** A city count is the number of rows of the unfiltered public list in
      that city. */
  lemma CityCountIsListed(st: Store, city: string)
    ensures CountIn(st.lawyers, city) == Seqs.Count(List(st, "", Missing).value, (l: LawyerProfile) => l.city == city)
  {
    UnfilteredListIsVerified(st);
    Seqs.FilterFilter(st.lawyers, (l: LawyerProfile) => l.isVerified, (l: LawyerProfile) => l.city == city,
      (l: LawyerProfile) => l.isVerified && l.city == city);
  }

  /** `stats`: public counts over verified lawyers, the city counts
      matching the city name exactly. Each figure counts the rows the
      unfiltered public list shows. */
  function Stats(st: Store): (r: LawyerStats)
    ensures r.karachi + r.lahore + r.islamabad <= r.totalVerified
    ensures r.totalVerified + Seqs.Count(st.lawyers, (l: LawyerProfile) => !l.isVerified) == |st.lawyers|
    ensures r.totalVerified == |List(st, "", Missing).value|
    ensures r.karachi == Seqs.Count(List(st, "", Missing).value, (l: LawyerProfile) => l.city == "Karachi")
    ensures r.lahore == Seqs.Count(List(st, "", Missing).value, (l: LawyerProfile) => l.city == "Lahore")
    ensures r.islamabad == Seqs.Count(List(st, "", Missing).value, (l: LawyerProfile) => l.city == "Islamabad")
  {
    CityCountsBounded(st.lawyers);
    Seqs.CountComplement(st.lawyers, (l: LawyerProfile) => l.isVerified, (l: LawyerProfile) => !l.isVerified);
    UnfilteredListIsVerified(st);
    CityCountIsListed(st, "Karachi");
    CityCountIsListed(st, "Lahore");
    CityCountIsListed(st, "Islamabad");
    LawyerStats(CountVerified(st.lawyers), CountIn(st.lawyers, "Karachi"), CountIn(st.lawyers, "Lahore"), CountIn(st.lawyers, "Islamabad"))
  }
}

=== FILE: lawyers_page.dfy ===
/** The lawyer directory's request dialog: a citizen picks a lawyer, fills in
    the case, and sends a case request. */
module LawyersPage {
  import opened Domain
  import opened Session
  import AuthContext

  /** The request form; urgency is the code the select holds. */
  datatype RequestForm = RequestForm(caseTitle: string, caseType: string, description: string, urgency: string)

  const BlankForm: RequestForm := RequestForm("", "", "", "medium")

  /** The dialog state: open or not, the lawyer it is for, the form, and the
      error and success lines. */
  datatype Dialog = Dialog(open: bool, lawyer: Option<nat>, form: RequestForm, error: string, success: string)

  const InitialDialog: Dialog := Dialog(false, None, BlankForm, "", "")

  /** The form starts at the urgency the server also defaults to. */
  lemma BlankFormUrgencyIsServerDefault()
    ensures BlankForm.urgency == UrgencyCode(DefaultUrgency)
  {
  }

  /** `openRequestDialog`: the form keeps what was typed before. */
  function Open(d: Dialog, lawyerId: nat): (r: Dialog)
    ensures r.open && r.lawyer == Some(lawyerId) && r.form == d.form && r.error == "" && r.success == ""
  {
    Dialog(true, Some(lawyerId), d.form, "", "")
  }

  /** `closeRequestDialog`: everything back to the start. */
  function Close(d: Dialog): (r: Dialog)
    ensures r == InitialDialog
  {
    InitialDialog
  }

  /** The buttons on a lawyer's card. */
  datatype CardButton = EmailButton(href: string) | CallButton(href: string) | RequestCaseButton(lawyer: nat)

  /** A lawyer card's buttons: Email and Call for every visitor, and Request
      Case, which opens the dialog for that lawyer, only for a signed-in
      citizen. */
  function CardButtons(auth: AuthContext.AuthState, lawyerId: nat, email: string, phone: string): (bs: seq<CardButton>)
    ensures EmailButton("mailto:" + email) in bs && CallButton("tel:" + phone) in bs
    ensures RequestCaseButton(lawyerId) in bs <==> AuthContext.IsCitizen(auth)
    ensures forall i :: 0 <= i < |bs| && bs[i].RequestCaseButton? ==> bs[i].lawyer == lawyerId
  {
    [EmailButton("mailto:" + email), CallButton("tel:" + phone)]
      + (if AuthContext.IsCitizen(auth) then [RequestCaseButton(lawyerId)] else [])
  }

  /** Lawyers, administrators and anonymous visitors are never offered the
      request dialog; a citizen is offered it on every card. */
  lemma {:induction false} RequestCaseOnlyForCitizens(auth: AuthContext.AuthState, lawyerId: nat, email: string, phone: string)
    ensures var bs := CardButtons(auth, lawyerId, email, phone);
      (exists i :: 0 <= i < |bs| && bs[i].RequestCaseButton?) <==> AuthContext.IsCitizen(auth)
    ensures AuthContext.IsLawyer(auth) || AuthContext.IsAdmin(auth) || !AuthContext.IsAuthenticated(auth) ==>
      forall b :: b in CardButtons(auth, lawyerId, email, phone) ==> !b.RequestCaseButton?
  {
    var bs := CardButtons(auth, lawyerId, email, phone);
    AuthContext.RoleFlagsExclusive(auth);
    if AuthContext.IsCitizen(auth) {
      assert bs[2].RequestCaseButton?;
    }
  }

  /** The body of the create call: the form plus the lawyer's id. */
  datatype Payload = Payload(caseTitle: string, caseType: string, description: string, urgency: string, lawyer: nat)

  /** What submitting does before any server call. */
  datatype Submission = Incomplete | NoLawyer | Send(payload: Payload)

  /** `handleSubmitRequest` up to the call: an empty title, type or
      description stops it; a dialog without a lawyer fails inside the
      request block (the lawyer's id is read there). */
  function Submit(d: Dialog): (s: Submission)
    ensures s.Incomplete? <==> d.form.caseTitle == "" || d.form.caseType == "" || d.form.description == ""
    ensures s.Send? ==> d.lawyer.Some? && s.payload == Payload(d.form.caseTitle, d.form.caseType, d.form.description, d.form.urgency, d.lawyer.value)
    ensures s.NoLawyer? <==> !s.Incomplete? && d.lawyer.None?
  {
    if d.form.caseTitle == "" || d.form.caseType == "" || d.form.description == "" then Incomplete
    else if d.lawyer.None? then NoLawyer
    else Send(Payload(d.form.caseTitle, d.form.caseType, d.form.description, d.form.urgency, d.lawyer.value))
  }

  /** `error.response?.data?.error`, when the rejected call had a response. */
  function ErrorField(f: Failure<Json>): Option<string> {
    match f
    case HttpError(Response(_, data)) => if "error" in data then Some(data["error"]) else None
    case RefreshFailed(Response(_, data)) => if "error" in data then Some(data["error"]) else None
    case _ => None
  }

  const SentText := "Case request sent successfully!"
  const IncompleteText := "Please fill in all required fields"
  const FallbackText := "Failed to send request."

  /** The dialog after submitting, given the outcome of the create call when
      one was made. */
  function AfterSubmit(d: Dialog, outcome: Outcome<Json>): (r: Dialog)
    ensures Submit(d).Incomplete? ==> r == d.(error := IncompleteText)
    ensures Submit(d).Send? && outcome.Fulfilled? ==> r == d.(error := "", success := SentText)
    ensures Submit(d).Send? && outcome.Failed? ==>
      var e := ErrorField(outcome.failure);
      r == d.(error := if e.Some? && e.value != "" then e.value else FallbackText)
    ensures Submit(d).NoLawyer? ==> r == d.(error := FallbackText)
    ensures r.form == d.form && r.lawyer == d.lawyer && r.open == d.open
  {
    match Submit(d)
    case Incomplete => d.(error := IncompleteText)
    case NoLawyer => d.(error := FallbackText)
    case Send(_) =>
      match outcome
      case Fulfilled(_, _) => d.(error := "", success := SentText)
      case Failed(f) =>
        var e := ErrorField(f);
        d.(error := if e.Some? && e.value != "" then e.value else FallbackText)
  }

  /** A success line and an error line are never shown together after a
      submission from a clean dialog. */
  lemma SuccessExcludesError(d: Dialog, outcome: Outcome<Json>)
    requires d.success == ""
    ensures AfterSubmit(d, outcome).success != "" ==> AfterSubmit(d, outcome).error == ""
    ensures AfterSubmit(d, outcome).error != "" ==> AfterSubmit(d, outcome).success == ""
  {
  }
}

=== FILE: message_box.dfy ===
/** The conversation panel of a case request: the composer with its optional
    attachment, the message it sends, and how an attachment is named and
    linked. */
module MessageBox {
  import opened Domain
  import opened Session
  import Text

  /** The attachment limit, 10 MiB. */
  const MaxAttachmentBytes: nat := 10 * 1024 * 1024

  /** What is typed and what file is chosen. */
  datatype Composer = Composer(text: string, file: Option<FileInfo>)

  const EmptyComposer: Composer := Composer("", None)

  predicate FileInvariant(c: Composer) {
    c.file.Some? ==> c.file.value.size <= MaxAttachmentBytes
  }

  /** `handleFileSelect`: an oversized file raises an alert and the earlier
      choice stays. */
  function ChooseFile(c: Composer, file: Option<FileInfo>): (r: (Composer, Option<string>))
    ensures file.None? ==> r == (c, None)
    ensures file.Some? && file.value.size > MaxAttachmentBytes ==> r == (c, Some("File size must be less than 10MB"))
    ensures file.Some? && file.value.size <= MaxAttachmentBytes ==> r == (c.(file := file), None)
  {
    match file
    case None => (c, None)
    case Some(f) => if f.size > MaxAttachmentBytes then (c, Some("File size must be less than 10MB")) else (c.(file := file), None)
  }

  lemma ChooseFileKeepsInvariant(c: Composer, file: Option<FileInfo>)
    requires FileInvariant(c)
    ensures FileInvariant(ChooseFile(c, file).0)
  {
  }

  const FileOnlyContent := "\U{1F4CE} File attached"

  /** `handleSend` up to the call: nothing is sent when the trimmed text is
      empty and no file is chosen; otherwise the trimmed text, or a file
      notice when it is empty, with the file if one is chosen. */
  function Compose(c: Composer, caseRequest: nat): (m: Option<MessageData>)
    ensures m.None? <==> Text.Trim(c.text) == "" && c.file.None?
    ensures m.Some? ==> m.value.caseRequest == caseRequest && m.value.attachment == c.file
    ensures m.Some? ==> m.value.content == (if Text.Trim(c.text) != "" then Text.Trim(c.text) else FileOnlyContent)
  {
    if Text.Trim(c.text) == "" && c.file.None? then None
    else Some(MessageData(caseRequest, if Text.Trim(c.text) != "" then Text.Trim(c.text) else FileOnlyContent, c.file))
  }

  /** A sent message never has empty content and never starts or ends with
      white space; it goes as a multipart form exactly when a file is
      attached, and that file is within the limit. */
  lemma {:induction false} ComposedMessageWellFormed(c: Composer, caseRequest: nat)
    requires FileInvariant(c)
    requires Compose(c, caseRequest).Some?
    ensures var m := Compose(c, caseRequest).value;
      && m.content != ""
      && !Text.IsSpace(m.content[0]) && !Text.IsSpace(m.content[|m.content| - 1])
      && (EncodeMessage(m).Multipart? <==> c.file.Some?)
      && (m.attachment.Some? ==> m.attachment.value.size <= MaxAttachmentBytes)
  {
    var t := Text.Trim(c.text);
    if t != "" {
      Text.TrimEnds(c.text);
    } else {
      assert FileOnlyContent[0] == '\U{1F4CE}';
      assert FileOnlyContent[|FileOnlyContent| - 1] == 'd';
    }
  }

  /** The composer after the send call: cleared on success, kept on failure
      with an alert. */
  function AfterSend(c: Composer, succeeded: bool): (r: (Composer, Option<string>))
    ensures succeeded ==> r == (EmptyComposer, None)
    ensures !succeeded ==> r == (c, Some("Failed to send message"))
  {
    if succeeded then (EmptyComposer, None) else (c, Some("Failed to send message"))
  }

  /** `url.split('/').pop()`: the text after the last slash, or all of it
      when there is none. */
  function LastSegment(url: string): (r: string)
    ensures |r| <= |url| && r == url[|url| - |r|..]
    ensures forall i :: 0 <= i < |r| ==> r[i] != '/'
    ensures |r| < |url| ==> url[|url| - |r| - 1] == '/'
  {
    if |url| == 0 then ""
    else if url[|url| - 1] == '/' then ""
    else LastSegment(url[..|url| - 1]) + [url[|url| - 1]]
  }

  /** `getFileName`: the empty name for a missing or empty URL. */
  function FileName(url: Option<string>): string {
    if url.None? || url.value == "" then "" else LastSegment(url.value)
  }

  /** Appending a name to a directory path and taking the file name back
      gives the name. */
  lemma {:induction false} FileNameOfPath(dir: string, name: string)
    requires forall i :: 0 <= i < |name| ==> name[i] != '/'
    ensures LastSegment(dir + "/" + name) == name
  {
    var url := dir + "/" + name;
    if |name| > 0 {
      var init := name[..|name| - 1];
      assert url[..|url| - 1] == dir + "/" + init;
      FileNameOfPath(dir, init);
      assert init + [name[|name| - 1]] == name;
    } else {
      assert url[|url| - 1] == '/';
    }
  }

  const ServerOrigin := "http://localhost:8000"

  /** The link an attachment chip opens: an absolute URL as it is, a path
      prefixed with the API server's origin. */
  function AttachmentLink(url: string): (r: string)
    ensures Text.StartsWith(r, "http")
    ensures Text.StartsWith(url, "http") ==> r == url
    ensures !Text.StartsWith(url, "http") ==> r == ServerOrigin + url
  {
    if Text.StartsWith(url, "http") then url else ServerOrigin + url
  }

  lemma AttachmentLinkIdempotent(url: string)
    ensures AttachmentLink(AttachmentLink(url)) == AttachmentLink(url)
  {
  }

  datatype MessageView = MessageView(id: nat, sender: nat, content: string, attachment: Option<string>, isRead: bool)

  /** A message is drawn as the viewer's own when its sender is the viewer. */
  predicate IsOwn(m: MessageView, viewer: Option<nat>) {
    viewer.Some? && m.sender == viewer.value
  }

  /** Before the user is known no message is drawn as the viewer's own, and
      a message is drawn as its own for exactly one user: its sender. */
  lemma OwnForSenderOnly(m: MessageView, viewer: Option<nat>)
    ensures viewer.None? ==> !IsOwn(m, viewer)
    ensures IsOwn(m, Some(m.sender))
    ensures IsOwn(m, viewer) ==> viewer == Some(m.sender)
  {
  }
}

=== FILE: messaging_views.dfy ===
/** The message endpoints: which messages a caller sees, posting a message,
    reading a request's conversation (which marks the other party's messages
    read), the unread counter and the message statistics. */
module MessagingViews {
  import opened Domain
  import Seqs
  import Sorting
  import Text
  import CaseSerializers

  /** The user behind a citizen profile. */
  function CitizenUser(cs: seq<CitizenProfile>, profileId: nat): (u: Option<nat>)
    ensures u.Some? ==> exists i :: 0 <= i < |cs| && cs[i].id == profileId && cs[i].userId == u.value
  {
    match FindCitizen(cs, profileId)
    case None => None
    case Some(c) => Some(c.userId)
  }

  /** The user behind a lawyer profile. */
  function LawyerUser(ls: seq<LawyerProfile>, profileId: nat): (u: Option<nat>)
    ensures u.Some? ==> exists i :: 0 <= i < |ls| && ls[i].id == profileId && ls[i].userId == u.value
  {
    match FindLawyer(ls, profileId)
    case None => None
    case Some(l) => Some(l.userId)
  }

  /** The caller is the request's citizen (`requester.user`). */
  predicate IsRequester(st: Store, a: Actor, r: CaseRequest) {
    CitizenUser(st.citizens, r.requester) == Some(a.userId)
  }

  /** The caller is the request's lawyer (`lawyer.user`). */
  predicate IsAddressee(st: Store, a: Actor, r: CaseRequest) {
    LawyerUser(st.lawyers, r.lawyer) == Some(a.userId)
  }

  /** The message is in the caller's `get_queryset`: for a citizen, the
      messages on requests they made; for a lawyer, on requests sent to
      them; all for an administrator; none for other accounts. */
  predicate CanSeeMessage(st: Store, a: Actor, m: Message) {
    match a.userType
    case Citizen => FindRequest(st.requests, m.caseRequest).Some? && IsRequester(st, a, FindRequest(st.requests, m.caseRequest).value)
    case Lawyer => FindRequest(st.requests, m.caseRequest).Some? && IsAddressee(st, a, FindRequest(st.requests, m.caseRequest).value)
    case Admin => true
    case Unlisted(_) => false
  }

  /** The model ordering `timestamp`: oldest first. */
  predicate OlderFirst(x: Message, y: Message) {
    x.timestamp <= y.timestamp
  }

  /** Counting over the ordered list is counting over the rows it holds. */
  lemma VisibleCount(st: Store, a: Actor, q: Message -> bool)
    ensures Seqs.Count(VisibleMessages(st, a), q) == Seqs.Count(Seqs.Filter(st.messages, (m: Message) => CanSeeMessage(st, a, m)), q)
  {
    var v := Seqs.Filter(st.messages, (m: Message) => CanSeeMessage(st, a, m));
    Seqs.CountPermutation(VisibleMessages(st, a), v, q);
  }

  function VisibleMessages(st: Store, a: Actor): (r: seq<Message>)
    ensures forall m :: m in r <==> m in st.messages && CanSeeMessage(st, a, m)
    ensures forall m :: multiset(r)[m] == if CanSeeMessage(st, a, m) then multiset(st.messages)[m] else 0
    ensures Sorting.Sorted(r, OlderFirst)
  {
    var p := (m: Message) => CanSeeMessage(st, a, m);
    var v := Seqs.Filter(st.messages, p);
    Seqs.FilterMultiplicity(st.messages, p);
    var r := Sorting.Sort(v, OlderFirst);
    assert forall m :: m in r <==> m in v by {
      forall m ensures m in r <==> m in v {
        Sorting.SortSameElements(v, OlderFirst, m);
      }
    }
    r
  }

  /** The participant test of `create` and `by_case`: a citizen must be the
      requester and a lawyer the addressee; any other account type passes. */
  predicate MayTakePart(st: Store, a: Actor, r: CaseRequest) {
    match a.userType
    case Citizen => IsRequester(st, a, r)
    case Lawyer => IsAddressee(st, a, r)
    case Admin => true
    case Unlisted(_) => true
  }

  const UnknownRequestText := "Case request not found"
  const AccessDeniedText := "Access denied"

  /** What is posted: the request id as sent (absent, a number, or text
      that is not one), the content, the stored attachment path, and
      `is_read`, which the serializer leaves writable (`None` when absent).
      Unlike the query parameter of `by_case`, an empty `case_request` here
      is `Malformed`: `create` looks it up without testing it first, and
      the lookup of an empty id fails with a server error; only an absent
      one is `Missing`. */
  datatype MessageInput = MessageInput(caseRequest: IdParam, content: string, attachment: Option<string>, isRead: Option<bool>)

  function NewMessage(a: Actor, input: MessageInput, requestId: nat, id: nat, now: int): Message {
    Message(id, requestId, a.userId, Text.Strip(input.content), input.attachment, now,
      if input.isRead.Some? then input.isRead.value else false)
  }

  /** The request a post names, when it names a stored one. */
  function Named(st: Store, input: MessageInput): Option<CaseRequest> {
    if input.caseRequest.Id? then FindRequest(st.requests, input.caseRequest.n) else None
  }

  /** `create`: an absent or unknown request is a 404 (`get(id=None)` finds
      nothing), an id that is not a number fails the lookup with a server
      error, a non-participant citizen or lawyer gets a 403, blank content a
      400; otherwise the message is stored with the caller as its sender. */
  function Create(st: Store, a: Actor, input: MessageInput, id: nat, now: int): (h: Handled<Message>)
    ensures h.reply.ServerError? <==> input.caseRequest.Malformed?
    ensures h.reply.NotFound? <==> !input.caseRequest.Malformed? && Named(st, input).None?
    ensures h.reply.NotFound? ==> h.reply.error == UnknownRequestText
    ensures h.reply.Forbidden? <==> Named(st, input).Some? && !MayTakePart(st, a, Named(st, input).value)
    ensures h.reply.Forbidden? ==> h.reply.error == AccessDeniedText
    ensures h.reply.BadRequest? <==> Named(st, input).Some? && MayTakePart(st, a, Named(st, input).value) && Text.Strip(input.content) == ""
    ensures h.reply.Ok? <==> Named(st, input).Some? && MayTakePart(st, a, Named(st, input).value) && Text.Strip(input.content) != ""
    ensures !h.reply.Ok? ==> h.store == st
    ensures h.reply.Ok? ==>
      && h.reply.value.id == id
      && h.reply.value.sender == a.userId
      && h.reply.value.caseRequest == input.caseRequest.n
      && h.reply.value.timestamp == now
      && h.reply.value.content == Text.Strip(input.content)
      && h.reply.value.attachment == input.attachment
      && h.reply.value.isRead == (input.isRead == Some(true))
      && h.store == st.(messages := st.messages + [h.reply.value])
  {
    if input.caseRequest.Malformed? then Handled(ServerError, st)
    else if Named(st, input).None? then Handled(NotFound(UnknownRequestText), st)
    else
      var r := Named(st, input).value;
      if !MayTakePart(st, a, r) then Handled(Forbidden(AccessDeniedText), st)
      else if Text.Strip(input.content) == "" then Handled(BadRequest(InvalidFieldText), st)
      else
        var m := NewMessage(a, input, r.id, id, now);
        Handled(Ok(m), st.(messages := st.messages + [m]))
  }

  /** A message posted unread by one party raises the other party's unread
      count on that request by exactly one. */
  lemma {:induction false} PostedMessageIsUnreadForOthers(st: Store, a: Actor, input: MessageInput, id: nat, now: int, other: nat, r: CaseRequest)
    requires Create(st, a, input, id, now).reply.Ok?
    requires input.isRead != Some(true) && other != a.userId && r.id == input.caseRequest.n
    ensures CaseSerializers.UnreadCount(Create(st, a, input, id, now).store, Some(other), r)
      == CaseSerializers.UnreadCount(st, Some(other), r) + 1
  {
    var m := Create(st, a, input, id, now).reply.value;
    var p := (x: Message) => CaseSerializers.UnreadFor(x, r.id, other);
    Seqs.FilterAppend(st.messages, [m], p);
    assert Seqs.Filter([m], p) == [m];
  }

  /** The messages after `by_case` as `caller`: exactly the unread
      messages of request `id` sent by someone else become read. */
  function MarkRead(ms: seq<Message>, id: nat, caller: nat): (r: seq<Message>)
    ensures |r| == |ms|
    ensures forall i :: 0 <= i < |ms| ==> r[i].(isRead := ms[i].isRead) == ms[i]
    ensures forall i :: 0 <= i < |ms| ==> (r[i].isRead <==> ms[i].isRead || (ms[i].caseRequest == id && ms[i].sender != caller))
  {
    if |ms| == 0 then []
    else
      var m := ms[0];
      [if CaseSerializers.UnreadFor(m, id, caller) then m.(isRead := true) else m] + MarkRead(ms[1..], id, caller)
  }

  /** `by_case`: a missing parameter is a 400, a malformed one a server
      error, an unknown request a 404 and a non-participant a 403;
      otherwise the other party's unread messages on the request are
      marked read and the request's messages are returned, oldest first,
      as they are after the marking. */
  function ByCase(st: Store, a: Actor, param: IdParam): (h: Handled<seq<Message>>)
    ensures h.reply.BadRequest? <==> param.Missing?
    ensures h.reply.BadRequest? ==> h.reply.error == "case_request_id parameter required"
    ensures h.reply.ServerError? <==> param.Malformed?
    ensures h.reply.NotFound? <==> param.Id? && FindRequest(st.requests, param.n).None?
    ensures h.reply.Forbidden? <==> param.Id? && FindRequest(st.requests, param.n).Some? && !MayTakePart(st, a, FindRequest(st.requests, param.n).value)
    ensures !h.reply.Ok? ==> h.store == st
    ensures h.reply.Ok? ==>
      && h.store == st.(messages := MarkRead(st.messages, param.n, a.userId))
      && Sorting.Sorted(h.reply.value, OlderFirst)
      && (forall m :: m in h.reply.value <==> m in h.store.messages && m.caseRequest == param.n)
      && (forall m :: multiset(h.reply.value)[m] == if m.caseRequest == param.n then multiset(h.store.messages)[m] else 0)
  {
    match param
    case Missing => Handled(BadRequest("case_request_id parameter required"), st)
    case Malformed => Handled(ServerError, st)
    case Id(n) =>
      if FindRequest(st.requests, n).None? then Handled(NotFound(UnknownRequestText), st)
      else if !MayTakePart(st, a, FindRequest(st.requests, n).value) then Handled(Forbidden(AccessDeniedText), st)
      else
        var st' := st.(messages := MarkRead(st.messages, n, a.userId));
        var p := (m: Message) => m.caseRequest == n;
        var of := Seqs.Filter(st'.messages, p);
        Seqs.FilterMultiplicity(st'.messages, p);
        var r := Sorting.Sort(of, OlderFirst);
        assert forall m :: m in r <==> m in of by {
          forall m ensures m in r <==> m in of {
            Sorting.SortSameElements(of, OlderFirst, m);
          }
        }
        Handled(Ok(r), st')
  }

  /** Reading a conversation touches nothing but the read flags of the other
      party's messages on that request: other requests' messages and the
      caller's own are unchanged, and afterwards the caller has nothing
      unread on that request. */
  lemma {:induction false} ByCaseMarksExactly(st: Store, a: Actor, n: nat, r: CaseRequest)
    requires ByCase(st, a, Id(n)).reply.Ok? && r.id == n
    ensures var ms' := ByCase(st, a, Id(n)).store.messages;
      && (forall i :: 0 <= i < |st.messages| && (st.messages[i].caseRequest != n || st.messages[i].sender == a.userId) ==> ms'[i] == st.messages[i])
      && (forall i :: 0 <= i < |st.messages| && CaseSerializers.UnreadFor(st.messages[i], n, a.userId) ==> ms'[i] == st.messages[i].(isRead := true))
      && CaseSerializers.UnreadCount(ByCase(st, a, Id(n)).store, Some(a.userId), r) == 0
  {
    assert ByCase(st, a, Id(n)).store == st.(messages := MarkRead(st.messages, n, a.userId));
    MarkReadMarksExactly(st, a.userId, n, r);
  }

  /** `MarkRead` as the store update of `by_case`. */
  lemma {:induction false} MarkReadMarksExactly(st: Store, caller: nat, n: nat, r: CaseRequest)
    requires r.id == n
    ensures var ms' := MarkRead(st.messages, n, caller);
      && (forall i :: 0 <= i < |st.messages| && (st.messages[i].caseRequest != n || st.messages[i].sender == caller) ==> ms'[i] == st.messages[i])
      && (forall i :: 0 <= i < |st.messages| && CaseSerializers.UnreadFor(st.messages[i], n, caller) ==> ms'[i] == st.messages[i].(isRead := true))
      && CaseSerializers.UnreadCount(st.(messages := ms'), Some(caller), r) == 0
  {
    var ms' := MarkRead(st.messages, n, caller);
    forall i | 0 <= i < |ms'|
      ensures !CaseSerializers.UnreadFor(ms'[i], n, caller)
    {
      assert ms'[i].(isRead := st.messages[i].isRead) == st.messages[i];
    }
  }

  /** Reading the same conversation again changes nothing more. */
  lemma {:induction false} ByCaseIdempotent(st: Store, a: Actor, n: nat)
    requires ByCase(st, a, Id(n)).reply.Ok?
    ensures var st' := ByCase(st, a, Id(n)).store;
      ByCase(st', a, Id(n)).store == st'
  {
    var st' := ByCase(st, a, Id(n)).store;
    var ms := st'.messages;
    var ms2 := MarkRead(ms, n, a.userId);
    assert st'.requests == st.requests && st'.citizens == st.citizens && st'.lawyers == st.lawyers;
    forall i | 0 <= i < |ms|
      ensures ms2[i] == ms[i]
    {
      assert ms2[i].(isRead := ms[i].isRead) == ms[i];
    }
    assert ms2 == ms;
  }

  /** A message of the caller's requests that is unread and from someone
      else: what `unread_count` counts. */
  predicate CountsAsUnread(st: Store, a: Actor, m: Message) {
    CanSeeMessage(st, a, m) && !m.isRead && m.sender != a.userId
  }

  /** `unread_count`: for citizens and lawyers, the unread messages from
      others on their requests; 0 for anyone else, administrators included. */
  function UnreadCount(st: Store, a: Actor): (n: nat)
    ensures !(a.userType.Citizen? || a.userType.Lawyer?) ==> n == 0
    ensures a.userType.Citizen? || a.userType.Lawyer? ==>
      n == Seqs.Count(VisibleMessages(st, a), (m: Message) => !m.isRead && m.sender != a.userId)
    ensures n <= |VisibleMessages(st, a)|
  {
    if a.userType.Citizen? || a.userType.Lawyer? then
      var q := (m: Message) => !m.isRead && m.sender != a.userId;
      VisibleCount(st, a, q);
      Seqs.FilterFilter(st.messages, (m: Message) => CanSeeMessage(st, a, m), q, (m: Message) => CountsAsUnread(st, a, m));
      Seqs.CountMonotone(st.messages, (m: Message) => CountsAsUnread(st, a, m), (m: Message) => CanSeeMessage(st, a, m));
      Seqs.Count(st.messages, (m: Message) => CountsAsUnread(st, a, m))
    else 0
  }

  lemma {:induction false} MarkReadNoNewUnread(st: Store, st': Store, a: Actor, n: nat, caller: nat, ms: seq<Message>)
    requires st' == st.(messages := MarkRead(st.messages, n, caller))
    ensures Seqs.Count(MarkRead(ms, n, caller), (m: Message) => CountsAsUnread(st', a, m))
      <= Seqs.Count(ms, (m: Message) => CountsAsUnread(st, a, m))
  {
    if |ms| > 0 {
      var after := (m: Message) => CountsAsUnread(st', a, m);
      var before := (m: Message) => CountsAsUnread(st, a, m);
      var rs := MarkRead(ms, n, caller);
      MarkReadNoNewUnread(st, st', a, n, caller, ms[1..]);
      assert rs[1..] == MarkRead(ms[1..], n, caller);
      assert rs[0].(isRead := ms[0].isRead) == ms[0];
      UnreadOnlyFalls(st, st', a, ms[0], rs[0]);
      assert Seqs.Count(rs, after) == Seqs.Count(rs[1..], after) + (if after(rs[0]) then 1 else 0);
      assert Seqs.Count(ms, before) == Seqs.Count(ms[1..], before) + (if before(ms[0]) then 1 else 0);
    }
  }

  /** A message that only gained its read flag, in a store whose other
      tables are unchanged, is unread for `a` only if it was before. */
  lemma UnreadOnlyFalls(st: Store, st': Store, a: Actor, m: Message, m': Message)
    requires st'.requests == st.requests && st'.citizens == st.citizens && st'.lawyers == st.lawyers
    requires m'.(isRead := m.isRead) == m && (m.isRead ==> m'.isRead)
    ensures CountsAsUnread(st', a, m') ==> CountsAsUnread(st, a, m)
  {
  }

  /** Reading a conversation never raises anyone's unread counter. */
  lemma ByCaseNeverRaisesUnread(st: Store, caller: Actor, n: nat, a: Actor)
    requires ByCase(st, caller, Id(n)).reply.Ok?
    ensures UnreadCount(ByCase(st, caller, Id(n)).store, a) <= UnreadCount(st, a)
  {
    var st' := ByCase(st, caller, Id(n)).store;
    MarkReadNoNewUnread(st, st', a, n, caller.userId, st.messages);
  }

  datatype MessageStats = MessageStats(total: nat, unread: nat, sent: nat, received: nat)

  /** `stats`: over the caller's messages (as for the list, but
      administrators and other accounts get zeros). */
  function Stats(st: Store, a: Actor): (s: MessageStats)
    ensures !(a.userType.Citizen? || a.userType.Lawyer?) ==> s == MessageStats(0, 0, 0, 0)
    ensures a.userType.Citizen? || a.userType.Lawyer? ==>
      var v := VisibleMessages(st, a);
      && s.total == |v|
      && s.unread == Seqs.Count(v, (m: Message) => !m.isRead && m.sender != a.userId)
      && s.sent == Seqs.Count(v, (m: Message) => m.sender == a.userId)
      && s.received == Seqs.Count(v, (m: Message) => m.sender != a.userId)
  {
    if a.userType.Citizen? || a.userType.Lawyer? then
      var mine := Seqs.Filter(st.messages, (m: Message) => CanSeeMessage(st, a, m));
      VisibleCount(st, a, (m: Message) => !m.isRead && m.sender != a.userId);
      VisibleCount(st, a, (m: Message) => m.sender == a.userId);
      VisibleCount(st, a, (m: Message) => m.sender != a.userId);
      MessageStats(|mine|,
        Seqs.Count(mine, (m: Message) => !m.isRead && m.sender != a.userId),
        Seqs.Count(mine, (m: Message) => m.sender == a.userId),
        Seqs.Count(mine, (m: Message) => m.sender != a.userId))
    else MessageStats(0, 0, 0, 0)
  }

  /** The statistics' unread figure is the unread counter. */
  lemma {:induction false} StatsUnreadIsCounter(st: Store, a: Actor)
    ensures Stats(st, a).unread == UnreadCount(st, a)
  {
    if a.userType.Citizen? || a.userType.Lawyer? {
      var p := (m: Message) => CanSeeMessage(st, a, m);
      var q := (m: Message) => !m.isRead && m.sender != a.userId;
      Seqs.FilterFilter(st.messages, p, q, (m: Message) => CountsAsUnread(st, a, m));
    }
  }

  /** Every message is sent or received, and only received ones are unread. */
  lemma StatsIdentities(st: Store, a: Actor)
    ensures Stats(st, a).sent + Stats(st, a).received == Stats(st, a).total
    ensures Stats(st, a).unread <= Stats(st, a).received
  {
    if a.userType.Citizen? || a.userType.Lawyer? {
      var mine := Seqs.Filter(st.messages, (m: Message) => CanSeeMessage(st, a, m));
      Seqs.CountComplement(mine, (m: Message) => m.sender == a.userId, (m: Message) => m.sender != a.userId);
      Seqs.CountMonotone(mine, (m: Message) => !m.isRead && m.sender != a.userId, (m: Message) => m.sender != a.userId);
    }
  }
}

=== FILE: register_page.dfy ===
/** The registration page: the profile picture check, the CNIC field, the
    password confirmation, and the multipart form it assembles for either
    role's registration endpoint. */
module RegisterPage {
  import opened Domain
  import opened Session
  import AuthContext
  import Text
  import Cnic

  /** The text fields of the form, in the order the form object declares them. */
  const TextKeys: seq<string> := [
    "username", "email", "password", "password2", "first_name", "last_name",
    "phone_number", "address", "city", "cnic", "bar_council_number",
    "experience_years", "consultation_fee", "bio"]

  /** The form state: the text fields (a missing key is the initial empty
      string), the chosen specialty ids, and the chosen picture. */
  datatype Form = Form(values: map<string, string>, specialtyIds: seq<nat>, picture: Option<FileInfo>)

  const EmptyForm: Form := Form(map[], [], None)

  function Value(f: Form, k: string): string {
    if k in f.values then f.values[k] else ""
  }

  /** The picture limit, 5 MiB. */
  const MaxPictureBytes: nat := 5 * 1024 * 1024

  /** What a picture must satisfy before the form keeps it. */
  predicate PictureOk(file: FileInfo) {
    Text.StartsWith(file.mimeType, "image/") && file.size <= MaxPictureBytes
  }

  /** The form holds no picture that is not an image or is over the limit. */
  predicate PictureInvariant(f: Form) {
    f.picture.Some? ==> PictureOk(f.picture.value)
  }

  datatype ImageOutcome = Kept(form: Form) | Refused(message: string)

  /** `handleImageChange`: no file leaves the form as it was; a non-image or
      an oversized file is refused with a message; anything else replaces
      the picture. */
  function ChooseImage(f: Form, file: Option<FileInfo>): (r: ImageOutcome)
    ensures file.None? ==> r == Kept(f)
    ensures r.Kept? && file.Some? ==> r.form == f.(picture := file) && PictureOk(file.value)
    ensures r.Refused? <==> file.Some? && !PictureOk(file.value)
    ensures r.Refused? ==>
      if !Text.StartsWith(file.value.mimeType, "image/") then r.message == "Please upload an image file"
      else r.message == "Image size should be less than 5MB"
  {
    match file
    case None => Kept(f)
    case Some(x) =>
      if !Text.StartsWith(x.mimeType, "image/") then Refused("Please upload an image file")
      else if x.size > MaxPictureBytes then Refused("Image size should be less than 5MB")
      else Kept(f.(picture := file))
  }

  /** Choosing an image never lets a failing picture into the form. */
  lemma ChooseImageKeepsInvariant(f: Form, file: Option<FileInfo>)
    requires PictureInvariant(f)
    ensures ChooseImage(f, file).Kept? ==> PictureInvariant(ChooseImage(f, file).form)
  {
  }

  /** `handleChange` on a plain text field. */
  function SetField(f: Form, k: string, v: string): (r: Form)
    ensures Value(r, k) == v
    ensures forall k' :: k' != k ==> Value(r, k') == Value(f, k')
    ensures r.specialtyIds == f.specialtyIds && r.picture == f.picture
  {
    f.(values := f.values[k := v])
  }

  /** `handleCNICChange`: the typed value is stored formatted. */
  function SetCnic(f: Form, typed: string): (r: Form)
    ensures Value(r, "cnic") == Cnic.Format(typed)
    ensures |Value(r, "cnic")| <= 15
  {
    SetField(f, "cnic", Cnic.Format(typed))
  }

  /** The text parts for `keys`: a part for each key whose value is non-empty,
      in key order. */
  function TextParts(f: Form, keys: seq<string>): (ps: seq<Part>)
    ensures |ps| <= |keys|
    ensures forall i :: 0 <= i < |ps| ==> ps[i].TextPart? && ps[i].key in keys && ps[i].value == Value(f, ps[i].key) && ps[i].value != ""
    ensures forall i :: 0 <= i < |keys| && Value(f, keys[i]) != "" ==> TextPart(keys[i], Value(f, keys[i])) in ps
  {
    if |keys| == 0 then []
    else
      var rest := TextParts(f, keys[1..]);
      if Value(f, keys[0]) != "" then [TextPart(keys[0], Value(f, keys[0]))] + rest else rest
  }

  function SpecialtyParts(ids: seq<nat>): (ps: seq<Part>)
    ensures |ps| == |ids|
    ensures forall i :: 0 <= i < |ids| ==> ps[i] == NumberPart("specialty_ids", ids[i])
  {
    if |ids| == 0 then [] else [NumberPart("specialty_ids", ids[0])] + SpecialtyParts(ids[1..])
  }

  /** The submitted form data: the non-empty text fields in declaration
      order, one `specialty_ids` entry per chosen specialty, and the picture
      when one was kept. */
  function FormData(f: Form): (ps: seq<Part>)
    ensures |ps| == |TextParts(f, TextKeys)| + |f.specialtyIds| + (if f.picture.Some? then 1 else 0)
  {
    TextParts(f, TextKeys) + SpecialtyParts(f.specialtyIds)
    + (match f.picture case Some(p) => [FilePart("profile_picture", p)] case None => [])
  }

  /** The form data carries exactly the non-empty fields, every specialty in
      order, and the picture exactly when the form holds one. */
  lemma {:induction false} FormDataContents(f: Form)
    ensures forall k :: k in TextKeys ==> (TextPart(k, Value(f, k)) in FormData(f) <==> Value(f, k) != "")
    ensures forall k, v :: TextPart(k, v) in FormData(f) ==> k in TextKeys && v == Value(f, k) && v != ""
    ensures forall i :: 0 <= i < |f.specialtyIds| ==>
      FormData(f)[|TextParts(f, TextKeys)| + i] == NumberPart("specialty_ids", f.specialtyIds[i])
    ensures (exists i :: 0 <= i < |FormData(f)| && FormData(f)[i].FilePart?) <==> f.picture.Some?
  {
    var t := TextParts(f, TextKeys);
    var sp := SpecialtyParts(f.specialtyIds);
    var pic: seq<Part> := match f.picture case Some(p) => [FilePart("profile_picture", p)] case None => [];
    assert FormData(f) == t + sp + pic;
    forall k | k in TextKeys && Value(f, k) != ""
      ensures TextPart(k, Value(f, k)) in FormData(f)
    {
      var j :| 0 <= j < |TextKeys| && TextKeys[j] == k;
    }
    forall k, v | TextPart(k, v) in FormData(f)
      ensures k in TextKeys && v == Value(f, k) && v != ""
    {
      assert TextPart(k, v) !in sp;
      assert TextPart(k, v) !in pic;
      assert TextPart(k, v) in t;
    }
    forall i | 0 <= i < |f.specialtyIds|
      ensures FormData(f)[|t| + i] == NumberPart("specialty_ids", f.specialtyIds[i])
    {
      assert FormData(f)[|t| + i] == sp[i];
    }
    if f.picture.Some? {
      assert FormData(f)[|t| + |sp|].FilePart?;
    } else {
      forall i | 0 <= i < |FormData(f)|
        ensures !FormData(f)[i].FilePart?
      {
        if i < |t| {
          assert t[i] == FormData(f)[i];
        } else {
          assert sp[i - |t|] == FormData(f)[i];
        }
      }
    }
  }

  /** What pressing the submit button does before any server call. */
  datatype Submission = Mismatch(message: string) | Send(payload: AuthContext.Payload, userType: string)

  /** `handleSubmit`: mismatching passwords stop the submission; otherwise
      the form data is always sent as a multipart form. */
  function Submit(f: Form, userType: string): (r: Submission)
    ensures r.Mismatch? <==> Value(f, "password") != Value(f, "password2")
    ensures r.Mismatch? ==> r.message == "Passwords do not match"
    ensures r.Send? ==> r.payload == AuthContext.FormPayload(FormData(f)) && r.userType == userType
  {
    if Value(f, "password") != Value(f, "password2") then Mismatch("Passwords do not match")
    else Send(AuthContext.FormPayload(FormData(f)), userType)
  }

  /** A submitted form reaches the role's endpoint with the multipart header. */
  lemma SubmitReachesRoleEndpoint(f: Form, userType: string)
    requires Value(f, "password") == Value(f, "password2")
    ensures var req := AuthContext.RegisterRequest(Submit(f, userType).payload, userType);
      && (req.url == CitizenRegisterPath <==> userType == "citizen")
      && req.headers["Content-Type"] == "multipart/form-data"
  {
  }

  /** The page after the registration call. */
  datatype PageResult = GoToLogin(notice: Option<string>) | ShowError(error: AuthContext.ErrorBody)

  /** Success announces the server's message and moves to the login page;
      failure shows the error body. */
  function AfterRegister(r: AuthContext.RegisterResult): (p: PageResult)
    ensures p.GoToLogin? <==> r.Registered?
    ensures r.Registered? ==> p.notice == (if "message" in r.data then Some(r.data["message"]) else None)
    ensures r.RegisterFailed? ==> p.error == r.error
  {
    match r
    case Registered(data) => GoToLogin(if "message" in data then Some(data["message"]) else None)
    case RegisterFailed(e) => ShowError(e)
  }
}

=== FILE: request_list.dfy ===
/** The case-request list both dashboards show: the request as the client
    receives it, the status filter behind the tabs, the summary counts, and
    the status chip. */
module RequestList {
  import opened Domain
  import Seqs
  import Text

  /** A case request as serialized to the client; `status` is whatever
      string the server sent. */
  datatype RequestView = RequestView(
    id: nat,
    status: string,
    lawyerName: Option<string>,
    unreadMessages: nat,
    hasNewUpdates: bool)

  /** The five status codes the server defines. */
  const StatusCodes: set<string> := {"pending", "accepted", "rejected", "in_progress", "completed"}

  /** The requests whose status is exactly `code`, in list order. */
  function WithStatus(rs: seq<RequestView>, code: string): (r: seq<RequestView>)
    ensures forall i :: 0 <= i < |r| ==> r[i].status == code
    ensures forall i :: 0 <= i < |rs| && rs[i].status == code ==> rs[i] in r
    ensures Seqs.IsSubsequence(r, rs)
  {
    Seqs.Filter(rs, (x: RequestView) => x.status == code)
  }

  /** The requests whose status is none of the five codes. */
  function UnknownStatus(rs: seq<RequestView>): seq<RequestView> {
    Seqs.Filter(rs, (x: RequestView) => x.status !in StatusCodes)
  }

  /** The list a tab shows: everything for 'all', otherwise one status. */
  function Visible(rs: seq<RequestView>, filter: string): (r: seq<RequestView>)
    ensures filter == "all" ==> r == rs
    ensures filter != "all" ==> forall i :: 0 <= i < |r| ==> r[i].status == filter
    ensures filter != "all" ==> forall i :: 0 <= i < |rs| && rs[i].status == filter ==> rs[i] in r
    ensures Seqs.IsSubsequence(r, rs)
  {
    if filter == "all" then
      assert Seqs.IsSubsequence(rs, rs) by { SubsequenceRefl(rs); }
      rs
    else WithStatus(rs, filter)
  }

  lemma {:induction false} SubsequenceRefl(s: seq<RequestView>)
    ensures Seqs.IsSubsequence(s, s)
  {
    if |s| > 0 {
      SubsequenceRefl(s[1..]);
    }
  }

  /** The summary counts of both dashboards. There is no count for rejected
      requests. */
  datatype Stats = Stats(pending: nat, accepted: nat, inProgress: nat, completed: nat, total: nat)

  function Summarize(rs: seq<RequestView>): (st: Stats)
    ensures st.total == |rs|
    ensures st.pending == |WithStatus(rs, "pending")| && st.accepted == |WithStatus(rs, "accepted")|
    ensures st.inProgress == |WithStatus(rs, "in_progress")| && st.completed == |WithStatus(rs, "completed")|
  {
    Stats(|WithStatus(rs, "pending")|, |WithStatus(rs, "accepted")|,
          |WithStatus(rs, "in_progress")|, |WithStatus(rs, "completed")|, |rs|)
  }

  lemma WithStatusStep(rs: seq<RequestView>, code: string)
    requires |rs| > 0
    ensures |WithStatus(rs, code)| == |WithStatus(rs[1..], code)| + (if rs[0].status == code then 1 else 0)
  {
  }

  lemma UnknownStatusStep(rs: seq<RequestView>)
    requires |rs| > 0
    ensures |UnknownStatus(rs)| == |UnknownStatus(rs[1..])| + (if rs[0].status !in StatusCodes then 1 else 0)
  {
  }

  /** Every status string is exactly one of the five codes or none of them;
      the codes differ already in their first letter. */
  lemma ExactlyOneStatus(x: string)
    ensures (if x == "pending" then 1 else 0) + (if x == "accepted" then 1 else 0)
      + (if x == "in_progress" then 1 else 0) + (if x == "completed" then 1 else 0)
      + (if x == "rejected" then 1 else 0) + (if x !in StatusCodes then 1 else 0) == 1
  {
    if x in StatusCodes {
      assert x[0] in {'p', 'a', 'r', 'i', 'c'};
    }
  }

  /** The four counts, the rejected requests and the requests with an
      unknown status account for every request exactly once. */
  lemma {:induction false} SummaryAccountsForAll(rs: seq<RequestView>)
    ensures var st := Summarize(rs);
      st.pending + st.accepted + st.inProgress + st.completed
      + |WithStatus(rs, "rejected")| + |UnknownStatus(rs)| == st.total
  {
    if |rs| > 0 {
      var t := rs[1..];
      SummaryAccountsForAll(t);
      WithStatusStep(rs, "pending");
      WithStatusStep(rs, "accepted");
      WithStatusStep(rs, "in_progress");
      WithStatusStep(rs, "completed");
      WithStatusStep(rs, "rejected");
      UnknownStatusStep(rs);
      ExactlyOneStatus(rs[0].status);
      var p, a, ip, c, rj, u := |WithStatus(t, "pending")|, |WithStatus(t, "accepted")|,
        |WithStatus(t, "in_progress")|, |WithStatus(t, "completed")|, |WithStatus(t, "rejected")|, |UnknownStatus(t)|;
      assert p + a + ip + c + rj + u == |t|;
    }
  }

  /** Each tab's list has the size the matching summary count shows. */
  lemma TabMatchesCount(rs: seq<RequestView>)
    ensures |Visible(rs, "pending")| == Summarize(rs).pending
    ensures |Visible(rs, "accepted")| == Summarize(rs).accepted
    ensures |Visible(rs, "in_progress")| == Summarize(rs).inProgress
    ensures |Visible(rs, "completed")| == Summarize(rs).completed
    ensures |Visible(rs, "all")| == Summarize(rs).total
  {
  }

  /** The chip colour of a status. */
  function StatusColor(status: string): (c: string)
    ensures c == "default" <==> status !in {"pending", "accepted", "rejected", "in_progress"}
    ensures status == "pending" <==> c == "warning"
    ensures status == "accepted" <==> c == "success"
    ensures status == "rejected" <==> c == "error"
    ensures status == "in_progress" <==> c == "info"
  {
    match status
    case "pending" => "warning"
    case "accepted" => "success"
    case "rejected" => "error"
    case "in_progress" => "info"
    case _ => "default"
  }

  /** `s.replace('_', ' ')`: only the first underscore is replaced. */
  function ReplaceFirstUnderscore(s: string): (r: string)
    ensures |r| == |s|
    ensures forall i :: 0 <= i < |s| && s[i] != '_' ==> r[i] == s[i]
    ensures forall i :: 0 <= i < |s| && s[i] == '_' ==>
      r[i] == (if forall j :: 0 <= j < i ==> s[j] != '_' then ' ' else '_')
  {
    if |s| == 0 then []
    else if s[0] == '_' then [' '] + s[1..]
    else [s[0]] + ReplaceFirstUnderscore(s[1..])
  }

  /** The chip label: `status.replace('_', ' ').toUpperCase()`. */
  function StatusLabel(status: string): (l: string)
    ensures |l| == |status|
  {
    Text.Upper(ReplaceFirstUnderscore(status))
  }

  /** A status with at most one underscore, as every defined code, gets a
      label without underscores and without lower-case letters. */
  lemma StatusLabelReadable(status: string)
    requires forall i, j :: 0 <= i < j < |status| ==> !(status[i] == '_' && status[j] == '_')
    ensures forall i :: 0 <= i < |StatusLabel(status)| ==> StatusLabel(status)[i] != '_'
    ensures forall i :: 0 <= i < |StatusLabel(status)| ==> !('a' <= StatusLabel(status)[i] <= 'z')
  {
    var r := ReplaceFirstUnderscore(status);
    forall i | 0 <= i < |r|
      ensures r[i] != '_'
    {
      if status[i] == '_' {
        assert forall j :: 0 <= j < i ==> status[j] != '_';
      }
    }
    Text.UpperHasNoLowerCase(r);
  }

  /** The count badge on the Message button appears only for unread messages. */
  predicate ShowsUnreadBadge(r: RequestView) {
    r.unreadMessages > 0
  }
}

=== FILE: seqs.dfy ===
/** Order-preserving filtering and counting over sequences: the shape of every
    `queryset.filter(...)`, `array.filter(...)` and `COUNT(CASE WHEN ...)` in
    the system. */
module Seqs {

  /** The elements of `s` that satisfy `p`, in their original order. */
  function Filter<T(==)>(s: seq<T>, p: T -> bool): (r: seq<T>)
    ensures |r| <= |s|
    ensures forall i :: 0 <= i < |r| ==> p(r[i])
    ensures forall i :: 0 <= i < |r| ==> r[i] in s
    ensures forall i :: 0 <= i < |s| && p(s[i]) ==> s[i] in r
    ensures IsSubsequence(r, s)
  {
    if |s| == 0 then []
    else if p(s[0]) then [s[0]] + Filter(s[1..], p)
    else Filter(s[1..], p)
  }

  /** `a` can be obtained from `b` by deleting elements: the relative order of
      what remains is kept. */
  predicate IsSubsequence<T(==)>(a: seq<T>, b: seq<T>)
    decreases |b|
  {
    if |a| == 0 then true
    else if |b| == 0 then false
    else if a[0] == b[0] then IsSubsequence(a[1..], b[1..])
    else IsSubsequence(a, b[1..])
  }

  function Count<T(==)>(s: seq<T>, p: T -> bool): nat {
    |Filter(s, p)|
  }

  /** Filtering keeps every element that satisfies `p` exactly as often as
      it occurs, and no other element. */
  lemma {:induction false} FilterMultiplicity<T>(s: seq<T>, p: T -> bool)
    ensures forall x :: multiset(Filter(s, p))[x] == if p(x) then multiset(s)[x] else 0
  {
    if |s| > 0 {
      FilterMultiplicity(s[1..], p);
      assert s == [s[0]] + s[1..];
    }
  }

  /** Filtering by a condition every element meets keeps the whole sequence;
      filtering twice by the same condition is filtering once. */
  lemma {:induction false} FilterAll<T>(s: seq<T>, p: T -> bool)
    requires forall i :: 0 <= i < |s| ==> p(s[i])
    ensures Filter(s, p) == s
  {
    if |s| > 0 {
      FilterAll(s[1..], p);
    }
  }

  lemma FilterIdempotent<T>(s: seq<T>, p: T -> bool)
    ensures Filter(Filter(s, p), p) == Filter(s, p)
  {
    FilterAll(Filter(s, p), p);
  }

  /** Filtering depends only on which elements the condition accepts. */
  lemma {:induction false} FilterCongruent<T>(s: seq<T>, p: T -> bool, q: T -> bool)
    requires forall x :: p(x) == q(x)
    ensures Filter(s, p) == Filter(s, q)
  {
    if |s| > 0 {
      FilterCongruent(s[1..], p, q);
    }
  }

  /** Filters compose: filtering by `p` then `q` is filtering by any `r`
      that holds exactly when both do. */
  lemma {:induction false} FilterFilter<T>(s: seq<T>, p: T -> bool, q: T -> bool, r: T -> bool)
    requires forall x :: r(x) == (p(x) && q(x))
    ensures Filter(Filter(s, p), q) == Filter(s, r)
  {
    if |s| > 0 {
      FilterFilter(s[1..], p, q, r);
    }
  }

  /** Filtering distributes over concatenation. */
  lemma {:induction false} FilterAppend<T>(a: seq<T>, b: seq<T>, p: T -> bool)
    ensures Filter(a + b, p) == Filter(a, p) + Filter(b, p)
  {
    if |a| == 0 {
      assert a + b == b;
    } else {
      assert (a + b)[1..] == a[1..] + b;
      FilterAppend(a[1..], b, p);
    }
  }

  /** A condition and its negation split a sequence: the two counts add up. */
  lemma {:induction false} CountComplement<T>(s: seq<T>, p: T -> bool, q: T -> bool)
    requires forall x :: q(x) == !p(x)
    ensures Count(s, p) + Count(s, q) == |s|
  {
    if |s| > 0 {
      CountComplement(s[1..], p, q);
    }
  }

  /** A count never exceeds the count of a weaker condition. */
  lemma {:induction false} CountMonotone<T>(s: seq<T>, p: T -> bool, q: T -> bool)
    requires forall x :: p(x) ==> q(x)
    ensures Count(s, p) <= Count(s, q)
  {
    if |s| > 0 {
      CountMonotone(s[1..], p, q);
    }
  }

  /** Counts of two conditions that never hold together add up to the count
      of their disjunction. */
  lemma {:induction false} CountDisjoint<T>(s: seq<T>, p: T -> bool, q: T -> bool)
    requires forall x :: !(p(x) && q(x))
    ensures Count(s, p) + Count(s, q) == Count(s, x => p(x) || q(x))
  {
    if |s| > 0 {
      CountDisjoint(s[1..], p, q);
    }
  }

  /** At most `n` leading elements, as SQL `LIMIT n` and a slice `[:n]`. */
  function Take<T(==)>(s: seq<T>, n: nat): (r: seq<T>)
    ensures |r| <= n && |r| <= |s|
    ensures |r| == if |s| <= n then |s| else n
    ensures |s| <= n ==> r == s
    ensures forall i :: 0 <= i < |r| ==> r[i] == s[i]
    ensures multiset(r) <= multiset(s)
  {
    if |s| <= n then s
    else
      assert s == s[..n] + s[n..];
      s[..n]
  }

  /** A count depends only on the elements, not on their order: two
      rearrangements of each other have the same count. */
  lemma {:induction false} CountPermutation<T>(a: seq<T>, b: seq<T>, p: T -> bool)
    requires multiset(a) == multiset(b)
    ensures Count(a, p) == Count(b, p)
    decreases |a|
  {
    if |a| == 0 {
      assert |b| == |multiset(b)| == 0;
    } else {
      var x := a[0];
      assert x in multiset(b);
      var k :| 0 <= k < |b| && b[k] == x;
      var b' := b[..k] + b[k + 1..];
      assert b == b[..k] + [x] + b[k + 1..];
      assert a == [x] + a[1..];
      assert multiset(b) == multiset(b[..k]) + multiset{x} + multiset(b[k + 1..]);
      assert multiset(a) == multiset{x} + multiset(a[1..]);
      assert multiset(b') == multiset(b[..k]) + multiset(b[k + 1..]);
      assert multiset(a[1..]) == multiset(a) - multiset{x};
      assert multiset(b') == multiset(b) - multiset{x};
      CountPermutation(a[1..], b', p);
      FilterAppend(b[..k] + [x], b[k + 1..], p);
      FilterAppend(b[..k], [x], p);
      FilterAppend(b[..k], b[k + 1..], p);
      assert Count(a, p) == Count(a[1..], p) + (if p(x) then 1 else 0);
      assert Count([x], p) == (if p(x) then 1 else 0);
    }
  }

  /** The positions of `s` whose element satisfies `p`. */
  ghost function Positions<T>(s: seq<T>, p: T -> bool): set<int> {
    set i | 0 <= i < |s| && p(s[i])
  }

  /** A count is the number of positions whose element satisfies the
      condition, as SQL `COUNT(*)` over a `WHERE` counts rows. */
  lemma CountSnoc<T>(s: seq<T>, p: T -> bool)
    requires |s| > 0
    ensures Count(s, p) == Count(s[..|s| - 1], p) + (if p(s[|s| - 1]) then 1 else 0)
  {
    var n := |s| - 1;
    assert s == s[..n] + [s[n]];
    FilterAppend(s[..n], [s[n]], p);
    assert Filter([s[n]], p) == if p(s[n]) then [s[n]] else [];
  }

  lemma PositionsSnoc<T>(s: seq<T>, p: T -> bool)
    requires |s| > 0
    ensures var n := |s| - 1;
      Positions(s, p) == Positions(s[..n], p) + (if p(s[n]) then {n} else {}) && n !in Positions(s[..n], p)
  {
    var n := |s| - 1;
    forall i ensures i in Positions(s, p) <==> i in Positions(s[..n], p) + (if p(s[n]) then {n} else {}) {
      if 0 <= i < n {
        assert s[i] == s[..n][i];
      }
    }
  }

  lemma {:induction false} CountIsPositions<T>(s: seq<T>, p: T -> bool)
    ensures Count(s, p) == |Positions(s, p)|
  {
    if |s| > 0 {
      CountIsPositions(s[..|s| - 1], p);
      CountSnoc(s, p);
      PositionsSnoc(s, p);
    }
  }
}

=== FILE: session.dfy ===
/** The HTTP client's session layer: the request interceptor that attaches the
    stored access token as a bearer credential (section 2.1 of RFC 6750), the
    response interceptor that refreshes the access token once per logical
    request on a 401 and otherwise forces a logout and a redirect, and the two
    endpoint choices of the API helpers (registration endpoint, message
    encoding).

    The server and the token-refresh endpoint are parameters: pure functions
    from the request sent to the reply received. Browser storage is the
    `Storage` value threaded through each call; the forced navigation is the
    `redirect` field of the result. */
module Session {
  import opened Domain

  /** The two tokens persisted in browser storage; `None` is a missing key. */
  datatype Storage = Storage(access: Option<string>, refresh: Option<string>)

  const Cleared: Storage := Storage(None, None)

  /** JavaScript truthiness of a value read from storage: present and non-empty. */
  predicate Truthy(o: Option<string>) {
    o.Some? && o.value != ""
  }

  type Json = map<string, string>

  /** An outgoing request: its path, its headers, and the one-time retry flag
      the response interceptor sets on it. */
  datatype Request = Request(url: string, headers: map<string, string>, retry: bool)

  /** What comes back: an HTTP response, or no response at all. */
  datatype HttpReply<D> = Response(status: nat, data: D) | NetworkFailure

  /** The refresh endpoint either issues a new access token or fails. */
  datatype RefreshReply = Issued(access: string) | RefreshError(error: HttpReply<Json>)

  /** Why a call was rejected. */
  datatype Failure<D> =
    | HttpError(reply: HttpReply<D>)        // the error the server call produced, unchanged
    | NoRefreshToken                        // `new Error('No refresh token')`
    | RefreshFailed(refreshReply: HttpReply<Json>) // the refresh call's own error

  datatype Outcome<D> = Fulfilled(status: nat, data: D) | Failed(failure: Failure<D>)

  /** The result of one logical request: the storage afterwards, the outcome,
      every request that reached the server (in order), every refresh token
      sent to the refresh endpoint, and a forced navigation if one happened. */
  datatype CallResult<D> = CallResult(
    storage: Storage,
    outcome: Outcome<D>,
    sent: seq<Request>,
    refreshes: seq<string>,
    redirect: Option<string>)

  const LoginPage := "/login"
  const AuthHeader := "Authorization"

  function Bearer(token: string): string {
    "Bearer " + token
  }

  /** axios treats 2xx as success and rejects everything else. */
  predicate IsSuccess(status: nat) {
    200 <= status < 300
  }

  /** The request interceptor. */
  function AttachToken(st: Storage, req: Request): (r: Request)
    ensures Truthy(st.access) ==>
      r.url == req.url && r.retry == req.retry
      && AuthHeader in r.headers && r.headers[AuthHeader] == Bearer(st.access.value)
      && (forall k :: k in req.headers && k != AuthHeader ==> k in r.headers && r.headers[k] == req.headers[k])
      && r.headers.Keys == req.headers.Keys + {AuthHeader}
    ensures !Truthy(st.access) ==> r == req
  {
    if Truthy(st.access) then req.(headers := req.headers[AuthHeader := Bearer(st.access.value)])
    else req
  }

  /** Attaching twice attaches once. */
  lemma AttachTokenIdempotent(st: Storage, req: Request)
    ensures AttachToken(st, AttachToken(st, req)) == AttachToken(st, req)
  {
  }

  /** Both interceptors around one call. A refresh is attempted only for a 401
      on a request whose retry flag is unset and whose path is not in
      `exempt`; the flag is set before the attempt, and the replay carries it,
      so the replay can never refresh again. The application's client exempts
      nothing (`Call`); `exempt` exists for the corrected login flow. */
  function Intercepted<D>(
    st: Storage, req: Request,
    server: Request -> HttpReply<D>, refresher: string -> RefreshReply,
    exempt: set<string>): (r: CallResult<D>)
    ensures 1 <= |r.sent| <= 2
    ensures r.sent[0] == AttachToken(st, req)
    ensures |r.refreshes| <= 1
    ensures |r.sent| == 2 <==> |r.refreshes| == 1 && r.redirect.None?
    ensures req.retry ==> |r.sent| == 1 && r.refreshes == [] && r.redirect.None? && r.storage == st
    ensures r.refreshes != [] ==> Truthy(st.refresh) && r.refreshes == [st.refresh.value]
    ensures r.refreshes != [] || r.redirect.Some? ==>
      !req.retry && req.url !in exempt && server(r.sent[0]).Response? && server(r.sent[0]).status == 401
    ensures r.redirect.Some? ==> r.redirect == Some(LoginPage) && r.storage == Cleared && r.outcome.Failed?
    ensures r.redirect.None? ==> r.storage.refresh == st.refresh
    ensures r.outcome.Fulfilled? <==>
      server(r.sent[|r.sent| - 1]).Response? && IsSuccess(server(r.sent[|r.sent| - 1]).status)
    decreases if req.retry then 0 else 1
  {
    var out := AttachToken(st, req);
    var reply := server(out);
    if reply.Response? && IsSuccess(reply.status) then
      CallResult(st, Fulfilled(reply.status, reply.data), [out], [], None)
    else if reply.Response? && reply.status == 401 && !out.retry && out.url !in exempt then
      var flagged := out.(retry := true);
      if !Truthy(st.refresh) then
        CallResult(Cleared, Failed(NoRefreshToken), [out], [], Some(LoginPage))
      else
        match refresher(st.refresh.value)
        case RefreshError(e) =>
          CallResult(Cleared, Failed(RefreshFailed(e)), [out], [st.refresh.value], Some(LoginPage))
        case Issued(a) =>
          var renewed := st.(access := Some(a));
          var replay := flagged.(headers := flagged.headers[AuthHeader := Bearer(a)]);
          var inner := Intercepted(renewed, replay, server, refresher, exempt);
          inner.(sent := [out] + inner.sent, refreshes := [st.refresh.value] + inner.refreshes)
    else
      CallResult(st, Failed(HttpError(reply)), [out], [], None)
  }

  /** The application's `api` instance: nothing is exempt from refreshing. */
  function Call<D>(st: Storage, req: Request, server: Request -> HttpReply<D>, refresher: string -> RefreshReply): CallResult<D> {
    Intercepted(st, req, server, refresher, {})
  }

  /** Every request that reaches the server carries the stored access token,
      when one is stored. */
  lemma BearerAttached<D>(st: Storage, req: Request, server: Request -> HttpReply<D>, refresher: string -> RefreshReply)
    requires Truthy(st.access)
    ensures var r := Call(st, req, server, refresher);
      AuthHeader in r.sent[0].headers && r.sent[0].headers[AuthHeader] == Bearer(st.access.value)
  {
  }

  /** A 401 with no refresh token stored: no refresh call, both tokens
      cleared, the client sent to the login page, the caller rejected. */
  lemma {:induction false} NoRefreshTokenLogsOut<D>(
    st: Storage, req: Request, server: Request -> HttpReply<D>, refresher: string -> RefreshReply)
    requires !req.retry && !Truthy(st.refresh)
    requires server(AttachToken(st, req)).Response? && server(AttachToken(st, req)).status == 401
    ensures Call(st, req, server, refresher) ==
      CallResult(Cleared, Failed(NoRefreshToken), [AttachToken(st, req)], [], Some(LoginPage))
  {
  }

  /** A 401 and a successful refresh: the new access token is stored and the
      original request is sent exactly once more, flagged and carrying it. */
  lemma {:induction false} RefreshReplaysOnce<D>(
    st: Storage, req: Request, server: Request -> HttpReply<D>, refresher: string -> RefreshReply)
    requires !req.retry && Truthy(st.refresh)
    requires server(AttachToken(st, req)).Response? && server(AttachToken(st, req)).status == 401
    requires refresher(st.refresh.value).Issued?
    ensures var r := Call(st, req, server, refresher);
      var a := refresher(st.refresh.value).access;
      && |r.sent| == 2
      && r.sent[1].url == req.url && r.sent[1].retry
      && AuthHeader in r.sent[1].headers && r.sent[1].headers[AuthHeader] == Bearer(a)
      && r.storage == Storage(Some(a), st.refresh)
      && r.refreshes == [st.refresh.value]
      && r.redirect.None?
      && (r.outcome.Fulfilled? <==> server(r.sent[1]).Response? && IsSuccess(server(r.sent[1]).status))
  {
    var out := AttachToken(st, req);
    var a := refresher(st.refresh.value).access;
    var replay := out.(retry := true).(headers := out.headers[AuthHeader := Bearer(a)]);
    var inner := Intercepted(st.(access := Some(a)), replay, server, refresher, {});
    assert Call(st, req, server, refresher)
      == inner.(sent := [out] + inner.sent, refreshes := [st.refresh.value] + inner.refreshes);
  }

  /** A 401 and a failed refresh: both tokens removed, redirect to the login
      page, and the caller sees the refresh call's error. */
  lemma {:induction false} FailedRefreshLogsOut<D>(
    st: Storage, req: Request, server: Request -> HttpReply<D>, refresher: string -> RefreshReply)
    requires !req.retry && Truthy(st.refresh)
    requires server(AttachToken(st, req)).Response? && server(AttachToken(st, req)).status == 401
    requires refresher(st.refresh.value).RefreshError?
    ensures Call(st, req, server, refresher) ==
      CallResult(Cleared, Failed(RefreshFailed(refresher(st.refresh.value).error)),
                 [AttachToken(st, req)], [st.refresh.value], Some(LoginPage))
  {
  }

  /** A first 2xx reply is handed to the caller: one request sent, no
      refresh, storage and location untouched. */
  lemma SuccessPassesThrough<D>(
    st: Storage, req: Request, server: Request -> HttpReply<D>, refresher: string -> RefreshReply)
    requires server(AttachToken(st, req)).Response? && IsSuccess(server(AttachToken(st, req)).status)
    ensures var reply := server(AttachToken(st, req));
      Call(st, req, server, refresher) ==
      CallResult(st, Fulfilled(reply.status, reply.data), [AttachToken(st, req)], [], None)
  {
  }

  /** Anything but a first 401 — another error status, no response at all, or
      a 401 on a request already retried — reaches the caller unchanged, with
      no refresh and storage untouched. */
  lemma {:induction false} OtherErrorsPropagate<D>(
    st: Storage, req: Request, server: Request -> HttpReply<D>, refresher: string -> RefreshReply)
    requires var reply := server(AttachToken(st, req));
      !(reply.Response? && IsSuccess(reply.status))
      && (reply.NetworkFailure? || reply.status != 401 || req.retry)
    ensures Call(st, req, server, refresher) ==
      CallResult(st, Failed(HttpError(server(AttachToken(st, req)))), [AttachToken(st, req)], [], None)
  {
  }

  /** Even a server that answers every request with 401 causes at most one
      refresh and at most one redirect: the session cannot loop. */
  lemma AlwaysUnauthorisedTerminates<D>(
    st: Storage, req: Request, data: D, refresher: string -> RefreshReply)
    ensures var r := Call(st, req, (_: Request) => Response(401, data), refresher);
      r.outcome.Failed? && |r.refreshes| <= 1 && |r.sent| <= 2
  {
  }

  // ---- endpoint choices of the API helpers ----

  const CitizenRegisterPath := "/auth/register/citizen/"
  const LawyerRegisterPath := "/auth/register/lawyer/"

  /** `authAPI.register`: the citizen endpoint for exactly 'citizen'. */
  function RegisterEndpoint(userType: string): (p: string)
    ensures p == CitizenRegisterPath <==> userType == "citizen"
    ensures p == LawyerRegisterPath <==> userType != "citizen"
  {
    if userType == "citizen" then CitizenRegisterPath else LawyerRegisterPath
  }

  /** A file picked in the browser. */
  datatype FileInfo = FileInfo(name: string, mimeType: string, size: nat)

  /** The data of `messageAPI.send`. */
  datatype MessageData = MessageData(caseRequest: nat, content: string, attachment: Option<FileInfo>)

  /** One entry of a multipart form body. */
  datatype Part = TextPart(key: string, value: string) | NumberPart(key: string, number: nat) | FilePart(key: string, file: FileInfo)

  datatype Encoded =
    | Multipart(parts: seq<Part>)   // FormData, sent with Content-Type multipart/form-data
    | JsonBody(data: MessageData)  // the object itself, sent as JSON

  /** `messageAPI.send`: multipart exactly when an attachment is present, with
      the request, the content and the file in that order. */
  function EncodeMessage(d: MessageData): (e: Encoded)
    ensures e.Multipart? <==> d.attachment.Some?
    ensures e.Multipart? ==> e.parts == [NumberPart("case_request", d.caseRequest),
                                         TextPart("content", d.content),
                                         FilePart("attachment", d.attachment.value)]
    ensures e.JsonBody? ==> e.data == d
  {
    match d.attachment
    case Some(f) => Multipart([NumberPart("case_request", d.caseRequest), TextPart("content", d.content), FilePart("attachment", f)])
    case None => JsonBody(d)
  }
}

=== FILE: sorting.dfy ===
/** Sorting of query results (`ORDER BY`, `order_by`, model `ordering`) as a
    functional insertion sort under a total comparison. */
module Sorting {

  /** `le` relates every pair one way or the other. */
  ghost predicate Total<T(!new)>(le: (T, T) -> bool) {
    forall a, b :: le(a, b) || le(b, a)
  }

  ghost predicate Transitive<T(!new)>(le: (T, T) -> bool) {
    forall a, b, c :: le(a, b) && le(b, c) ==> le(a, c)
  }

  /** Each element is `le` its successor. */
  predicate Sorted<T>(s: seq<T>, le: (T, T) -> bool) {
    forall i :: 0 < i < |s| ==> le(s[i - 1], s[i])
  }

  function Insert<T(!new)>(x: T, s: seq<T>, le: (T, T) -> bool): (r: seq<T>)
    requires Total(le)
    requires Sorted(s, le)
    ensures Sorted(r, le)
    ensures multiset(r) == multiset(s) + multiset{x}
    ensures |r| == |s| + 1
    ensures r[0] == x || (|s| > 0 && r[0] == s[0])
  {
    if |s| == 0 || le(x, s[0]) then [x] + s
    else
      var rest := Insert(x, s[1..], le);
      assert s == [s[0]] + s[1..];
      [s[0]] + rest
  }

  /** A sorted rearrangement of `s`. */
  function Sort<T(!new)>(s: seq<T>, le: (T, T) -> bool): (r: seq<T>)
    requires Total(le)
    ensures Sorted(r, le)
    ensures multiset(r) == multiset(s)
    ensures |r| == |s|
  {
    if |s| == 0 then []
    else
      assert s == [s[0]] + s[1..];
      Insert(s[0], Sort(s[1..], le), le)
  }

  /** Elements of a sorted rearrangement are exactly the original elements. */
  lemma SortSameElements<T(!new)>(s: seq<T>, le: (T, T) -> bool, x: T)
    requires Total(le)
    ensures x in Sort(s, le) <==> x in s
  {
    assert x in Sort(s, le) <==> x in multiset(Sort(s, le));
    assert x in s <==> x in multiset(s);
  }

  /** Under a transitive order, a sequence sorted step by step is sorted
      between any two positions. */
  lemma {:induction false} SortedPairwise<T(!new)>(s: seq<T>, le: (T, T) -> bool, i: int, j: int)
    requires Transitive(le) && Sorted(s, le)
    requires 0 <= i < j < |s|
    ensures le(s[i], s[j])
  {
    if i < j - 1 {
      SortedPairwise(s, le, i, j - 1);
    }
  }

  /** Lexicographic order on strings by character code, the order a binary
      collation gives `ORDER BY` on a text column. */
  predicate StrLe(a: string, b: string) {
    if |a| == 0 then true
    else if |b| == 0 then false
    else if a[0] < b[0] then true
    else if a[0] > b[0] then false
    else StrLe(a[1..], b[1..])
  }

  lemma {:induction false} StrLeTotal(a: string, b: string)
    ensures StrLe(a, b) || StrLe(b, a)
  {
    if |a| > 0 && |b| > 0 && a[0] == b[0] {
      StrLeTotal(a[1..], b[1..]);
    }
  }
}

=== FILE: text.dfy ===
/** Character and string helpers shared by the client and the server model.
    Case folding is ASCII-only, which is what the browser's `toUpperCase` and
    the database's `LOWER`/`UPPER` do on the ASCII range. */
module Text {

  predicate IsDigit(c: char) {
    '0' <= c <= '9'
  }

  predicate AllDigits(s: string) {
    forall i :: 0 <= i < |s| ==> IsDigit(s[i])
  }

  /** `c` is one of the ten code points from `zero` on. */
  predicate InRun(c: char, zero: int) {
    zero <= c as int < zero + 10
  }

  /** What `\d` matches in a Python pattern applied to a `str`: any
      Unicode decimal digit (general category Nd, Unicode 15.0). These come
      in runs of ten starting at a zero; the ASCII digits are the first. */
  predicate IsDecimal(c: char) {
    InRun(c, 0x30) || InRun(c, 0x660) || InRun(c, 0x6F0) || InRun(c, 0x7C0) || InRun(c, 0x966)
    || InRun(c, 0x9E6) || InRun(c, 0xA66) || InRun(c, 0xAE6) || InRun(c, 0xB66)
    || InRun(c, 0xBE6) || InRun(c, 0xC66) || InRun(c, 0xCE6) || InRun(c, 0xD66)
    || InRun(c, 0xDE6) || InRun(c, 0xE50) || InRun(c, 0xED0) || InRun(c, 0xF20)
    || InRun(c, 0x1040) || InRun(c, 0x1090) || InRun(c, 0x17E0) || InRun(c, 0x1810)
    || InRun(c, 0x1946) || InRun(c, 0x19D0) || InRun(c, 0x1A80) || InRun(c, 0x1A90)
    || InRun(c, 0x1B50) || InRun(c, 0x1BB0) || InRun(c, 0x1C40) || InRun(c, 0x1C50)
    || InRun(c, 0xA620) || InRun(c, 0xA8D0) || InRun(c, 0xA900) || InRun(c, 0xA9D0)
    || InRun(c, 0xA9F0) || InRun(c, 0xAA50) || InRun(c, 0xABF0) || InRun(c, 0xFF10)
    || InRun(c, 0x104A0) || InRun(c, 0x10D30) || InRun(c, 0x11066) || InRun(c, 0x110F0)
    || InRun(c, 0x11136) || InRun(c, 0x111D0) || InRun(c, 0x112F0) || InRun(c, 0x11450)
    || InRun(c, 0x114D0) || InRun(c, 0x11650) || InRun(c, 0x116C0) || InRun(c, 0x11730)
    || InRun(c, 0x118E0) || InRun(c, 0x11950) || InRun(c, 0x11C50) || InRun(c, 0x11D50)
    || InRun(c, 0x11DA0) || InRun(c, 0x11F50) || InRun(c, 0x16A60) || InRun(c, 0x16AC0)
    || InRun(c, 0x16B50) || InRun(c, 0x1D7CE) || InRun(c, 0x1D7D8) || InRun(c, 0x1D7E2)
    || InRun(c, 0x1D7EC) || InRun(c, 0x1D7F6) || InRun(c, 0x1E140) || InRun(c, 0x1E2F0)
    || InRun(c, 0x1E4F0) || InRun(c, 0x1E950) || InRun(c, 0x1FBF0)
  }

  predicate AllDecimal(s: string) {
    forall i :: 0 <= i < |s| ==> IsDecimal(s[i])
  }

  lemma DigitsAreDecimal(s: string)
    requires AllDigits(s)
    ensures AllDecimal(s)
  {
    forall i | 0 <= i < |s| ensures IsDecimal(s[i]) {
      assert InRun(s[i], 0x30);
    }
  }

  function ToLower(c: char): char {
    if 'A' <= c <= 'Z' then (c as int + 32) as char else c
  }

  function ToUpper(c: char): char {
    if 'a' <= c <= 'z' then (c as int - 32) as char else c
  }

  function Lower(s: string): (r: string)
    ensures |r| == |s|
    ensures forall i :: 0 <= i < |s| ==> r[i] == ToLower(s[i])
  {
    if |s| == 0 then [] else [ToLower(s[0])] + Lower(s[1..])
  }

  function Upper(s: string): (r: string)
    ensures |r| == |s|
    ensures forall i :: 0 <= i < |s| ==> r[i] == ToUpper(s[i])
  {
    if |s| == 0 then [] else [ToUpper(s[0])] + Upper(s[1..])
  }

  /** No lower-case ASCII letter survives upper-casing. */
  lemma UpperHasNoLowerCase(s: string)
    ensures forall i :: 0 <= i < |Upper(s)| ==> !('a' <= Upper(s)[i] <= 'z')
  {
  }

  predicate StartsWith(s: string, prefix: string) {
    |prefix| <= |s| && s[..|prefix|] == prefix
  }

  /** `t` occurs in `s` starting at index `i`. */
  ghost predicate OccursAt(s: string, t: string, i: int) {
    0 <= i && i + |t| <= |s| && s[i..i + |t|] == t
  }

  /** Substring test, scanning the candidate start positions left to right. */
  function Contains(s: string, t: string): bool
    decreases |s|
  {
    if StartsWith(s, t) then true
    else if |s| == 0 then false
    else Contains(s[1..], t)
  }

  /** `Contains` is exactly "some start position carries `t`". */
  lemma {:induction false} ContainsIff(s: string, t: string)
    ensures Contains(s, t) <==> exists i :: OccursAt(s, t, i)
    decreases |s|
  {
    forall i | OccursAt(s, t, i)
      ensures Contains(s, t)
    {
      if i == 0 {
        assert s[..|t|] == s[i..i + |t|];
      } else {
        assert s[1..][i - 1..i - 1 + |t|] == s[i..i + |t|];
        assert OccursAt(s[1..], t, i - 1);
        ContainsIff(s[1..], t);
      }
    }
    if Contains(s, t) {
      if StartsWith(s, t) {
        assert OccursAt(s, t, 0);
      } else {
        ContainsIff(s[1..], t);
        var j :| OccursAt(s[1..], t, j);
        assert s[1..][j..j + |t|] == s[j + 1..j + 1 + |t|];
        assert OccursAt(s, t, j + 1);
      }
    }
  }

  /** Case-insensitive substring test, as SQL `LOWER(a) LIKE LOWER('%b%')`
      and Django's `icontains` behave on ASCII text. */
  function IContains(s: string, t: string): bool {
    Contains(Lower(s), Lower(t))
  }

  lemma {:induction false} IContainsIff(s: string, t: string)
    ensures IContains(s, t) <==> exists i :: OccursAt(Lower(s), Lower(t), i)
  {
    var a, b := Lower(s), Lower(t);
    ContainsIff(a, b);
    if IContains(s, t) {
      var i :| OccursAt(a, b, i);
      assert OccursAt(Lower(s), Lower(t), i);
      assert exists j :: OccursAt(Lower(s), Lower(t), j);
    }
    assert IContains(s, t) ==> exists j :: OccursAt(Lower(s), Lower(t), j);
    assert (exists j :: OccursAt(Lower(s), Lower(t), j)) ==> IContains(s, t);
  }

  /** The empty term occurs everywhere. */
  lemma IContainsEmpty(s: string)
    ensures IContains(s, "")
  {
    assert OccursAt(Lower(s), Lower(""), 0);
    IContainsIff(s, "");
  }

  /** White space as JavaScript's `String.prototype.trim` strips it: the
      WhiteSpace and LineTerminator code points of ECMA-262 (tab, vertical
      tab, form feed, the space separators, the byte order mark, line feed,
      carriage return, and the line and paragraph separators). */
  predicate IsSpace(c: char) {
    c == ' ' || c == '\t' || c == '\n' || c == '\r' || c == '\U{000B}' || c == '\U{000C}'
    || c == '\U{00A0}' || c == '\U{1680}' || ('\U{2000}' <= c <= '\U{200A}')
    || c == '\U{2028}' || c == '\U{2029}' || c == '\U{202F}' || c == '\U{205F}'
    || c == '\U{3000}' || c == '\U{FEFF}'
  }

  function TrimStart(s: string): (r: string)
    ensures |r| <= |s| && r == s[|s| - |r|..]
    ensures |r| > 0 ==> !IsSpace(r[0])
    ensures forall i :: 0 <= i < |s| - |r| ==> IsSpace(s[i])
  {
    if |s| > 0 && IsSpace(s[0]) then TrimStart(s[1..]) else s
  }

  function TrimEnd(s: string): (r: string)
    ensures |r| <= |s| && r == s[..|r|]
    ensures |r| > 0 ==> !IsSpace(r[|r| - 1])
    ensures forall i :: |r| <= i < |s| ==> IsSpace(s[i])
  {
    if |s| > 0 && IsSpace(s[|s| - 1]) then TrimEnd(s[..|s| - 1]) else s
  }

  function Trim(s: string): string {
    TrimEnd(TrimStart(s))
  }

  /** `Trim` removes exactly the white space at both ends: what remains is the
      slice of `s` starting at `TrimOffset(s)`, its ends are not space, and
      everything cut off on either side is space. */
  function TrimOffset(s: string): nat {
    |s| - |TrimStart(s)|
  }

  lemma {:induction false} TrimSpec(s: string)
    ensures TrimOffset(s) + |Trim(s)| <= |s|
    ensures s[TrimOffset(s)..TrimOffset(s) + |Trim(s)|] == Trim(s)
    ensures forall i :: 0 <= i < TrimOffset(s) ==> IsSpace(s[i])
  {
    var t := TrimStart(s);
    var a := |s| - |t|;
    var r := TrimEnd(t);
    assert t == s[a..];
    assert s[a..a + |r|] == t[..|r|];
  }

  lemma {:induction false} TrimEnds(s: string)
    ensures forall i :: TrimOffset(s) + |Trim(s)| <= i < |s| ==> IsSpace(s[i])
    ensures |Trim(s)| > 0 ==> !IsSpace(Trim(s)[0]) && !IsSpace(Trim(s)[|Trim(s)| - 1])
  {
    var t := TrimStart(s);
    var a := |s| - |t|;
    TrimEndTail(t);
    var r := TrimEnd(t);
    forall i | a + |r| <= i < |s|
      ensures IsSpace(s[i])
    {
      assert t[i - a] == s[i];
    }
  }

  lemma {:induction false} TrimEndTail(t: string)
    ensures |TrimEnd(t)| > 0 ==> !IsSpace(TrimEnd(t)[0]) || (|t| > 0 && TrimEnd(t)[0] == t[0])
  {
  }

  /** Only an all-space string trims to the empty string. */
  lemma {:induction false} TrimEmptyIff(s: string)
    ensures (forall i :: 0 <= i < |s| ==> IsSpace(s[i])) <==> Trim(s) == ""
  {
    TrimSpec(s);
    TrimEnds(s);
  }

  /** White space as Python's `str.strip()` removes it: the characters
      `str.isspace` accepts (tab, line feed, vertical tab, form feed,
      carriage return, the four information separators, space, next line,
      and the Unicode space separators and line and paragraph separators). */
  predicate PyIsSpace(c: char) {
    ('\t' <= c <= '\r') || ('\U{001C}' <= c <= ' ') || c == '\U{0085}'
    || c == '\U{00A0}' || c == '\U{1680}' || ('\U{2000}' <= c <= '\U{200A}')
    || c == '\U{2028}' || c == '\U{2029}' || c == '\U{202F}' || c == '\U{205F}'
    || c == '\U{3000}'
  }

  function StripStart(s: string): (r: string)
    ensures |r| <= |s| && r == s[|s| - |r|..]
    ensures |r| > 0 ==> !PyIsSpace(r[0])
    ensures forall i :: 0 <= i < |s| - |r| ==> PyIsSpace(s[i])
  {
    if |s| > 0 && PyIsSpace(s[0]) then
      var r := StripStart(s[1..]);
      assert s[1..][|s| - 1 - |r|..] == s[|s| - |r|..];
      assert forall i :: 1 <= i < |s| - |r| ==> s[i] == s[1..][i - 1];
      r
    else s
  }

  function StripEnd(s: string): (r: string)
    ensures |r| <= |s| && r == s[..|r|]
    ensures |r| > 0 ==> !PyIsSpace(r[|r| - 1])
    ensures forall i :: |r| <= i < |s| ==> PyIsSpace(s[i])
  {
    if |s| > 0 && PyIsSpace(s[|s| - 1]) then StripEnd(s[..|s| - 1]) else s
  }

  /** Python's `str.strip()`, which the server's text fields apply to what
      they receive: the result is blank exactly when the input is all white
      space. */
  function Strip(s: string): (r: string)
    ensures |r| <= |s|
    ensures r == "" <==> forall i :: 0 <= i < |s| ==> PyIsSpace(s[i])
    ensures |r| > 0 ==> !PyIsSpace(r[|r| - 1])
  {
    var t := StripStart(s);
    var r := StripEnd(t);
    r
  }

  /** Text without white space is left as it is. */
  lemma StripNoSpace(s: string)
    requires forall i :: 0 <= i < |s| ==> !PyIsSpace(s[i])
    ensures Strip(s) == s
  {
    assert StripStart(s) == s;
  }

  /** Decimal rendering of a natural number, as Python's `str(n)`. */
  function NatToDec(n: nat): (r: string)
    ensures |r| > 0 && AllDigits(r)
    decreases n
  {
    if n < 10 then [('0' as int + n) as char]
    else NatToDec(n / 10) + [('0' as int + n % 10) as char]
  }

  /** The value of a string of decimal digits. */
  function DecValue(s: string): nat
    requires AllDigits(s)
  {
    if |s| == 0 then 0
    else DecValue(s[..|s| - 1]) * 10 + (s[|s| - 1] as int - '0' as int)
  }

  lemma {:induction false} DecRoundTrip(n: nat)
    ensures DecValue(NatToDec(n)) == n
    decreases n
  {
    if n >= 10 {
      DecRoundTrip(n / 10);
      var s := NatToDec(n);
      assert s[..|s| - 1] == NatToDec(n / 10);
    }
  }

  /** Four-digit numbers render as exactly four digits. */
  lemma NatToDecFourDigits(n: nat)
    requires 1000 <= n <= 9999
    ensures |NatToDec(n)| == 4
  {
    assert |NatToDec(n)| == |NatToDec(n / 10)| + 1;
    assert |NatToDec(n / 10)| == |NatToDec(n / 10 / 10)| + 1;
    assert |NatToDec(n / 10 / 10)| == |NatToDec(n / 10 / 10 / 10)| + 1;
  }
}

=== FILE: user_models.dfy ===
/** The rules the account models declare: the uniqueness constraints of the
    profile and link tables, the employee id an administrator profile gets
    on save, and what deleting a user account takes with it through the
    foreign keys' `CASCADE` and `SET_NULL`. */
module UserModels {
  import opened Domain
  import Seqs
  import Text

  /** `bar_council_number` is `unique=True`. */
  predicate UniqueBarNumbers(ls: seq<LawyerProfile>) {
    forall i, j :: 0 <= i < j < |ls| ==> ls[i].barCouncilNumber != ls[j].barCouncilNumber
  }

  /** The lawyer `cnic` is `unique=True, null=True`: any number of profiles
      may lack one, but no two share one. */
  predicate UniqueLawyerCnics(ls: seq<LawyerProfile>) {
    forall i, j :: 0 <= i < j < |ls| && ls[i].cnic.Some? ==> ls[i].cnic != ls[j].cnic
  }

  /** The citizen `cnic` is `unique=True`. */
  predicate UniqueCitizenCnics(cs: seq<CitizenProfile>) {
    forall i, j :: 0 <= i < j < |cs| ==> cs[i].cnic != cs[j].cnic
  }

  /** `unique_together = ('lawyer', 'specialty')`. */
  predicate UniqueLinks(ls: seq<SpecialtyLink>) {
    forall i, j :: 0 <= i < j < |ls| ==> ls[i] != ls[j]
  }

  /** `AdminProfile.save`: a profile without an employee id gets `ADMIN`
      followed by the first eight characters of a fresh UUID's text, upper
      cased; an existing id is kept. `uuid` is the UUID's text, which is
      always 36 characters long. */
  function AssignEmployeeId(current: string, uuid: string): (r: string)
    requires |uuid| == 36
    ensures current != "" ==> r == current
    ensures current == "" ==> |r| == 13 && Text.StartsWith(r, "ADMIN")
    ensures current == "" ==> forall i :: 5 <= i < 13 ==> !('a' <= r[i] <= 'z') && r[i] == Text.ToUpper(uuid[i - 5])
  {
    if current != "" then current else "ADMIN" + Text.Upper(uuid[..8])
  }

  /** Saving twice keeps the id of the first save. */
  lemma EmployeeIdStable(current: string, uuid: string, uuid': string)
    requires |uuid| == 36 && |uuid'| == 36
    ensures AssignEmployeeId(AssignEmployeeId(current, uuid), uuid') == AssignEmployeeId(current, uuid)
  {
    assert AssignEmployeeId(current, uuid) != "" by {
      if current == "" {
        assert |AssignEmployeeId(current, uuid)| == 13;
      }
    }
  }

  /** The profile with id `pid` belongs to user `u`. */
  predicate OwnsLawyer(st: Store, u: nat, pid: nat) {
    exists i :: 0 <= i < |st.lawyers| && st.lawyers[i].id == pid && st.lawyers[i].userId == u
  }

  predicate OwnsCitizen(st: Store, u: nat, pid: nat) {
    exists i :: 0 <= i < |st.citizens| && st.citizens[i].id == pid && st.citizens[i].userId == u
  }

  /** A request whose citizen or lawyer profile is deleted with user `u`. */
  predicate RequestDropped(st: Store, u: nat, r: CaseRequest) {
    OwnsLawyer(st, u, r.lawyer) || OwnsCitizen(st, u, r.requester)
  }

  predicate RequestIdDropped(st: Store, u: nat, id: nat) {
    exists i :: 0 <= i < |st.requests| && st.requests[i].id == id && RequestDropped(st, u, st.requests[i])
  }

  /** A case whose citizen or lawyer profile is deleted with user `u`. */
  predicate CaseDropped(st: Store, u: nat, c: Case) {
    OwnsLawyer(st, u, c.lawyer) || OwnsCitizen(st, u, c.citizen)
  }

  predicate CaseIdDropped(st: Store, u: nat, id: nat) {
    exists i :: 0 <= i < |st.cases| && st.cases[i].id == id && CaseDropped(st, u, st.cases[i])
  }

  /** One profile after `u` is deleted: `verified_by` is `SET_NULL`. */
  function Forgotten(p: LawyerProfile, u: nat): LawyerProfile {
    if p.verifiedBy == Some(u) then p.(verifiedBy := None) else p
  }

  /** `verified_by` is `SET_NULL`: profiles verified by `u` forget it. */
  function ForgetVerifier(ls: seq<LawyerProfile>, u: nat): (r: seq<LawyerProfile>)
    ensures |r| == |ls|
    ensures forall i :: 0 <= i < |ls| ==> r[i] == Forgotten(ls[i], u)
    ensures forall i :: 0 <= i < |ls| ==> r[i].(verifiedBy := ls[i].verifiedBy) == ls[i]
    ensures forall i :: 0 <= i < |ls| ==> r[i].verifiedBy == (if ls[i].verifiedBy == Some(u) then None else ls[i].verifiedBy)
    ensures forall p :: p in ls ==> Forgotten(p, u) in r
    ensures forall p :: p in r ==> exists q :: q in ls && p == Forgotten(q, u)
  {
    if |ls| == 0 then []
    else
      var rest := ForgetVerifier(ls[1..], u);
      var r := [Forgotten(ls[0], u)] + rest;
      assert forall i :: 0 < i < |ls| ==> r[i] == rest[i - 1] && ls[i] == ls[1..][i - 1];
      assert forall p :: p in ls ==> p == ls[0] || p in ls[1..];
      assert forall p :: p in r ==> p == r[0] || p in rest;
      r
  }

  /** `case_request` is `SET_NULL`: surviving cases of deleted requests are
      detached from them. */
  function DetachCases(st: Store, u: nat, cs: seq<Case>): (r: seq<Case>)
    ensures |r| == |cs|
    ensures forall i :: 0 <= i < |cs| ==> r[i] == Detached(st, u, cs[i])
    ensures forall i :: 0 <= i < |cs| ==> r[i].(caseRequest := cs[i].caseRequest) == cs[i]
    ensures forall i :: 0 <= i < |cs| ==>
      r[i].caseRequest == (if cs[i].caseRequest.Some? && RequestIdDropped(st, u, cs[i].caseRequest.value) then None else cs[i].caseRequest)
    ensures forall c :: c in cs ==> Detached(st, u, c) in r
    ensures forall c :: c in r ==> exists d :: d in cs && c == Detached(st, u, d)
  {
    if |cs| == 0 then []
    else
      var rest := DetachCases(st, u, cs[1..]);
      assert forall c :: c in cs ==> c == cs[0] || c in cs[1..];
      [Detached(st, u, cs[0])] + rest
  }

  /** One case after `u` is deleted: `case_request` is `SET_NULL`. */
  function Detached(st: Store, u: nat, c: Case): Case {
    if c.caseRequest.Some? && RequestIdDropped(st, u, c.caseRequest.value) then c.(caseRequest := None) else c
  }

  /** The lawyer table once `u` is deleted. */
  function KeptLawyers(st: Store, u: nat): (r: seq<LawyerProfile>)
    ensures forall i :: 0 <= i < |r| ==> r[i].userId != u && r[i].verifiedBy != Some(u)
    ensures |r| == Seqs.Count(st.lawyers, (p: LawyerProfile) => p.userId != u)
    ensures forall p :: p in st.lawyers && p.userId != u ==> Forgotten(p, u) in r
    ensures forall p :: p in r ==> exists q :: q in st.lawyers && q.userId != u && p == Forgotten(q, u)
  {
    var kept := Seqs.Filter(st.lawyers, (p: LawyerProfile) => p.userId != u);
    var r := ForgetVerifier(kept, u);
    assert forall p :: p in r ==> exists q :: q in kept && p == Forgotten(q, u);
    r
  }

  /** The case table once `u` is deleted. */
  function KeptCases(st: Store, u: nat): (r: seq<Case>)
    ensures forall i :: 0 <= i < |r| ==> !CaseDropped(st, u, r[i])
    ensures |r| == Seqs.Count(st.cases, (c: Case) => !CaseDropped(st, u, c))
    ensures forall c :: c in st.cases && !CaseDropped(st, u, c) ==> Detached(st, u, c) in r
    ensures forall c :: c in r ==> exists d :: d in st.cases && !CaseDropped(st, u, d) && c == Detached(st, u, d)
  {
    var kept := Seqs.Filter(st.cases, (c: Case) => !CaseDropped(st, u, c));
    var r := DetachCases(st, u, kept);
    assert forall i :: 0 <= i < |r| ==> !CaseDropped(st, u, r[i]) by {
      forall i | 0 <= i < |r|
        ensures !CaseDropped(st, u, r[i])
      {
        assert r[i].(caseRequest := kept[i].caseRequest) == kept[i];
      }
    }
    assert forall c :: c in r ==> exists d :: d in kept && c == Detached(st, u, d);
    r
  }

  /** `user.delete()`: the account, its profiles, the deleted lawyer's
      specialty links, the requests and cases of the deleted profiles, the
      hearings and updates of those cases, the messages on those requests,
      and everything the user sent or wrote, all go; references declared
      `SET_NULL` are cleared. */
  function DeleteUser(st: Store, u: nat): (st': Store)
    ensures forall x :: x in st'.users <==> x in st.users && x.id != u
    ensures forall p :: p in st'.citizens <==> p in st.citizens && p.userId != u
    ensures forall i :: 0 <= i < |st'.lawyers| ==> st'.lawyers[i].userId != u && st'.lawyers[i].verifiedBy != Some(u)
    ensures |st'.lawyers| == Seqs.Count(st.lawyers, (p: LawyerProfile) => p.userId != u)
    ensures forall p :: p in st.lawyers && p.userId != u ==> Forgotten(p, u) in st'.lawyers
    ensures forall p :: p in st'.lawyers ==> exists q :: q in st.lawyers && q.userId != u && p == Forgotten(q, u)
    ensures forall p :: p in st'.admins <==> p in st.admins && p.userId != u
    ensures st'.specialties == st.specialties && st'.articles == st.articles
    ensures forall l :: l in st'.links <==> l in st.links && !OwnsLawyer(st, u, l.lawyer)
    ensures forall r :: r in st'.requests <==> r in st.requests && !RequestDropped(st, u, r)
    ensures forall i :: 0 <= i < |st'.cases| ==> !CaseDropped(st, u, st'.cases[i])
    ensures |st'.cases| == Seqs.Count(st.cases, (c: Case) => !CaseDropped(st, u, c))
    ensures forall c :: c in st.cases && !CaseDropped(st, u, c) ==> Detached(st, u, c) in st'.cases
    ensures forall c :: c in st'.cases ==> exists d :: d in st.cases && !CaseDropped(st, u, d) && c == Detached(st, u, d)
    ensures forall h :: h in st'.hearings <==> h in st.hearings && !CaseIdDropped(st, u, h.caseId)
    ensures forall x :: x in st'.updates <==> x in st.updates && !CaseIdDropped(st, u, x.caseId) && x.createdBy != u
    ensures forall m :: m in st'.messages <==> m in st.messages && !RequestIdDropped(st, u, m.caseRequest) && m.sender != u
  {
    Store(
      Seqs.Filter(st.users, (x: User) => x.id != u),
      Seqs.Filter(st.citizens, (p: CitizenProfile) => p.userId != u),
      KeptLawyers(st, u),
      Seqs.Filter(st.admins, (p: AdminProfile) => p.userId != u),
      st.specialties,
      Seqs.Filter(st.links, (l: SpecialtyLink) => !OwnsLawyer(st, u, l.lawyer)),
      Seqs.Filter(st.requests, (r: CaseRequest) => !RequestDropped(st, u, r)),
      KeptCases(st, u),
      Seqs.Filter(st.hearings, (h: Hearing) => !CaseIdDropped(st, u, h.caseId)),
      Seqs.Filter(st.updates, (x: CaseUpdate) => !CaseIdDropped(st, u, x.caseId) && x.createdBy != u),
      Seqs.Filter(st.messages, (m: Message) => !RequestIdDropped(st, u, m.caseRequest) && m.sender != u),
      st.articles)
  }

  /** After the deletion nothing that remains names the deleted user or one
      of their profiles. */
  lemma {:induction false} DeleteUserLeavesNoReference(st: Store, u: nat)
    ensures var st' := DeleteUser(st, u);
      && (forall i :: 0 <= i < |st'.users| ==> st'.users[i].id != u)
      && (forall i :: 0 <= i < |st'.requests| ==> !OwnsLawyer(st, u, st'.requests[i].lawyer))
      && (forall i :: 0 <= i < |st'.links| ==> !OwnsLawyer(st, u, st'.links[i].lawyer))
      && (forall i :: 0 <= i < |st'.messages| ==> st'.messages[i].sender != u)
      && (forall i :: 0 <= i < |st'.updates| ==> st'.updates[i].createdBy != u)
  {
    var st' := DeleteUser(st, u);
    forall i | 0 <= i < |st'.users| ensures st'.users[i].id != u {
      assert st'.users[i] in st'.users;
    }
    forall i | 0 <= i < |st'.requests| ensures !OwnsLawyer(st, u, st'.requests[i].lawyer) {
      assert st'.requests[i] in st'.requests;
    }
    forall i | 0 <= i < |st'.links| ensures !OwnsLawyer(st, u, st'.links[i].lawyer) {
      assert st'.links[i] in st'.links;
    }
    forall i | 0 <= i < |st'.messages| ensures st'.messages[i].sender != u {
      assert st'.messages[i] in st'.messages;
    }
    forall i | 0 <= i < |st'.updates| ensures st'.updates[i].createdBy != u {
      assert st'.updates[i] in st'.updates;
    }
  }
}

=== FILE: user_serializers.dfy ===
/** Citizen and lawyer registration as the registration serializers validate
    and save it, together with the views' success replies, and the two
    computed fields of the user serializers: a user's profile and a lawyer's
    picture URL.

    Text fields arrive as the framework hands them over: a required field is
    `None` when it was not sent, and every text value is stripped of
    surrounding white space (`Text.Strip`) before validation, a blank result
    being rejected. The password strength rules are outside the model and
    arrive as `passwordStrong`; database ids are parameters. */
module UserSerializers {
  import opened Domain
  import Seqs
  import Text
  import Cnic
  import UserModels

  /** The fields both registration forms share. `email` and the names are
      optional; absent names are empty. */
  datatype Account = Account(
    username: Option<string>,
    email: Option<string>,
    password: Option<string>,
    password2: Option<string>,
    firstName: string,
    lastName: string)

  datatype CitizenForm = CitizenForm(
    account: Account,
    address: Option<string>,
    city: Option<string>,
    cnic: Option<string>)

  /** `experienceYears` and `consultationFee` are `None` when missing or not
      a number; the fee is in hundredths. `specialtyIds` is `None` when
      the field was not sent. */
  datatype LawyerForm = LawyerForm(
    account: Account,
    barCouncilNumber: Option<string>,
    experienceYears: Option<int>,
    consultationFee: Option<int>,
    city: Option<string>,
    cnic: Option<string>,
    address: Option<string>,
    specialtyIds: Option<seq<nat>>,
    profilePicture: Option<string>)

  /** The success reply of a registration: its message, the new user and,
      for lawyers, the verification flag the reply shows. */
  datatype Registered = Registered(message: string, user: User, isVerified: Option<bool>)

  const MismatchText := "Password fields didn't match."
  const CnicFormatText := "CNIC must be in format: XXXXX-XXXXXXX-X"
  const LawyerCnicTakenText := "A lawyer with this CNIC already exists."
  const CitizenWelcome := "Citizen registered successfully"
  const LawyerWelcome := "Lawyer registered successfully! Your account is pending admin verification. You will be notified once verified."

  /** A required text field that was sent and is not blank. */
  predicate Filled(v: Option<string>) {
    v.Some? && Text.Strip(v.value) != ""
  }

  /** The stripped value of a field known to be present. */
  function Value(v: Option<string>): string
    requires v.Some?
  {
    Text.Strip(v.value)
  }

  predicate UsernameTaken(st: Store, name: string) {
    exists i :: 0 <= i < |st.users| && st.users[i].username == name
  }

  /** The account fields pass their own validation: a non-blank username not
      yet in use, and non-blank passwords, the first one strong. */
  predicate AccountFieldsOk(st: Store, a: Account, passwordStrong: bool) {
    && Filled(a.username) && !UsernameTaken(st, Value(a.username))
    && Filled(a.password) && passwordStrong
    && Filled(a.password2)
  }

  /** The serializers' `validate`: the two stripped passwords agree. */
  predicate PasswordsMatch(a: Account)
    requires a.password.Some? && a.password2.Some?
  {
    Value(a.password) == Value(a.password2)
  }

  function NewUser(a: Account, id: nat, t: UserType): (u: User)
    requires Filled(a.username)
  {
    User(id, Value(a.username), Text.Strip(a.firstName), Text.Strip(a.lastName), t)
  }

  predicate CitizenCnicTaken(st: Store, cnic: string) {
    exists i :: 0 <= i < |st.citizens| && st.citizens[i].cnic == cnic
  }

  /** Citizen registration. Field errors and a password mismatch are 400s
      that store nothing. A missing email is a server error before anything
      is stored. A CNIC another citizen holds violates the column's
      uniqueness only when the profile is inserted, after the user row:
      the reply is a server error and the user stays stored without a
      profile. */
  function RegisterCitizen(st: Store, f: CitizenForm, passwordStrong: bool, userId: nat, profileId: nat): (h: Handled<Registered>)
    ensures h.reply.BadRequest? <==>
      !(AccountFieldsOk(st, f.account, passwordStrong) && Filled(f.address) && Filled(f.city) && Filled(f.cnic))
      || !PasswordsMatch(f.account)
    ensures h.reply.BadRequest? || (h.reply.ServerError? && f.account.email.None?) ==> h.store == st
    ensures h.reply.ServerError? <==> !h.reply.BadRequest? && (f.account.email.None? || CitizenCnicTaken(st, Value(f.cnic)))
    ensures h.reply.Ok? || h.reply.BadRequest? || h.reply.ServerError?
    ensures h.reply.ServerError? && f.account.email.Some? ==>
      h.store == st.(users := st.users + [NewUser(f.account, userId, Citizen)])
    ensures h.reply.Ok? ==>
      && h.reply.value == Registered(CitizenWelcome, NewUser(f.account, userId, Citizen), None)
      && h.reply.value.user.userType == Citizen
      && h.store == st.(users := st.users + [h.reply.value.user],
                        citizens := st.citizens + [CitizenProfile(profileId, userId, Value(f.address), Value(f.city), Value(f.cnic))])
  {
    var a := f.account;
    if !(AccountFieldsOk(st, a, passwordStrong) && Filled(f.address) && Filled(f.city) && Filled(f.cnic)) then
      Handled(BadRequest(InvalidFieldText), st)
    else if !PasswordsMatch(a) then
      Handled(BadRequest(MismatchText), st)
    else if a.email.None? then
      Handled(ServerError, st)
    else
      var user := NewUser(a, userId, Citizen);
      var st1 := st.(users := st.users + [user]);
      if CitizenCnicTaken(st, Value(f.cnic)) then
        Handled(ServerError, st1)
      else
        var profile := CitizenProfile(profileId, userId, Value(f.address), Value(f.city), Value(f.cnic));
        Handled(Ok(Registered(CitizenWelcome, user, None)), st1.(citizens := st.citizens + [profile]))
  }

  /** `validate_cnic`: the stripped value matches `^\d{5}-\d{7}-\d$`. */
  predicate CnicValid(v: Option<string>)
    requires v.Some?
  {
    Cnic.PatternOk(Value(v))
  }

  predicate LawyerCnicTaken(st: Store, cnic: string) {
    exists i :: 0 <= i < |st.lawyers| && st.lawyers[i].cnic == Some(cnic)
  }

  predicate BarNumberTaken(st: Store, bar: string) {
    exists i :: 0 <= i < |st.lawyers| && st.lawyers[i].barCouncilNumber == bar
  }

  /** `DecimalField(max_digits=10, decimal_places=2)`: at most ten digits in
      all, two of them after the point. */
  predicate FeeFits(fee: int) {
    -10_000_000_000 < fee < 10_000_000_000
  }

  predicate LawyerFieldsOk(st: Store, f: LawyerForm, passwordStrong: bool) {
    && AccountFieldsOk(st, f.account, passwordStrong)
    && Filled(f.barCouncilNumber) && f.experienceYears.Some?
    && f.consultationFee.Some? && FeeFits(f.consultationFee.value)
    && Filled(f.city) && Filled(f.cnic) && Filled(f.address)
  }

  /** The specialties with one of the given ids, in table order, as
      `LawyerSpecialty.objects.filter(id__in=ids)`. */
  function Chosen(st: Store, ids: seq<nat>): (r: seq<Specialty>)
    ensures forall s :: s in r <==> s in st.specialties && s.id in ids
  {
    Seqs.Filter(st.specialties, (s: Specialty) => s.id in ids)
  }

  /** `validated_data.pop('specialty_ids', [])`. */
  function SpecialtyIdsOf(f: LawyerForm): seq<nat> {
    if f.specialtyIds.Some? then f.specialtyIds.value else []
  }

  function LinksFor(profileId: nat, ss: seq<Specialty>): (r: seq<SpecialtyLink>)
    ensures |r| == |ss|
    ensures forall i :: 0 <= i < |ss| ==> r[i] == SpecialtyLink(profileId, ss[i].id)
  {
    if |ss| == 0 then [] else [SpecialtyLink(profileId, ss[0].id)] + LinksFor(profileId, ss[1..])
  }

  /** The profile lawyer registration stores: unverified, as the model's
      default and the serializer's explicit `is_verified=False` both say. */
  function NewLawyerProfile(f: LawyerForm, userId: nat, profileId: nat): LawyerProfile
    requires f.barCouncilNumber.Some? && f.city.Some? && f.cnic.Some? && f.address.Some?
  {
    LawyerProfile(profileId, userId, Value(f.barCouncilNumber), Value(f.city), Some(Value(f.cnic)),
      Some(Value(f.address)), false, None, None, f.profilePicture)
  }

  /** The links `specialties.set(...)` adds for a new profile. */
  lemma {:induction false} LinksForMembers(profileId: nat, ss: seq<Specialty>)
    ensures forall l :: l in LinksFor(profileId, ss) <==> l.lawyer == profileId && exists s :: s in ss && s.id == l.specialty
  {
    var links := LinksFor(profileId, ss);
    forall l: SpecialtyLink | l.lawyer == profileId && exists s :: s in ss && s.id == l.specialty
      ensures l in links
    {
      var k :| 0 <= k < |ss| && ss[k].id == l.specialty;
      assert links[k] == l;
    }
  }

  /** The `create` half of lawyer registration, once validation passed. */
  function SaveLawyer(st: Store, f: LawyerForm, userId: nat, profileId: nat): (h: Handled<Registered>)
    requires Filled(f.account.username)
    requires f.barCouncilNumber.Some? && f.city.Some? && f.cnic.Some? && f.address.Some?
    ensures h.reply.ServerError? <==> f.account.email.None? || BarNumberTaken(st, Value(f.barCouncilNumber))
    ensures !h.reply.ServerError? ==> h.reply.Ok?
    ensures !h.reply.Ok? ==> h.store.lawyers == st.lawyers && h.store.links == st.links
    ensures h.reply.Ok? ==>
      && h.reply.value == Registered(LawyerWelcome, NewUser(f.account, userId, Lawyer), Some(false))
      && h.store.users == st.users + [NewUser(f.account, userId, Lawyer)]
      && h.store.lawyers == st.lawyers + [NewLawyerProfile(f, userId, profileId)]
      && (forall l :: l in h.store.links <==>
            l in st.links
            || (l.lawyer == profileId && f.specialtyIds.Some? && l.specialty in f.specialtyIds.value
                && exists i :: 0 <= i < |st.specialties| && st.specialties[i].id == l.specialty))
    ensures h.reply.Ok? ==> h.store.links == st.links + LinksFor(profileId, Chosen(st, SpecialtyIdsOf(f)))
  {
    if f.account.email.None? then
      Handled(ServerError, st)
    else
      var user := NewUser(f.account, userId, Lawyer);
      if BarNumberTaken(st, Value(f.barCouncilNumber)) then
        Handled(ServerError, st.(users := st.users + [user]))
      else
        var links := LinksFor(profileId, Chosen(st, SpecialtyIdsOf(f)));
        LinksForMembers(profileId, Chosen(st, SpecialtyIdsOf(f)));
        Handled(Ok(Registered(LawyerWelcome, user, Some(false))),
          st.(users := st.users + [user], lawyers := st.lawyers + [NewLawyerProfile(f, userId, profileId)],
              links := st.links + links))
  }

  /** Lawyer registration. Field errors, a malformed CNIC, a password
      mismatch and a CNIC another lawyer holds are 400s, checked in that
      order, that store nothing. A missing email is a server error before
      anything is stored; a bar council number already in use violates its
      uniqueness only when the profile is inserted, leaving the new user
      stored without a profile. Otherwise the lawyer is stored unverified
      and linked to the existing specialties among the given ids. */
  function RegisterLawyer(st: Store, f: LawyerForm, passwordStrong: bool, userId: nat, profileId: nat): (h: Handled<Registered>)
    ensures !LawyerFieldsOk(st, f, passwordStrong) ==> h == Handled(BadRequest(InvalidFieldText), st)
    ensures LawyerFieldsOk(st, f, passwordStrong) && !CnicValid(f.cnic) ==> h == Handled(BadRequest(CnicFormatText), st)
    ensures h.reply.BadRequest? <==>
      !LawyerFieldsOk(st, f, passwordStrong) || !CnicValid(f.cnic) || !PasswordsMatch(f.account)
      || LawyerCnicTaken(st, Value(f.cnic))
    ensures h.reply.BadRequest? ==> h.store == st
    ensures !h.reply.BadRequest? ==> h == SaveLawyer(st, f, userId, profileId)
  {
    var a := f.account;
    if !LawyerFieldsOk(st, f, passwordStrong) then
      Handled(BadRequest(InvalidFieldText), st)
    else if !CnicValid(f.cnic) then
      Handled(BadRequest(CnicFormatText), st)
    else if !PasswordsMatch(a) then
      Handled(BadRequest(MismatchText), st)
    else if LawyerCnicTaken(st, Value(f.cnic)) then
      Handled(BadRequest(LawyerCnicTakenText), st)
    else
      SaveLawyer(st, f, userId, profileId)
  }

  /** What a successful lawyer registration leaves behind: the reply shows
      the account unverified and the stored profile is unverified. */
  lemma RegisteredLawyerUnverified(st: Store, f: LawyerForm, passwordStrong: bool, userId: nat, profileId: nat)
    requires RegisterLawyer(st, f, passwordStrong, userId, profileId).reply.Ok?
    ensures var h := RegisterLawyer(st, f, passwordStrong, userId, profileId);
      && h.reply.value.isVerified == Some(false)
      && h.store.lawyers[|st.lawyers|].userId == userId && h.reply.value.user.id == userId
      && !h.store.lawyers[|st.lawyers|].isVerified
  {
  }

  /** The value the form's CNIC formatter produces from at least thirteen
      typed digits passes the lawyer serializer's format check. */
  lemma {:induction false} FormattedCnicPassesValidation(typed: string)
    requires |Cnic.Digits(typed)| >= 13
    ensures CnicValid(Some(Cnic.Format(typed)))
  {
    var r := Cnic.Format(typed);
    Cnic.FormatAcceptedIff(typed);
    assert Cnic.Formatted(r);
    forall i | 0 <= i < |r| ensures !Text.PyIsSpace(r[i]) {
      if i < 5 {
        assert r[i] == r[..5][i];
      } else if 5 < i < 13 {
        assert r[i] == r[6..13][i - 6];
      } else if i == 14 {
        assert r[i] == r[14..][0];
      }
    }
    Text.StripNoSpace(r);
  }

  /** For what the lawyer serializer sees, the pattern's end anchor adds
      nothing: stripped text cannot end in the newline `$` would allow. */
  lemma CnicValidIsStrict(v: Option<string>)
    requires v.Some?
    ensures CnicValid(v) <==> Cnic.Strict(Value(v))
  {
    Cnic.PatternOkTrimmed(Value(v));
  }

  /** The check takes any Unicode decimal digits: a CNIC typed in
      Arabic-Indic digits passes it. */
  lemma ArabicIndicCnicValid()
    ensures CnicValid(Some(Cnic.ArabicIndicCnic))
  {
    var s := Cnic.ArabicIndicCnic;
    Cnic.ArabicIndicCnicAccepted();
    forall i | 0 <= i < |s| ensures !Text.PyIsSpace(s[i]) {
      if i != 5 && i != 13 {
        assert Text.IsDecimal(s[i]);
      }
    }
    Text.StripNoSpace(s);
  }

  /** The citizen path applies no format check to the CNIC: any non-blank
      value is accepted and stored as sent, stripped. */
  lemma CitizenCnicUnchecked(st: Store, f: CitizenForm, passwordStrong: bool, userId: nat, profileId: nat)
    requires AccountFieldsOk(st, f.account, passwordStrong) && Filled(f.address) && Filled(f.city) && Filled(f.cnic)
    requires PasswordsMatch(f.account) && f.account.email.Some? && !CitizenCnicTaken(st, Value(f.cnic))
    ensures RegisterCitizen(st, f, passwordStrong, userId, profileId).reply.Ok?
    ensures RegisterCitizen(st, f, passwordStrong, userId, profileId).store.citizens[|st.citizens|].cnic == Value(f.cnic)
  {
  }

  /** Appending a profile with an unused CNIC keeps CNICs unique. */
  lemma {:induction false} AppendKeepsCnicsUnique(cs: seq<CitizenProfile>, p: CitizenProfile)
    requires UserModels.UniqueCitizenCnics(cs)
    requires forall i :: 0 <= i < |cs| ==> cs[i].cnic != p.cnic
    ensures UserModels.UniqueCitizenCnics(cs + [p])
  {
    var ds := cs + [p];
    forall i, j | 0 <= i < j < |ds| ensures ds[i].cnic != ds[j].cnic {
      assert ds[i] == cs[i];
    }
  }

  /** Citizen registration keeps citizen CNICs unique. */
  lemma {:induction false} RegisterCitizenKeepsCnicsUnique(st: Store, f: CitizenForm, passwordStrong: bool, userId: nat, profileId: nat)
    requires UserModels.UniqueCitizenCnics(st.citizens)
    ensures UserModels.UniqueCitizenCnics(RegisterCitizen(st, f, passwordStrong, userId, profileId).store.citizens)
  {
    var h := RegisterCitizen(st, f, passwordStrong, userId, profileId);
    if h.reply.Ok? {
      AppendKeepsCnicsUnique(st.citizens, CitizenProfile(profileId, userId, Value(f.address), Value(f.city), Value(f.cnic)));
    } else {
      assert h.store.citizens == st.citizens;
    }
  }

  /** Appending a profile whose bar council number and CNIC are unused keeps
      both unique. */
  lemma {:induction false} AppendKeepsLawyersUnique(ls: seq<LawyerProfile>, p: LawyerProfile)
    requires UserModels.UniqueBarNumbers(ls) && UserModels.UniqueLawyerCnics(ls)
    requires forall i :: 0 <= i < |ls| ==> ls[i].barCouncilNumber != p.barCouncilNumber && ls[i].cnic != p.cnic
    ensures UserModels.UniqueBarNumbers(ls + [p]) && UserModels.UniqueLawyerCnics(ls + [p])
  {
    var ms := ls + [p];
    forall i, j | 0 <= i < j < |ms|
      ensures ms[i].barCouncilNumber != ms[j].barCouncilNumber && (ms[i].cnic.Some? ==> ms[i].cnic != ms[j].cnic)
    {
      assert ms[i] == ls[i];
    }
  }

  /** Adding links of a fresh profile to distinct specialties keeps links
      unique. */
  lemma {:induction false} AppendKeepsLinksUnique(ks: seq<SpecialtyLink>, profileId: nat, ss: seq<Specialty>)
    requires UserModels.UniqueLinks(ks)
    requires forall i :: 0 <= i < |ks| ==> ks[i].lawyer != profileId
    requires forall i, j :: 0 <= i < j < |ss| ==> ss[i].id != ss[j].id
    ensures UserModels.UniqueLinks(ks + LinksFor(profileId, ss))
  {
    var links := LinksFor(profileId, ss);
    var ms := ks + links;
    forall i, j | 0 <= i < j < |ms| ensures ms[i] != ms[j] {
      if i >= |ks| {
        assert ms[i] == links[i - |ks|] && ms[j] == links[j - |ks|];
      } else if j >= |ks| {
        assert ms[i] == ks[i] && ms[j] == links[j - |ks|];
      } else {
        assert ms[i] == ks[i] && ms[j] == ks[j];
      }
    }
  }

  /** Lawyer registration keeps bar council numbers and lawyer CNICs
      unique. */
  lemma {:induction false} RegisterLawyerKeepsProfilesUnique(st: Store, f: LawyerForm, passwordStrong: bool, userId: nat, profileId: nat)
    requires UserModels.UniqueBarNumbers(st.lawyers) && UserModels.UniqueLawyerCnics(st.lawyers)
    ensures var ls := RegisterLawyer(st, f, passwordStrong, userId, profileId).store.lawyers;
      UserModels.UniqueBarNumbers(ls) && UserModels.UniqueLawyerCnics(ls)
  {
    var h := RegisterLawyer(st, f, passwordStrong, userId, profileId);
    if h.reply.Ok? {
      assert h == SaveLawyer(st, f, userId, profileId);
      var p := NewLawyerProfile(f, userId, profileId);
      assert !BarNumberTaken(st, p.barCouncilNumber) && !LawyerCnicTaken(st, p.cnic.value);
      AppendKeepsLawyersUnique(st.lawyers, p);
    }
  }

  /** For a fresh profile id and distinct specialty ids, lawyer registration
      keeps specialty links unique. */
  lemma {:induction false} RegisterLawyerKeepsLinksUnique(st: Store, f: LawyerForm, passwordStrong: bool, userId: nat, profileId: nat)
    requires UserModels.UniqueLinks(st.links)
    requires forall i :: 0 <= i < |st.links| ==> st.links[i].lawyer != profileId
    requires forall i, j :: 0 <= i < j < |st.specialties| ==> st.specialties[i].id != st.specialties[j].id
    ensures UserModels.UniqueLinks(RegisterLawyer(st, f, passwordStrong, userId, profileId).store.links)
  {
    var h := RegisterLawyer(st, f, passwordStrong, userId, profileId);
    if h.reply.Ok? {
      assert h == SaveLawyer(st, f, userId, profileId);
      var ids := SpecialtyIdsOf(f);
      DistinctIds(st.specialties, Chosen(st, ids), (s: Specialty) => s.id in ids);
      AppendKeepsLinksUnique(st.links, profileId, Chosen(st, ids));
    }
  }

  /** Filtering keeps ids distinct. */
  lemma {:induction false} DistinctIds(ss: seq<Specialty>, r: seq<Specialty>, p: Specialty -> bool)
    requires forall i, j :: 0 <= i < j < |ss| ==> ss[i].id != ss[j].id
    requires r == Seqs.Filter(ss, p)
    ensures forall i, j :: 0 <= i < j < |r| ==> r[i].id != r[j].id
  {
    if |ss| > 0 {
      var rest := Seqs.Filter(ss[1..], p);
      DistinctIds(ss[1..], rest, p);
      if p(ss[0]) {
        assert r == [ss[0]] + rest;
        forall j | 0 < j < |r| ensures r[0].id != r[j].id {
          assert r[j] in ss[1..];
        }
      }
    }
  }

  /** A user's profile as `get_profile` renders it. */
  datatype ProfileData =
    | CitizenData(citizen: CitizenProfile)
    | LawyerData(lawyer: LawyerProfile, specialties: seq<Specialty>)
    | AdminData(admin: AdminProfile)

  /** The specialties a lawyer profile is linked to, in table order. */
  function SpecialtiesOf(st: Store, profileId: nat): (r: seq<Specialty>)
    ensures forall s :: s in r <==> s in st.specialties && SpecialtyLink(profileId, s.id) in st.links
  {
    Seqs.Filter(st.specialties, (s: Specialty) => SpecialtyLink(profileId, s.id) in st.links)
  }

  /** `get_profile`: the profile of the user's own type when one exists,
      otherwise none; a profile of another type is never shown. */
  function GetProfile(st: Store, u: User): (r: Option<ProfileData>)
    ensures r.None? <==>
      || (u.userType == Citizen && forall i :: 0 <= i < |st.citizens| ==> st.citizens[i].userId != u.id)
      || (u.userType == Lawyer && forall i :: 0 <= i < |st.lawyers| ==> st.lawyers[i].userId != u.id)
      || (u.userType == Admin && forall i :: 0 <= i < |st.admins| ==> st.admins[i].userId != u.id)
      || u.userType.Unlisted?
    ensures r.Some? && r.value.CitizenData? ==> u.userType == Citizen && r.value.citizen in st.citizens && r.value.citizen.userId == u.id
    ensures r.Some? && r.value.LawyerData? ==> u.userType == Lawyer && r.value.lawyer in st.lawyers && r.value.lawyer.userId == u.id
    ensures r.Some? && r.value.AdminData? ==> u.userType == Admin && r.value.admin in st.admins && r.value.admin.userId == u.id
  {
    match u.userType
    case Citizen => (match CitizenOfUser(st.citizens, u.id) case Some(p) => Some(CitizenData(p)) case None => None)
    case Lawyer => (match LawyerOfUser(st.lawyers, u.id) case Some(p) => Some(LawyerData(p, SpecialtiesOf(st, p.id))) case None => None)
    case Admin => (match AdminOfUser(st.admins, u.id) case Some(p) => Some(AdminData(p)) case None => None)
    case Unlisted(_) => None
  }

  /** A citizen who has just registered with a fresh user id sees, as their
      profile, the address, city and CNIC they registered with. */
  lemma {:induction false} RegisteredCitizenProfile(st: Store, f: CitizenForm, passwordStrong: bool, userId: nat, profileId: nat)
    requires forall i :: 0 <= i < |st.citizens| ==> st.citizens[i].userId != userId
    requires RegisterCitizen(st, f, passwordStrong, userId, profileId).reply.Ok?
    ensures var h := RegisterCitizen(st, f, passwordStrong, userId, profileId);
      GetProfile(h.store, h.reply.value.user)
        == Some(CitizenData(CitizenProfile(profileId, userId, Value(f.address), Value(f.city), Value(f.cnic))))
  {
    var h := RegisterCitizen(st, f, passwordStrong, userId, profileId);
    CitizenOfUserAppend(st.citizens, CitizenProfile(profileId, userId, Value(f.address), Value(f.city), Value(f.cnic)));
  }

  lemma {:induction false} CitizenOfUserAppend(cs: seq<CitizenProfile>, p: CitizenProfile)
    requires forall i :: 0 <= i < |cs| ==> cs[i].userId != p.userId
    ensures CitizenOfUser(cs + [p], p.userId) == Some(p)
  {
    if |cs| > 0 {
      assert (cs + [p])[1..] == cs[1..] + [p];
      CitizenOfUserAppend(cs[1..], p);
    }
  }

  /** `profile_picture_url`: `None` without a stored picture (`name` empty);
      otherwise the file's URL under `mediaUrl`, made absolute with the
      request's origin when the serializer has a request. */
  function ProfilePictureUrl(name: string, mediaUrl: string, origin: Option<string>): (r: Option<string>)
    ensures r.None? <==> name == ""
    ensures r.Some? && origin.None? ==> r.value == mediaUrl + name
    ensures r.Some? && origin.Some? ==> Text.StartsWith(r.value, origin.value) && r.value[|origin.value|..] == mediaUrl + name
  {
    if name == "" then None
    else if origin.Some? then Some(origin.value + mediaUrl + name)
    else Some(mediaUrl + name)
  }
}
